=== FILE: README.md ===
# Reservation frontend — a Dafny model

The repository is a React single-page client for booking restaurant tables.
Customers browse restaurants, book a table, and edit or cancel their own
bookings. Restaurant owners see their restaurant's bookings and mark
arrivals as completed or no-show. Server state sits in a TanStack Query
cache. Forms are validated by react-hook-form rules and zod schemas.

The model covers the client's logic, one module per concern:

- `Wrappers`, `Text`, `Json`, `Domain`: shared vocabulary.
  - `Option` and `Result`.
  - The JavaScript string operations the code relies on: ASCII case mapping, `includes`, `slice`, `padStart`, decimal numerals and `split`.
  - Parsed JSON values, with JavaScript truthiness, optional chaining and `String()` conversion.
  - Users, restaurants and reservations.
- `QueryCache`: the query cache as a map from key to entry. It gives the meaning of `invalidateQueries`, `resetQueries` and `setQueryData`, and of a fetch that succeeds or fails.
- `ApiFetch`: the HTTP wrapper. It builds the request from the options, sorts responses into data and `ApiError`, and normalises thrown errors.
- `Session`: the session controller. This is the `['me']` query plus the login, signup and logout mutations. There are two variants: the context provider and the older `useAuth` hook.
- `Navigation`:
  - the route guard and the login page's redirect;
  - the splash page and the restaurant page's book button;
  - both navigation bars and the user menu.
- `Credentials`:
  - the password and email patterns, each decided by a single scan;
  - the login form and the signup form, with its `catch` clause and owner picker;
  - the zod login and signup schemas.
- `Endpoints`:
  - every backend operation as a request descriptor, with a decoder proved to be its exact inverse;
  - the `{id, ...data}` mutation variables;
  - the reservation list queries and the list each mutation invalidates.
- `ReservationLists`: the owner dashboard and the customer's history page.
  - search, the active/past split and the two sort orders;
  - the desktop table and the mobile cards;
  - the resolve buttons and their notifications.
- `ReservationForms`: the booking forms.
  - the create and edit schemas;
  - the half-hour time slots;
  - the create modal's submit, and the detail modal as a state machine;
  - the form fields and the status badges.

Inputs the client reads from outside become parameters:

- the clock: today's day number and the zone offset;
- the date parser: `dayOf`, from text to day number;
- zod's email check: `isEmail`;
- server responses: `Result` values;
- the user's answer to `confirm`.

Where the code and its own doc comments disagree, the model follows the code:

- The provider's logout resets `['me']` and then invalidates every other query. Invalidating only marks those queries stale. Their data stays in the cache, although the doc comment (`src/features/auth/AuthProvider.jsx:20`) says logout clears it.
- The login page always redirects to `location.state?.from?.pathname || "/home"`. No redirect depends on the user's role.
- The signup form awaits `signup`, which is the mutation's `mutate`. That call never rejects, so the form's `catch` clause is unreachable from a request failure. `Credentials.SignupCatch` models the clause as written.
- An `ApiError` keeps the server's `details` inside `data`, never at the top level. `normalizeApiError` therefore never returns them.
- The signup body carries no `role`.
- `OwnerDashboard.jsx` imports `useResolveReservationMutation`, which `queries.js` does not export.
- `queries.js` imports `completeReservation`, which `api.js` does not export.
- A named import that the imported module does not export fails when the modules are linked, before any of their code runs; a bundler reports it at build time. As written, therefore, no module that imports `src/features/reservations/queries.js` loads: not the owner dashboard, the history page, the two reservation modals, nor the restaurant page that opens the create modal. The model describes these pages and modals as they behave once both exports exist.
- The complete call is modelled as the older hook module writes it: a POST to `/reservations/<id>/complete` with no body.
- The reservation components disable their buttons on `isPending`. The session code is written against TanStack Query v4 (`isLoading`, `invalidateQueries(["me"])`), and a v4 mutation has no `isPending`. The model therefore never disables those buttons, and a second click while a request is in flight sends it again.
- `apiFetch` returns `null` for a response without a JSON body. The detail modal and the create and resolve callbacks read a property of the response, so a `null` body throws a `TypeError` there. That error reaches the error notification although the request succeeded.

## Model

| member | source | states |
|---|---|---|
| Text.Lower | src/features/reservations/pages/OwnerDashboard.jsx:36-38 | `toLowerCase` keeps the length and maps each character through the ASCII lower-case mapping |
| Text.Capitalize | src/features/reservations/components/ReservationStatusBadge.jsx:11 | only the first character is upper-cased; the rest of the text and its length are kept |
| Text.Take | src/features/reservations/components/ReservationDetailModal.jsx:178 | `slice(0, n)` is a prefix of the text, of length `min(n, length)` |
| Text.PadStart2 | src/components/FormFields.jsx:30-31 | `padStart(2, '0')` makes a one-character numeral two characters long and leaves longer ones alone |
| Text.ParseNatToString | src/features/auth/components/signup/SignupRestaurantDetails.jsx:80 | `toString()` of a number reads back as that number |
| Text.NatToStringInjective | src/features/auth/components/signup/SignupRestaurantDetails.jsx:80 | distinct ids print as distinct option values |
| Json.Get | src/lib/fetch.js:40 | `data?.message` is defined only when `data` is an object holding that key |
| Json.OrElse | src/lib/fetch.js:40 | `a \|\| b` is `a` when `a` is truthy, and is truthy whenever the fallback is |
| Json.ArrayOrUndefined | src/lib/apiError.js:7 | `Array.isArray(x) ? x : undefined` is defined exactly for arrays |
| QueryCache.SingleSegmentMatch | src/features/reservations/queries.js:19 | a one-segment filter such as `['my-reservations']` matches exactly the keys that start with its segment, so for a one-segment key it is key equality and it never matches `['restaurants', id]` |
| QueryCache.Invalidate | src/features/auth/AuthProvider.jsx:36 | invalidation marks exactly the matching entries stale and keeps every entry's data and status |
| QueryCache.InvalidateAll | src/features/auth/AuthProvider.jsx:49 | invalidating without a filter marks every entry stale and keeps all data |
| QueryCache.Reset | src/features/auth/AuthProvider.jsx:48 | matching entries return to the initial loading state with no data; others are unchanged |
| QueryCache.SetData | src/features/auth/hooks.js:24 | the key holds fresh, successful data; every other entry is unchanged |
| QueryCache.FetchSucceeded | src/features/auth/queries.js:16-22 | a resolved fetch stores its data fresh; other entries are unchanged |
| QueryCache.FetchFailed | src/features/auth/queries.js:21 | a failed fetch (no retry) sets the error status and keeps the previous data |
| QueryCache.InvalidateIdempotent | src/features/reservations/queries.js:19 | invalidating twice equals invalidating once |
| ApiFetch.BuildRequest | src/lib/fetch.js:16-28 | URL is base plus endpoint; verb defaults to GET; cookies are sent unless `auth` is false; a body is sent exactly when truthy; the caller's headers override the JSON content type |
| ApiFetch.DefaultRequest | src/lib/fetch.js:16-19 | with no options: a GET with cookies, a JSON content type and no body |
| ApiFetch.Classify | src/lib/fetch.js:30-46 | a response is data exactly when ok; otherwise an `ApiError` with the status and the parsed body (or `null`); its message is the body's message when that is a non-empty string, "Request failed" when the body has no truthy message, and otherwise `String()` of the message, which is empty only for an array |
| ApiFetch.EmptyArrayMessageIsEmpty | src/lib/fetch.js:39-43 | a body whose message is `[]` gives an `ApiError` with an empty message |
| ApiFetch.NormalizeApiError | src/lib/apiError.js:1-24 | a `Response` gives its body's message or "An error occurred"; an error with a truthy message keeps it, with array details; anything else gives "An unexpected error occurred"; the message is always truthy |
| ApiFetch.NormalizedApiErrorLosesDetails | src/lib/apiError.js:15-23 | normalising an `ApiError` from a failed response drops the server's details; the message is the server's string, or "Request failed", or the text of another message, and "An unexpected error occurred" when that text is empty |
| ApiFetch.NormalizedDetailsAreArrays | src/lib/apiError.js:7 | normalised details are present only when the source held an array there |
| Session.CurrentUserQuery | src/features/auth/queries.js:16-22 | `['me']` is fetched with `me()`, stays fresh five times longer than the client default, and is never retried |
| Session.MutationOptions | src/features/auth/queries.js:29-34 | `{mutationFn, ...options}` keeps every caller option, and the caller can override `mutationFn` |
| Session.OnSuccess | src/features/auth/AuthProvider.jsx:34-51 | login and signup only invalidate `['me']`; a logout first clears `['me']` (reset in the provider, `null` in the older hook); only the provider's logout invalidates every query |
| Session.Step | src/features/auth/AuthProvider.jsx:27-51 | `mutate` marks its mutation loading, settling marks it success or error with the thrown value, `reset` makes it idle, and none of these touches the cache except a success; a `['me']` fetch leaves every mutation alone and ends the loading, a fetched user becomes the current user, and a failed fetch keeps the previous one |
| Session.CurrentUser | src/features/auth/AuthProvider.jsx:27-28 | a user exactly when `['me']` holds one; `undefined` and `null` data both mean no user |
| Session.IsLoadingUser | src/features/auth/AuthProvider.jsx:29 | the flag the context exposes under either controller; a query never observed counts as loading |
| Session.View | src/features/auth/AuthProvider.jsx:59-78 | each mutation is exposed with `isLoading` exactly while it is loading, and with its error and status |
| Session.Expose | src/features/auth/AuthProvider.jsx:53-79 | the context value shows the `['me']` data, loading exactly while `['me']` is unresolved, each mutation's `isLoading` flag and error, and signup only in the provider |
| Session.StepPreservesMeWellFormed | src/features/auth/AuthProvider.jsx:34-51 | every event keeps `['me']` holding only a user or `null` |
| Session.LoginOrSignupSuccessInvalidatesMe | src/features/auth/AuthProvider.jsx:34-44 | a successful login or signup only marks `['me']` stale: the current user is unchanged until the re-fetch, and the mutation reports success |
| Session.ProviderLogoutSuccess | src/features/auth/AuthProvider.jsx:46-51 | the provider's logout resets `['me']` to loading with no user and marks every other query stale with its data kept |
| Session.LegacyLogoutSuccess | src/features/auth/hooks.js:22-26 | the older hook's logout writes `null` to `['me']`: no user, not loading, other queries untouched |
| Session.MutationBookkeepingLeavesCache | src/features/auth/AuthProvider.jsx:34-51 | starting, failing or resetting a mutation never touches the cache; a failure records its error |
| Session.OperationsIndependent | src/features/auth/AuthProvider.jsx:59-78 | an event about one operation never changes another operation's state |
| Session.CurrentUserWriters | src/features/auth/AuthProvider.jsx:27-51 | only the `['me']` fetch and a successful logout change the current user |
| Session.ReloginUsesRefetchedUser | src/features/auth/AuthProvider.jsx:34-51 | after logout and login the user is the one `/auth/me` returns next |
| Session.LogoutIdempotent | src/features/auth/AuthProvider.jsx:46-51 | logging out twice ends with no user |
| Navigation.ProtectedRoute | src/features/auth/components/ProtectedRoute.jsx:8-16 | nothing while loading; without a user, a replacing redirect to "/login" that records the location; otherwise the children |
| Navigation.LoginTarget | src/features/auth/pages/LoginPage.jsx:10 | the target is the recorded location's path when truthy; "/home" when nothing, or only a path string, was recorded |
| Navigation.LoginPageEffect | src/features/auth/pages/LoginPage.jsx:13-18 | the page navigates exactly when loaded with a user, replacing the entry with the target |
| Navigation.LoginPageRender | src/features/auth/pages/LoginPage.jsx:20-23 | the form shows exactly when loaded without a user |
| Navigation.LoginTargetIgnoresRole | src/features/auth/pages/LoginPage.jsx:10-18 | the redirect does not depend on which user logged in |
| Navigation.GuardLoginRoundTrip | src/features/auth/components/ProtectedRoute.jsx:13 | a visitor turned away from a path sees the login form and is sent back to that same path once a user appears |
| Navigation.GuardAndLoginPageAgree | src/features/auth/pages/LoginPage.jsx:13-23 | the guard shows children exactly when the login page navigates away, and redirects exactly when it shows the form |
| Navigation.SplashLabelMatchesTarget | src/features/SplashPage.jsx:9-21 | owners go to "/owner-dashboard", customers to "/my-reservations", visitors to "/restaurants"; the button label names that route |
| Navigation.SplashTarget | src/features/SplashPage.jsx:9-19 | visitors go to "/restaurants", owners to "/owner-dashboard" and customers to "/my-reservations", each exactly in its case |
| Navigation.SplashLabel | src/features/SplashPage.jsx:48-51 | the button text is never empty and names the route the button opens |
| Navigation.BookClick | src/features/restaurants/pages/RestaurantDetails.jsx:16-22 | without a user, go to "/login" recording the restaurant path; with one, open the booking modal |
| Navigation.BookClickLoginLandsOnHome | src/features/restaurants/pages/RestaurantDetails.jsx:18 | the recorded string has no `pathname`, so after login the visitor lands on "/home", not on the restaurant |
| Navigation.RestaurantDetailsView | src/features/restaurants/pages/RestaurantDetails.jsx:24-36 | loading first, then the error view for an error or a missing restaurant; the modal receives the restaurant's id and name and the open flag |
| Navigation.AvatarFallback | src/layouts/navbar/components/NavbarDropdownMenu.jsx:16 | the upper-cased first letter of the first name; empty for an empty name |
| Navigation.Dropdown | src/layouts/navbar/components/NavbarDropdownMenu.jsx:22-56 | the role link (owners to the dashboard, others to their reservations), the name/email/role lines, and logout disabled with a spinner exactly while logging out |
| Navigation.DropdownAgreesWithSplash | src/layouts/navbar/components/NavbarDropdownMenu.jsx:34-48 | the menu link goes where the splash button goes, under the same name |
| Navigation.Navbar | src/layouts/navbar/Navbar.jsx:13-54 | the user menu with a user; without one, a "/login" button everywhere but the login page |
| Navigation.LogoutNavigatesBeforeSessionEnds | src/layouts/navbar/Navbar.jsx:15-18 | running `handleLogout`'s effects against the session: `await` on `mutate` does not wait, so the app is on "/" while the logout is loading and the session still holds its user; a logout that then fails leaves that user signed in |
| Navigation.HandleLogout | src/layouts/navbar/Navbar.jsx:15-18 | the logout is started first and "/" follows with nothing awaited in between; run against the session, the lemma above shows what the user sees |
| Navigation.LegacyNavbar | src/layouts/Navbar.jsx:8-36 | logo to "/dashboard"; the login link except on the login page; with a user, the first name and a logout button disabled and relabelled while logging out |
| Navigation.NavbarsAgree | src/layouts/Navbar.jsx:23-36 | both bars offer the login link in exactly the same sessions and show user controls exactly when there is a user |
| Navigation.LogoutThenGuard | src/features/auth/components/ProtectedRoute.jsx:8-13 | after logout the guard never shows the protected view: with the provider, nothing and then the redirect once `/auth/me` fails; with the older hook, the redirect at once |
| Credentials.SpecialClassListed | src/features/auth/components/LoginForm.jsx:75 | the character ranges used are exactly the pattern's special-character class |
| Credentials.CheckPassword | src/features/auth/components/LoginForm.jsx:71-79 | one scan accepts exactly the passwords the strength pattern accepts: 8+ UTF-16 units with no line terminator, and a lower case letter, an upper case letter, a digit and a special character |
| Credentials.CheckLoginEmail | src/features/auth/components/LoginForm.jsx:50-56 | one scan accepts exactly the texts the email pattern accepts |
| Credentials.EmailScanDecides | src/features/auth/components/LoginForm.jsx:53 | the scan's final state (single `@` not first, no whitespace, a later dot not last) decides the pattern |
| Credentials.LoginFieldErrors | src/features/auth/components/LoginForm.jsx:50-79 | "required" exactly for an empty field; otherwise the pattern message exactly when the pattern fails |
| Credentials.LoginSubmit | src/features/auth/components/LoginForm.jsx:27-30 | the form is reset to an empty password and `login` receives the submitted data |
| Credentials.LoginRootError | src/features/auth/components/LoginForm.jsx:21-25 | a login error with a truthy message becomes the root error; otherwise the root error is kept |
| Credentials.LoginFailureShowsServerMessage | src/features/auth/components/LoginForm.jsx:22-23 | a rejected login puts on the form the server's message when it is a non-empty string, "Request failed" when there is none, the text of any other message, and keeps the previous root error when that text is empty |
| Credentials.EmptyArrayMessageNotShown | src/features/auth/components/LoginForm.jsx:22 | a failure whose message is `[]` leaves the form's root error as it was |
| Credentials.LoginFormRender | src/features/auth/components/LoginForm.jsx:32-95 | with a user, "Logged in as" and the email; otherwise the form, whose button is disabled and reads "Logging in..." exactly while logging in |
| Credentials.SignupFieldErrors | src/features/auth/components/SignupForm.jsx:63-128 | each name and the email are only required; the password must match the strength pattern; the confirmation must be non-empty and equal to the password |
| Credentials.SignupPayload | src/features/auth/components/SignupForm.jsx:33-39 | the four fields are passed through; `restaurantId` is sent only for an owner with a non-empty choice, otherwise `null` |
| Credentials.OwnerToggled | src/features/auth/components/SignupForm.jsx:25-29 | unchecking the owner box clears `restaurantId` and nothing else |
| Credentials.UncheckedOwnerSendsNull | src/features/auth/components/SignupForm.jsx:38 | after unchecking, the request carries `null` even if the box is checked again before a new choice |
| Credentials.SignupCatch | src/features/auth/components/SignupForm.jsx:42-51 | as written: throws for `undefined` or `null`; field issues exactly for a non-empty details array with no `null` entry, one per entry in order; a `null` entry throws after the issues of the entries before it are set; a non-array with a truthy length throws at once; otherwise a root issue with the message |
| Credentials.ForEachDetail | src/features/auth/components/SignupForm.jsx:44-46 | `forEach` sets one issue per entry in order and throws exactly when an entry is `null`, right at the first one, keeping the issues already set |
| Credentials.NullEntryKeepsEarlierIssues | src/features/auth/components/SignupForm.jsx:44-46 | details `[{field: "email", message: "x"}, null]` set the email issue and then throw |
| Credentials.SignupApiErrorIsRootLevel | src/features/auth/components/SignupForm.jsx:43-49 | an `ApiError` from a failed response always becomes a root issue, since its details live inside `data` |
| Credentials.SignupSubmit | src/features/auth/components/SignupForm.jsx:31-52 | awaiting `mutate` never throws: form errors are never set, and a failure only appears as the mutation's error |
| Credentials.RestaurantOptions | src/features/auth/components/SignupForm.jsx:156-160 | one option per restaurant, labelled by its name, valued by a decimal numeral |
| Credentials.OptionValueIdentifiesRestaurant | src/features/auth/components/SignupForm.jsx:157 | an option's value reads back as its restaurant's id, so two options share a value exactly when they share an id |
| Credentials.SignupRestaurantSection | src/features/auth/components/SignupForm.jsx:144-163 | shown only for owners; loading and error notes; the select exactly when neither |
| Credentials.RestaurantPicker | src/features/auth/components/signup/SignupRestaurantDetails.jsx:24-88 | shown only for owners: loading, then the error, then "no restaurants" for an empty list, then the select; the label is dimmed exactly when there is none |
| Credentials.SignupPickersAgree | src/features/auth/components/signup/SignupRestaurantDetails.jsx:59-88 | once loaded, both signup forms offer the same restaurants under the same values; only the plain form shows an empty select |
| Credentials.LoginSchemaIssues | src/features/auth/schemas.js:3-6 | no issues exactly for a valid email and a non-empty password, with the message of each failing field |
| Credentials.LoginFormPasswordImpliesSchema | src/features/auth/schemas.js:5 | a password the form accepts also passes the schema's password rule |
| Credentials.SignupSchemaIssues | src/features/auth/schemas.js:8-24 | no issues exactly when every field rule and the match refinement hold; the refinement reports on `confirmPassword` |
| Credentials.ParseSignup | src/features/auth/schemas.js:18-19 | accepted data keeps the fields and defaults `isOwner` to false; rejected input yields the schema's issues |
| Credentials.SchemaAcceptedPassesFormRules | src/features/auth/schemas.js:8-24 | values the schema accepts also pass the plain signup form's rules |
| Endpoints.Describe | src/features/reservations/api.js:12-96 | reads send no verb; each write sends its verb; the update sends its changes as body; the resolve sends `{status}` |
| Endpoints.ParseId | src/features/reservations/api.js:27 | an id segment parses only from the numeral the interpolation prints |
| Endpoints.DecodeDescribe | src/features/auth/api.js:14-62 | every descriptor decodes back to its operation |
| Endpoints.DescribeDecode | src/features/reservations/api.js:26-96 | every call that decodes is exactly the descriptor of what it decodes to |
| Endpoints.DescribeInjective | src/features/reservations/api.js:12-96 | distinct operations never share a call |
| Endpoints.Destructure | src/features/reservations/queries.js:28 | `{id, ...data}` takes out the key and leaves every other property unchanged |
| Endpoints.DestructureSpread | src/features/reservations/queries.js:39 | destructuring undoes `{key: v, ...rest}` when the rest does not hold the key |
| Endpoints.SpreadOverride | src/features/reservations/components/ReservationDetailModal.jsx:82-85 | a key inside the spread values overrides the leading one |
| Endpoints.Interpolated | src/features/reservations/api.js:27 | a template literal prints a non-negative whole number as its numeral |
| Endpoints.UpdateCall | src/features/reservations/queries.js:24-33 | the update mutation PUTs the variables without `id` |
| Endpoints.CreateCall | src/features/reservations/queries.js:35-44 | the create mutation POSTs the variables without `restaurantId` |
| Endpoints.MutationCallsMatchDescriptors | src/features/reservations/queries.js:28-39 | the modals' variables produce exactly the update and create descriptors |
| Endpoints.MissingIdIsNoOperation | src/features/reservations/useReservations.js:29-42 | without an id the update goes to "/reservations/undefined", which is no backend operation |
| Endpoints.ListKey | src/features/reservations/queries.js:4-10 | list keys are one segment |
| Endpoints.ListEndpoint | src/features/reservations/useReservations.js:60-69 | both hook sets read "my-reservations" the same way; only the queries module uses "/reservations/owner-reservations" |
| Endpoints.SelectData | src/features/reservations/queries.js:8 | `res.data` throws exactly on a `null` body and otherwise is the `data` property |
| Endpoints.HookSetsDifferOnlyInOwnerPath | src/features/reservations/useReservations.js:65 | the two hook sets agree on the customer list and differ on the owner path |
| Endpoints.InvalidatedList | src/features/reservations/queries.js:54-63 | only the complete mutation invalidates the owner list; the others invalidate the customer's |
| Endpoints.MutationTouchesOnlyItsList | src/features/reservations/queries.js:17-20 | on success a mutation marks its own list stale and leaves every other entry unchanged |
| Endpoints.ReservationMutationsKeepSession | src/features/reservations/queries.js:12-63 | no reservation mutation touches `['me']` |
| ReservationLists.Filter | src/features/reservations/pages/OwnerDashboard.jsx:42-43 | `filter` keeps exactly the elements satisfying the predicate, as a sub-multiset |
| ReservationLists.FilterSplits | src/features/reservations/pages/ReservationHistory.jsx:33-34 | filtering by a predicate and by its negation partitions the list |
| ReservationLists.FilterAll | src/features/reservations/pages/OwnerDashboard.jsx:35-40 | a predicate every element satisfies keeps the list unchanged |
| ReservationLists.SearchReservations | src/features/reservations/pages/OwnerDashboard.jsx:35-40 | exactly the reservations whose lower-cased name or email contains the lower-cased term; `undefined` data gives none |
| ReservationLists.MatchesSearch | src/features/reservations/pages/OwnerDashboard.jsx:35-39 | the empty term matches every reservation; a term longer than both the name and the email matches none |
| ReservationLists.EmptySearchKeepsAll | src/features/reservations/pages/OwnerDashboard.jsx:22 | the initial empty search keeps every reservation, in order |
| ReservationLists.SearchIgnoresCase | src/features/reservations/pages/OwnerDashboard.jsx:36 | the search does not depend on the term's letter case |
| ReservationLists.Insert | src/features/reservations/pages/OwnerDashboard.jsx:46-47 | insertion into a sorted list stays sorted and adds exactly one element |
| ReservationLists.SortBy | src/features/reservations/pages/OwnerDashboard.jsx:46-47 | the sort is a permutation in order: active ascending, past descending by instant |
| ReservationLists.SortBySorted | src/features/reservations/pages/ReservationHistory.jsx:36-40 | a list already in order is left as it is |
| ReservationLists.SortByMembers | src/features/reservations/pages/ReservationHistory.jsx:37 | sorting keeps exactly the members |
| ReservationLists.SplitTabs | src/features/reservations/pages/OwnerDashboard.jsx:42-47 | the active tab holds exactly the active reservations, soonest first; the other tab holds the rest, most recent first |
| ReservationLists.SplitTabsPartitions | src/features/reservations/pages/OwnerDashboard.jsx:109-113 | every reservation is in exactly one tab, so the tab counts add up to the list |
| ReservationLists.OwnerDashboard | src/features/reservations/pages/OwnerDashboard.jsx:35-63 | loading first; then the error with its message, exactly when the error is truthy (`if (error)`); otherwise the two tabs, which together hold exactly the searched list |
| ReservationLists.ReservationHistory | src/features/reservations/pages/ReservationHistory.jsx:21-92 | loading; then the error with its message, exactly when the error is truthy; otherwise the tabs, where the empty state and the empty note appear exactly for empty tabs |
| ReservationLists.HistoryIsUnsearchedDashboard | src/features/reservations/pages/ReservationHistory.jsx:25-40 | for any error, the history page fails exactly when the dashboard does; otherwise its tabs are the dashboard's tabs for an empty search |
| ReservationLists.CardClicked | src/features/reservations/pages/ReservationHistory.jsx:16-19 | a card click selects that card's reservation and opens the modal |
| ReservationLists.ModalOpenChanged | src/features/reservations/pages/ReservationHistory.jsx:96-100 | the modal's open flag follows its callback, and the selection is kept |
| ReservationLists.DesktopTable | src/features/reservations/components/OwnerTableViewTabletDesktop.jsx:25-89 | one row per reservation in order, or the "no reservations" row across 5 or 4 columns; when actions show, buttons exactly for due reservations, disabled exactly by the resolve request's flag, and "arriving soon" for the others; no action cell content without actions |
| ReservationLists.MobileCards | src/features/reservations/components/OwnerTableViewMobile.jsx:10-74 | one card per reservation, or the note; buttons exactly for due reservations when actions show, disabled exactly by the resolve request's flag; "arriving soon" for every reservation not yet due |
| ReservationLists.CanUpdate | src/features/reservations/pages/OwnerDashboard.jsx:65-69 | a reservation is due exactly when its instant is not after the render's clock |
| ReservationLists.UpdatableComeFirst | src/features/reservations/pages/OwnerDashboard.jsx:44-69 | in the active tab, sorted soonest first, every due reservation precedes every one still to come, so the rows with buttons form a prefix |
| ReservationLists.RowAction | src/features/reservations/components/OwnerTableViewTabletDesktop.jsx:66-89 | an empty cell exactly without actions; both resolve buttons exactly for a due reservation, disabled by the resolve request's flag; otherwise "arriving soon" |
| ReservationLists.ViewsAgreeOnActions | src/features/reservations/components/OwnerTableViewMobile.jsx:48-74 | with actions both views offer the same buttons and notes; without them only the mobile cards still say "arriving soon" |
| ReservationLists.ResolveArguments | src/features/reservations/components/OwnerTableViewTabletDesktop.jsx:71-80 | each button resolves its own reservation, as "completed" or "no-show" |
| ReservationLists.ResolveToast | src/features/reservations/pages/OwnerDashboard.jsx:28-32 | success shows the response's message or the default; a `null` response shows the `TypeError` of reading its `message` as an error; failure shows the error's message or the default; nothing only when the rejection is `null` or `undefined`; every shown text is truthy |
| ReservationLists.ResolveFailureShowsServerMessage | src/features/reservations/pages/OwnerDashboard.jsx:31 | a rejected resolve shows an error with the server's message when it is a non-empty string, "Request failed" when there is none, the text of any other message, and the default only when that text is empty |
| ReservationForms.PersonsIssues | src/features/reservations/schemas.js:8 | no issue exactly for a number in 1..20; "At least 1 person" below, the schema's maximum message above, and `NaN` only as a type issue |
| ReservationForms.BookingIssuesAsWritten | src/features/reservations/components/ReservationCreateModal.jsx:38 | as written, the past-date issue appears exactly when the date's UTC midnight is before local midnight today |
| ReservationForms.TodayRejectedWestOfUtc | src/features/reservations/schemas.js:4 | west of UTC, the check as written rejects today, though today is not in the past |
| ReservationForms.DateCheckAgreesEastOfUtc | src/features/reservations/schemas.js:4 | at UTC and east of it, the check as written is the intended "today or later" |
| ReservationForms.BookingIssues | src/features/reservations/components/ReservationCreateModal.jsx:37-43 | no issues exactly for a date today or later, a non-empty time and 1..20 persons, each failure with its message |
| ReservationForms.BookingIssuesAgreeEastOfUtc | src/features/reservations/components/ReservationCreateModal.jsx:38 | at UTC and east of it, both readings give the same issues |
| ReservationForms.DetailIssues | src/features/reservations/components/ReservationDetailModal.jsx:31-35 | the edit schema only requires date and time, with its own messages and "Max 20 persons" |
| ReservationForms.BookingAcceptedIsDetailAccepted | src/features/reservations/components/ReservationDetailModal.jsx:31-35 | what the create schema accepts, the edit schema accepts |
| ReservationForms.DetailAcceptsPastDates | src/features/reservations/components/ReservationDetailModal.jsx:32 | the edit schema accepts yesterday, which the create schema rejects |
| ReservationForms.ParseTimeLabel | src/components/FormFields.jsx:30-31 | an `HH:MM` label of two-digit parts reads back as its minute of the day |
| ReservationForms.ParseLabel | src/components/FormFields.jsx:30 | zero-padded hours and minutes read back as `h * 60 + m` |
| ReservationForms.SlotMinutes | src/components/FormFields.jsx:28-32 | slot `i` is `30 * i` minutes after noon |
| ReservationForms.GenerateTimeSlots | src/features/reservations/components/ReservationCreateModal.jsx:45-50 | the loop yields exactly the 24 slot labels, slot `i` at `12:00 + 30i` minutes |
| ReservationForms.SlotTableFacts | src/components/FormFields.jsx:28-32 | slots run from 12:00 to 23:30 in strictly increasing half hours and include "19:00" |
| ReservationForms.DefaultTimeSlot | src/features/reservations/components/ReservationCreateModal.jsx:60 | the default time is one of the slots |
| ReservationForms.DisplayTime | src/features/reservations/components/ReservationDetailModal.jsx:178 | "Time not available" for an empty time; otherwise its first five characters |
| ReservationForms.DisplayTimeShowsSlot | src/features/reservations/components/ReservationDetailModal.jsx:178 | a server time `HH:MM:SS` from a slot displays as that slot |
| ReservationForms.CreateDefaultsValid | src/features/reservations/components/ReservationCreateModal.jsx:58-62 | the defaults pass the intended schema |
| ReservationForms.CreateDefaultsRejectedWestOfUtc | src/features/reservations/components/ReservationCreateModal.jsx:59 | west of UTC the default date fails the check as written |
| ReservationForms.CreateRequest | src/features/reservations/components/ReservationCreateModal.jsx:66-67 | the request is the create operation for this restaurant with the parsed data |
| ReservationForms.SettleCreate | src/features/reservations/components/ReservationCreateModal.jsx:68-83 | a booked response closes and resets the modal with a success toast; otherwise the modal stays as it was with an error toast, which for a `null` response carries the `TypeError` of reading `success`; no toast exactly when the rejection is `null` or `undefined`, since reading its `message` throws; every toast text is truthy |
| ReservationForms.CreateSubmit | src/features/reservations/components/ReservationCreateModal.jsx:65-85 | under the calendar-day date rule (see Findings): a request exactly when the schema accepts, and a toast exactly when a request is sent and its rejection, if any, is not `null` or `undefined`; invalid values show their issues and send nothing; only a booked response closes and resets |
| ReservationForms.BookedSubmitReopensValid | src/features/reservations/components/ReservationCreateModal.jsx:74-75 | under the calendar-day date rule: after a booking the modal is closed and holds defaults the schema accepts |
| ReservationForms.Footer | src/features/reservations/components/ReservationDetailModal.jsx:201-232 | an active reservation gets Edit and Cancel Reservation, or Cancel Edit and Save while editing, each disabled exactly by the flag the JSX passes it; any other gets only Close |
| ReservationForms.PendingMutationsDoNotBlock | src/features/reservations/components/ReservationDetailModal.jsx:205-222 | the flags read `isPending`, undefined in v4, so a Save during a pending update sends the update again and a confirmed Cancel during a pending cancellation sends it again |
| ReservationForms.UnchangedSaveResendsReservation | src/features/reservations/components/ReservationDetailModal.jsx:53-92 | opening, editing and saving an untouched active reservation sends its own date, time and party size back as the update |
| ReservationForms.CardOpensItsReservation | src/features/reservations/pages/ReservationHistory.jsx:16-19 | a card click opens the modal on that card's reservation, which the modal loads into its form |
| ReservationForms.ReopeningShowsSameReservation | src/features/reservations/pages/ReservationHistory.jsx:96-100 | the modal's close goes through `setIsModalOpen(false)` and keeps the selection, so reopening shows the same reservation |
| ReservationForms.UpdateRequest | src/features/reservations/components/ReservationDetailModal.jsx:82-85 | the request is the update of this reservation with the parsed values |
| ReservationForms.DetailStep | src/features/reservations/components/ReservationDetailModal.jsx:53-232 | a request only from an open modal on an active reservation, on Save or a confirmed Cancel; the form values change only on opening or by typing while editing; edit mode starts only from the offered Edit button; the modal opens or closes only on opening, the dialog's close, Close or a settled cancellation |
| ReservationForms.SelectedDetailStep | src/features/reservations/components/ReservationDetailModal.jsx:53-66 | with no reservation selected no event changes the modal or sends a request; with one, the modal steps as for that reservation |
| ReservationForms.ShownFooter | src/features/reservations/components/ReservationDetailModal.jsx:66-232 | nothing is shown without a reservation or while the dialog is closed; otherwise exactly the offered buttons |
| ReservationForms.SettledToast | src/features/reservations/components/ReservationDetailModal.jsx:68-92 | success shows the response's message or the success text; a `null` body shows the `TypeError` of reading `message`; a rejection shows its message or the failure text; nothing exactly for a `null` or `undefined` rejection; every shown text is truthy |
| ReservationForms.DetailToast | src/features/reservations/components/ReservationDetailModal.jsx:68-92 | a notification appears only when the update or the cancellation that is loading settles |
| ReservationForms.OpeningResets | src/features/reservations/components/ReservationDetailModal.jsx:53-64 | opening leaves edit mode, loads the reservation and clears both mutations; the footer then matches the status |
| ReservationForms.UpdateSettles | src/features/reservations/components/ReservationDetailModal.jsx:80-92 | only a successful update with a body leaves edit mode, with the response's message or the default; a `null` body succeeds but keeps edit mode under the `TypeError` notification; a failure keeps edit mode and shows its message or the default; values and visibility are kept |
| ReservationForms.CancelSettles | src/features/reservations/components/ReservationDetailModal.jsx:68-78 | only a successful cancellation with a body closes the modal, with the response's message or the default; a `null` body succeeds but keeps it open under the `TypeError` notification; a failure keeps it open and shows its message or the default |
| ReservationForms.CancelNeedsConfirmation | src/features/reservations/components/ReservationDetailModal.jsx:69 | a declined confirmation changes nothing and sends nothing |
| ReservationForms.ClosingEvents | src/features/reservations/components/ReservationDetailModal.jsx:71-73 | the modal closes only when dismissed, on Close for an inactive reservation, or when a cancellation succeeds with a response body |
| ReservationForms.RequestsConcernTheReservation | src/features/reservations/components/ReservationDetailModal.jsx:68-92 | every request is the accepted update or the confirmed cancellation of this active reservation |
| ReservationForms.InactiveIsReadOnly | src/features/reservations/components/ReservationDetailModal.jsx:202-232 | for a reservation that is not active, no event sequence sends a request or enters edit mode |
| ReservationForms.DetailBadgeVariant | src/features/reservations/components/ReservationDetailModal.jsx:94-98 | a variant exists exactly for active, completed and canceled |
| ReservationForms.NameFormField | src/components/FormFields.jsx:83-85 | first-name label and placeholder exactly for `firstname`, last-name ones otherwise |
| ReservationForms.PersonsInputMatchesSchema | src/components/FormFields.jsx:73 | the persons input with `min={1} max={20}` (also the create modal's) admits exactly the whole numbers the create schema accepts |
| ReservationForms.DetailPersonsInputLacksMax | src/features/reservations/components/ReservationDetailModal.jsx:158 | the detail modal's input declares only `min="1"`: it agrees with the edit schema up to 20 and admits every larger number, which only the schema's "Max 20 persons" rejects |
| ReservationForms.StatusBadge | src/features/reservations/components/ReservationStatusBadge.jsx:6-11 | green, blue and red exactly for active, completed and no-show, gray for anything else; the label capitalises the status |
| ReservationForms.BadgeLabelOnlyChangesCase | src/features/reservations/components/ReservationStatusBadge.jsx:11 | the label differs from the status only in letter case |
| ReservationForms.StatusDisplaysDisagree | src/features/reservations/components/ReservationDetailModal.jsx:94-98 | the badge colours "no-show" but the detail modal has no variant for it; "canceled" is gray in one and destructive in the other |

## Left out

- Rendering, styling, icons and layout. Only the text, links, flags and buttons that depend on state are modelled.
- Network, cookies and concurrency.
  - Responses are `Result` values supplied as parameters.
  - The detail modal counts a settled request only while its mutation is loading. In the code, a request that settles after the modal was reopened (which resets both mutations) still shows its notification and leaves edit mode.
  - The session controller applies a settled request in any state.
  - Overlapping and stale completions are not modelled.
- Date parsing and `date-fns` formatting (`format(new Date(), 'yyyy-MM-dd')` and the display formats).
  - Dates are day numbers, read by a `dayOf` parameter.
  - The zone is a millisecond offset.
  - `canUpdate` and the sort key compare a given instant per reservation.
- ReservationLists.SortBy: stability of `Array.prototype.sort` is not stated. Only order, permutation and the fixed point on sorted input are proved.
- ReservationForms.PersonsIssues: the model receives the number `z.coerce.number()` produces. The text-to-number coercion and infinities are not modelled.
- Credentials.LoginSchemaIssues: zod's `.email()` check is a parameter, because its regular expression depends on the zod version.
- Credentials.SignupSchemaIssues: zod's `.email()` check is a parameter, for the same reason.
- Text.Lower: ASCII letters only. Full Unicode case mapping is not modelled.
- Text.Capitalize: upper-cases ASCII letters only. `toUpperCase` maps other letters too and can lengthen the text (`ß` becomes `SS`), so the length it keeps is an ASCII-only promise.
- Navigation.AvatarFallback: the same ASCII-only upper-casing of the first letter. Also, `firstname?.[0]` takes the first UTF-16 code unit, while the model takes the first character. For a name starting outside the Basic Multilingual Plane (an emoji, say) JavaScript shows half of a surrogate pair. A Dafny `char` cannot hold that half, so the promise holds only for a first character below U+10000.
- ReservationForms.StatusBadge: the same ASCII-only upper-casing of the status's first letter.
- Json.JsString: numbers are written in plain decimal with at most twenty fraction digits. JavaScript switches to exponent notation from 10^21 and below 10^-6, and prints the shortest digits that read back as the same double.
- Json.NullReadMessage: the `TypeError` text is V8's wording. Other engines word it differently.
- Toast descriptions (`format(...) at time`), `console.error` and the create modal's unused `step` state.
- The create modal's submit button state. It is `disabled={createMutation.isPending}`, which a v4 mutation does not define, so the button is never disabled.
- The missing exports. Every ReservationLists and ReservationForms member that describes the owner dashboard, the history page, the create modal, the detail modal or the restaurant page assumes that `queries.js` exports `useResolveReservationMutation` and that `api.js` exports `completeReservation`. As written, neither exists, linking `queries.js` fails, and none of those modules loads, so none of their behaviour happens at all.
- ReservationLists.DesktopTable: `pending` stands for `resolveMutation.isPending`, from the resolve hook the model assumes exists.
- ReservationLists.MobileCards: the same assumption about the resolve hook.
- ReservationLists.ResolveArguments: the same assumption about the resolve hook.
- ReservationLists.ResolveToast: the same assumption about the resolve hook. Its `mutateAsync` is taken to settle like the other mutations.
- ReservationForms.CreateSubmit: uses the calendar-day date rule (`BookingIssues`), not the rule as written. As written, a submit of today's date west of UTC sends nothing (see Findings).
- ReservationForms.BookedSubmitReopensValid: the same calendar-day date rule.
- The restaurant page's address and phone display.
- The detail modal's date line: it is a `date-fns` format.
- The restaurant list, restaurant queries, the router, the not-found and error pages, and `NavbarSheet`. These are outside the booking and session logic this model covers.
- Retries. The client default of one retry is a constant that `Session.CurrentUserQuery` compares against; the retry itself is not run.

## Findings

| source | as written | input that shows it | evidently intended | confidence | as-written member | corrected member |
|---|---|---|---|---|---|---|
| src/features/reservations/components/ReservationCreateModal.jsx:38 | `new Date(val)` reads a `yyyy-MM-dd` text as UTC midnight. It is compared with local midnight today. | Today's date, in a zone west of UTC (for example UTC−5, where local midnight is 05:00 UTC). | A date is accepted when it is today or later in the user's own calendar. Today is the form's default and the picker's minimum. | not executed; high | ReservationForms.BookingIssuesAsWritten | ReservationForms.BookingIssues |
| src/features/reservations/schemas.js:4 | The same check, in the shared schema. | Today's date at UTC−5. | The same. | not executed; high | ReservationForms.TodayRejectedWestOfUtc | ReservationForms.DateCheckAgreesEastOfUtc |

=== FILE: api_fetch.dfy ===
/** The HTTP wrapper `apiFetch` (request options and response
    classification) and the error normaliser `normalizeApiError`. The network
    call, cookies and JSON parsing are outside the model: a response arrives
    as its status and its body parsed as JSON, or `None` when the body was
    not JSON. */
module ApiFetch {
  import opened Wrappers
  import opened Json

  /** The options object of `apiFetch` (`verb` is its `method`); `None` is an omitted option. */
  datatype FetchOptions = FetchOptions(
    verb: Option<string>,
    body: Option<Json>,
    headers: Option<map<string, string>>,
    auth: Option<bool>)

  const NoOptions: FetchOptions := FetchOptions(None, None, None, None)

  datatype Credentials = Include | SameOrigin

  /** The request handed to `fetch`. The body is kept as the JSON value that
      `JSON.stringify` would serialise. */
  datatype Request = Request(
    url: string,
    verb: string,
    headers: map<string, string>,
    credentials: Credentials,
    body: Option<Json>)

  const JsonContentType: map<string, string> := map["Content-Type" := "application/json"]

  function BuildRequest(baseUrl: string, endpoint: string, opts: FetchOptions): (r: Request)
    ensures r.url == baseUrl + endpoint
    ensures r.verb == (if opts.verb.Some? then opts.verb.value else "GET")
    ensures r.credentials == (if opts.auth == Some(false) then SameOrigin else Include)
    ensures r.body.Some? <==> TruthyOpt(opts.body)
    ensures r.body.Some? ==> r.body == opts.body
    ensures "Content-Type" in r.headers
    ensures opts.headers.Some? && "Content-Type" in opts.headers.value ==>
              r.headers["Content-Type"] == opts.headers.value["Content-Type"]
    ensures (opts.headers.None? || "Content-Type" !in opts.headers.value) ==>
              r.headers["Content-Type"] == "application/json"
    ensures opts.headers.Some? ==>
              forall k :: k in opts.headers.value ==> k in r.headers && r.headers[k] == opts.headers.value[k]
  {
    var auth := opts.auth.GetOr(true);
    Request(
      baseUrl + endpoint,
      opts.verb.GetOr("GET"),
      JsonContentType + opts.headers.GetOr(map[]),
      if auth then Include else SameOrigin,
      if TruthyOpt(opts.body) then opts.body else None)
  }

  /** Without options: a GET with cookies, a JSON content type and no body. */
  lemma DefaultRequest(baseUrl: string, endpoint: string)
    ensures BuildRequest(baseUrl, endpoint, NoOptions)
         == Request(baseUrl + endpoint, "GET", JsonContentType, Include, None)
  {
  }

  datatype Response = Response(ok: bool, status: int, body: Option<Json>)

  /** The `ApiError` thrown for a non-ok response. The `Error` constructor
      keeps `String(...)` of the message it is given. Its `details`, if the
      server sent any, stay inside `data`. */
  datatype ApiError = ApiError(message: string, status: int, data: Json)

  /** The parsed body, or `null` when it was not JSON. */
  function BodyData(res: Response): Json
  {
    res.body.GetOr(JNull)
  }

  /** The `message` property of the body, if the body is an object holding one. */
  function ServerMessage(res: Response): Option<Json>
  {
    Get(res.body, "message")
  }

  /** The server's message is a non-empty string. */
  predicate HasTextMessage(res: Response)
  {
    ServerMessage(res).Some? && ServerMessage(res).value.JStr? && |ServerMessage(res).value.s| > 0
  }

  function Classify(res: Response): (r: Result<Json, ApiError>)
    ensures res.ok <==> r.Ok?
    ensures r.Ok? ==> r.value == BodyData(res)
    ensures r.Err? ==> r.error.status == res.status && r.error.data == BodyData(res)
    ensures r.Err? && HasTextMessage(res) ==> r.error.message == ServerMessage(res).value.s
    ensures r.Err? && !TruthyOpt(ServerMessage(res)) ==> r.error.message == "Request failed"
    ensures r.Err? && TruthyOpt(ServerMessage(res)) ==> r.error.message == JsString(ServerMessage(res).value)
    ensures r.Err? && |r.error.message| == 0 ==>
              TruthyOpt(ServerMessage(res)) && ServerMessage(res).value.JArr?
  {
    var data := BodyData(res);
    if !res.ok then
      Err(ApiError(JsString(OrElse(Get(Some(data), "message"), JStr("Request failed"))), res.status, data))
    else
      Ok(data)
  }

  /** A server message that is an empty array becomes an `ApiError` with an
      empty message. */
  lemma EmptyArrayMessageIsEmpty(status: int)
    ensures var res := Response(false, status, Some(JObj(map["message" := JArr([])])));
            Classify(res).Err? && Classify(res).error.message == ""
  {
  }

  /** What a `catch` clause may receive. */
  datatype Thrown =
    | ThrownResponse(parsedBody: Option<Json>)   // a `Response`; its body parsed, or `None` when parsing failed
    | ThrownApiError(e: ApiError)                // an `ApiError` from `apiFetch`
    | ThrownValue(v: Option<Json>)               // any other value; `None` is `undefined`

  /** `null` or `undefined`: reading a property of it throws a `TypeError`. */
  predicate Nullish(t: Thrown)
  {
    t.ThrownValue? && (t.v.None? || t.v == Some(JNull))
  }

  /** JavaScript truthiness; a `Response` and an `ApiError` are objects. */
  predicate ThrownTruthy(t: Thrown)
  {
    !t.ThrownValue? || TruthyOpt(t.v)
  }

  /** `if (error)` on a query's `error`, `None` being `undefined`. */
  predicate Raised(error: Option<Thrown>)
  {
    error.Some? && ThrownTruthy(error.value)
  }

  /** `{message, details}`; `details: None` is an absent property. */
  datatype NormalizedError = NormalizedError(message: Json, details: Option<seq<Json>>)

  /** The `message` property of a thrown value. */
  function MessageOf(t: Thrown): Option<Json>
  {
    match t
    case ThrownResponse(_) => None
    case ThrownApiError(e) => Some(JStr(e.message))
    case ThrownValue(v) => Get(v, "message")
  }

  /** The `details` property of a thrown value; an `ApiError` has none. */
  function DetailsOf(t: Thrown): Option<Json>
  {
    match t
    case ThrownResponse(_) => None
    case ThrownApiError(_) => None
    case ThrownValue(v) => Get(v, "details")
  }

  /** `normalizeApiError`; for a `Response` the value its promise resolves to. */
  function NormalizeApiError(t: Thrown): (r: NormalizedError)
    ensures Truthy(r.message)
    ensures t.ThrownResponse? && t.parsedBody.None? ==> r == NormalizedError(JStr("An error occurred"), None)
    ensures t.ThrownResponse? && t.parsedBody.Some? ==>
              r.message == OrElse(Get(t.parsedBody, "message"), JStr("An error occurred"))
              && r.details == ArrayOrUndefined(Get(t.parsedBody, "details"))
    ensures !t.ThrownResponse? && TruthyOpt(MessageOf(t)) ==>
              r.message == MessageOf(t).value && r.details == ArrayOrUndefined(DetailsOf(t))
    ensures !t.ThrownResponse? && !TruthyOpt(MessageOf(t)) ==>
              r == NormalizedError(JStr("An unexpected error occurred"), None)
  {
    match t
    case ThrownResponse(parsed) =>
      if parsed.None? then NormalizedError(JStr("An error occurred"), None)
      else NormalizedError(OrElse(Get(parsed, "message"), JStr("An error occurred")),
                           ArrayOrUndefined(Get(parsed, "details")))
    case _ =>
      if TruthyOpt(MessageOf(t)) then NormalizedError(MessageOf(t).value, ArrayOrUndefined(DetailsOf(t)))
      else NormalizedError(JStr("An unexpected error occurred"), None)
  }

  /** Normalising the `ApiError` of a failed response keeps the server's
      message text (or "Request failed") but loses the server's `details`,
      even when the body carried an array; a message whose text is empty
      gives way to the generic one. */
  lemma NormalizedApiErrorLosesDetails(res: Response)
    requires !res.ok
    ensures var n := NormalizeApiError(ThrownApiError(Classify(res).error));
            n.details.None?
            && (HasTextMessage(res) ==> n.message == ServerMessage(res).value)
            && (!TruthyOpt(ServerMessage(res)) ==> n.message == JStr("Request failed"))
            && (TruthyOpt(ServerMessage(res)) && JsString(ServerMessage(res).value) != "" ==>
                  n.message == JStr(JsString(ServerMessage(res).value)))
            && (TruthyOpt(ServerMessage(res)) && JsString(ServerMessage(res).value) == "" ==>
                  n.message == JStr("An unexpected error occurred"))
  {
  }

  /** A normalised error carries `details` only when the source held an array there. */
  lemma NormalizedDetailsAreArrays(t: Thrown)
    ensures NormalizeApiError(t).details.Some? ==>
              (t.ThrownResponse? && Get(t.parsedBody, "details").Some? && Get(t.parsedBody, "details").value.JArr?)
              || (t.ThrownValue? && Get(t.v, "details").Some? && Get(t.v, "details").value.JArr?)
  {
  }
}

=== FILE: credentials.dfy ===
/** Credential validation: the password-strength and login-email regular
    expressions, the login and signup forms (field rules, submit and error
    handling), the zod login and signup schemas, and the restaurant picker
    shown to owners at signup. */
module Credentials {
  import opened Wrappers
  import opened Text
  import opened Json
  import opened Domain
  import opened ApiFetch

  // ---------------------------------------------------------------------------
  // Character classes

  /** `\s` in a JavaScript regular expression. */
  predicate IsJsWhitespace(c: char)
  {
    c == '\t' || c == '\n' || c == '\U{000B}' || c == '\U{000C}' || c == '\r' || c == ' '
    || c == '\U{00A0}' || c == '\U{1680}' || ('\U{2000}' <= c <= '\U{200A}')
    || c == '\U{2028}' || c == '\U{2029}' || c == '\U{202F}' || c == '\U{205F}'
    || c == '\U{3000}' || c == '\U{FEFF}'
  }

  /** The characters `.` does not match (no `s` flag). */
  predicate IsLineTerminator(c: char)
  {
    c == '\n' || c == '\r' || c == '\U{2028}' || c == '\U{2029}'
  }

  /** The class `[!@#$%^&*()_+\-=[\]{};':"\\|,.<>/?]`: ASCII punctuation
      except the backtick and the tilde. */
  predicate IsSpecial(c: char)
  {
    ('!' <= c <= '/') || (':' <= c <= '@') || ('[' <= c <= '_') || ('{' <= c <= '}')
  }

  /** The ranges above are exactly the characters the class lists. */
  lemma SpecialClassListed(c: char)
    ensures IsSpecial(c) <==> c in "!@#$%^&*()_+-=[]{};':\"\\|,.<>/?"
  {
  }

  // ---------------------------------------------------------------------------
  // Password strength: /^(?=.*[a-z])(?=.*[A-Z])(?=.*\d)(?=.*[special]).{8,}$/

  /** Some character of `s` satisfies `p` (a lookahead `(?=.*[...])`). */
  predicate Any(s: string, p: char -> bool)
  {
    exists i | 0 <= i < |s| :: p(s[i])
  }

  predicate HasLower(s: string) { Any(s, IsAsciiLower) }
  predicate HasUpper(s: string) { Any(s, IsAsciiUpper) }
  predicate HasDigit(s: string) { Any(s, IsDigit) }
  predicate HasSpecial(s: string) { Any(s, IsSpecial) }
  predicate NoLineTerminator(s: string) { !Any(s, IsLineTerminator) }

  /** Extending a scanned prefix by one character. */
  lemma AnyExtend(s: string, k: int, p: char -> bool)
    requires 0 <= k < |s|
    ensures Any(s[..k + 1], p) <==> Any(s[..k], p) || p(s[k])
  {
    if Any(s[..k + 1], p) && !p(s[k]) {
      var i :| 0 <= i < k + 1 && p(s[..k + 1][i]);
      assert s[..k][i] == s[i];
    }
    if Any(s[..k], p) {
      var i :| 0 <= i < k && p(s[..k][i]);
      assert s[..k + 1][i] == s[i];
    }
    if p(s[k]) {
      assert s[..k + 1][k] == s[k];
    }
  }

  /** What the pattern accepts: `.{8,}` anchored at both ends spans the whole
      string, so it has no line terminator and at least eight code units; the
      lookaheads then ask for each class somewhere in it. */
  predicate StrongPassword(s: string)
  {
    Utf16Length(s) >= 8 && NoLineTerminator(s) && HasLower(s) && HasUpper(s) && HasDigit(s) && HasSpecial(s)
  }

  /** What one more character adds to each fact the scan tracks. */
  lemma PasswordScanStep(s: string, k: int)
    requires 0 <= k < |s|
    ensures Utf16Length(s[..k + 1]) == Utf16Length(s[..k]) + if s[k] as int > 0xFFFF then 2 else 1
    ensures HasLower(s[..k + 1]) <==> HasLower(s[..k]) || IsAsciiLower(s[k])
    ensures HasUpper(s[..k + 1]) <==> HasUpper(s[..k]) || IsAsciiUpper(s[k])
    ensures HasDigit(s[..k + 1]) <==> HasDigit(s[..k]) || IsDigit(s[k])
    ensures HasSpecial(s[..k + 1]) <==> HasSpecial(s[..k]) || IsSpecial(s[k])
    ensures NoLineTerminator(s[..k + 1]) <==> NoLineTerminator(s[..k]) && !IsLineTerminator(s[k])
  {
    assert s[..k + 1][..k] == s[..k];
    AnyExtend(s, k, IsAsciiLower);
    AnyExtend(s, k, IsAsciiUpper);
    AnyExtend(s, k, IsDigit);
    AnyExtend(s, k, IsSpecial);
    AnyExtend(s, k, IsLineTerminator);
  }

  /** A single left-to-right scan deciding the pattern. */
  method CheckPassword(s: string) returns (ok: bool)
    ensures ok <==> StrongPassword(s)
  {
    var units := 0;
    var lower, upper, digit, special, broken := false, false, false, false, false;
    var k := 0;
    while k < |s|
      invariant 0 <= k <= |s|
      invariant units == Utf16Length(s[..k])
      invariant lower <==> HasLower(s[..k])
      invariant upper <==> HasUpper(s[..k])
      invariant digit <==> HasDigit(s[..k])
      invariant special <==> HasSpecial(s[..k])
      invariant broken <==> !NoLineTerminator(s[..k])
    {
      var c := s[k];
      PasswordScanStep(s, k);
      units := units + if c as int > 0xFFFF then 2 else 1;
      lower := lower || IsAsciiLower(c);
      upper := upper || IsAsciiUpper(c);
      digit := digit || IsDigit(c);
      special := special || IsSpecial(c);
      broken := broken || IsLineTerminator(c);
      k := k + 1;
    }
    assert s[..k] == s;
    ok := units >= 8 && !broken && lower && upper && digit && special;
  }

  // ---------------------------------------------------------------------------
  // Login email: /^[^\s@]+@[^\s@]+\.[^\s@]+$/

  predicate EmailChar(c: char) { c != '@' && !IsJsWhitespace(c) }

  /** `[^\s@]+` matches `s[lo..hi]`. */
  predicate EmailRun(s: string, lo: int, hi: int)
    requires 0 <= lo <= hi <= |s|
  {
    lo < hi && forall k | lo <= k < hi :: EmailChar(s[k])
  }

  /** The pattern matches with the `@` at `i` and the literal dot at `j`. */
  predicate EmailSplitAt(s: string, i: int, j: int)
    requires 0 <= i < j < |s|
  {
    s[i] == '@' && s[j] == '.' && EmailRun(s, 0, i) && EmailRun(s, i + 1, j) && EmailRun(s, j + 1, |s|)
  }

  predicate MatchesLoginEmail(s: string)
  {
    exists i, j | 0 <= i < j < |s| :: EmailSplitAt(s, i, j)
  }

  /** A single scan: one `@`, not first; no whitespace; and a dot after at
      least one character past the `@` that is not the last character. */
  method CheckLoginEmail(s: string) returns (ok: bool)
    ensures ok <==> MatchesLoginEmail(s)
  {
    var at, dot := -1, -1;
    var bad := false;
    var k := 0;
    while k < |s|
      invariant 0 <= k <= |s|
      invariant -1 <= at < k && (at >= 0 ==> s[at] == '@')
      invariant at == -1 ==> forall m | 0 <= m < k :: s[m] != '@'
      invariant at >= 0 ==> forall m | 0 <= m < at :: s[m] != '@'
      invariant !bad ==> forall m | 0 <= m < k :: !IsJsWhitespace(s[m]) && (s[m] == '@' ==> m == at)
      invariant bad ==> (exists m | 0 <= m < k :: IsJsWhitespace(s[m])) || (exists m | 0 <= m < k :: s[m] == '@' && m != at)
      invariant dot == -1 || (at >= 0 && at + 1 < dot < k && s[dot] == '.')
      invariant at >= 0 && dot == -1 ==> forall m | at + 1 < m < k :: s[m] != '.'
      invariant dot >= 0 ==> forall m | at + 1 < m < dot :: s[m] != '.'
    {
      var c := s[k];
      if IsJsWhitespace(c) {
        bad := true;
      } else if c == '@' {
        if at >= 0 { bad := true; } else { at := k; }
      } else if c == '.' && at >= 0 && k > at + 1 && dot < 0 {
        dot := k;
      }
      k := k + 1;
    }
    ok := !bad && at > 0 && dot >= 0 && dot < |s| - 1;
    EmailScanDecides(s, at, dot, bad);
  }

  /** The scan's final state decides the pattern. */
  lemma EmailScanDecides(s: string, at: int, dot: int, bad: bool)
    requires -1 <= at < |s| && (at >= 0 ==> s[at] == '@')
    requires at == -1 ==> forall m | 0 <= m < |s| :: s[m] != '@'
    requires !bad ==> forall m | 0 <= m < |s| :: !IsJsWhitespace(s[m]) && (s[m] == '@' ==> m == at)
    requires bad ==> (exists m | 0 <= m < |s| :: IsJsWhitespace(s[m])) || (exists m | 0 <= m < |s| :: s[m] == '@' && m != at)
    requires dot == -1 || (at >= 0 && at + 1 < dot < |s| && s[dot] == '.')
    requires at >= 0 && dot == -1 ==> forall m | at + 1 < m < |s| :: s[m] != '.'
    requires dot >= 0 ==> forall m | at + 1 < m < dot :: s[m] != '.'
    ensures (!bad && at > 0 && dot >= 0 && dot < |s| - 1) <==> MatchesLoginEmail(s)
  {
    if !bad && at > 0 && dot >= 0 && dot < |s| - 1 {
      assert EmailSplitAt(s, at, dot);
    }
    if MatchesLoginEmail(s) {
      var i, j :| 0 <= i < j < |s| && EmailSplitAt(s, i, j);
      EmailMatchUnique(s, i, j, at);
      assert at != -1 by { assert s[i] == '@'; }
      assert at == i && !bad;
      assert i > 0 && j > i + 1 && j < |s| - 1;
      assert dot != -1 by { assert s[j] == '.'; }
      assert dot <= j;
    }
  }

  /** Helper for the converse direction: a match pins down the scan's state. */
  lemma EmailMatchUnique(s: string, i: int, j: int, at: int)
    requires 0 <= i < j < |s| && EmailSplitAt(s, i, j)
    requires -1 <= at < |s| && (at >= 0 ==> s[at] == '@')
    ensures forall m | 0 <= m < |s| :: !IsJsWhitespace(s[m]) && (s[m] == '@' ==> m == i)
    ensures at >= 0 ==> at == i
  {
    forall m | 0 <= m < |s|
      ensures !IsJsWhitespace(s[m]) && (s[m] == '@' ==> m == i)
    {
      if m < i { assert EmailChar(s[m]); }
      else if i < m < j { assert EmailChar(s[m]); }
      else if j < m { assert EmailChar(s[m]); }
    }
  }

  // ---------------------------------------------------------------------------
  // Login form (react-hook-form field rules)

  const PasswordRuleMessage := "Password must be at least 8 characters, with uppercase, lowercase, number, and special character"

  /** The message shown under each field; `None` when the field is valid. */
  datatype LoginErrors = LoginErrors(email: Option<string>, password: Option<string>)

  function LoginFieldErrors(email: string, password: string): (r: LoginErrors)
    ensures r.email.None? <==> MatchesLoginEmail(email)
    ensures r.password.None? <==> StrongPassword(password)
    ensures r.email == Some("Email is required") <==> email == ""
    ensures r.password == Some("Password is required") <==> password == ""
    ensures r.email.Some? && email != "" ==> r.email == Some("Invalid email address")
    ensures r.password.Some? && password != "" ==> r.password == Some(PasswordRuleMessage)
  {
    LoginErrors(
      if email == "" then Some("Email is required")
      else if !MatchesLoginEmail(email) then Some("Invalid email address")
      else None,
      if password == "" then Some("Password is required")
      else if !StrongPassword(password) then Some(PasswordRuleMessage)
      else None)
  }

  datatype LoginValues = LoginValues(email: string, password: string)

  /** Submitting: the form is reset to `{password: ""}` and `login` gets the
      values as submitted. */
  datatype LoginSubmission = LoginSubmission(resetTo: map<string, string>, loginArg: LoginValues)

  function LoginSubmit(data: LoginValues): (r: LoginSubmission)
    ensures r.loginArg == data
    ensures r.resetTo.Keys == {"password"} && r.resetTo["password"] == ""
  {
    LoginSubmission(map["password" := ""], data)
  }

  /** The effect on `loginError`: a truthy message becomes the form's root
      error; otherwise the root error stays as it was. */
  function LoginRootError(loginError: Option<Thrown>, current: Option<Json>): (r: Option<Json>)
    ensures loginError.Some? && TruthyOpt(MessageOf(loginError.value)) ==> r == MessageOf(loginError.value)
    ensures !(loginError.Some? && TruthyOpt(MessageOf(loginError.value))) ==> r == current
  {
    if loginError.Some? && TruthyOpt(MessageOf(loginError.value)) then MessageOf(loginError.value) else current
  }

  /** What a rejected login request puts on the form: the server's message
      when it is a non-empty string, "Request failed" when the server sent
      none, and otherwise the message's text, unless that text is empty, in
      which case the form keeps the root error it had. */
  lemma LoginFailureShowsServerMessage(res: Response, current: Option<Json>)
    requires !res.ok
    ensures var shown := LoginRootError(Some(ThrownApiError(Classify(res).error)), current);
            (HasTextMessage(res) ==> shown == ServerMessage(res))
            && (!TruthyOpt(ServerMessage(res)) ==> shown == Some(JStr("Request failed")))
            && (TruthyOpt(ServerMessage(res)) && JsString(ServerMessage(res).value) != "" ==>
                  shown == Some(JStr(JsString(ServerMessage(res).value))))
            && (TruthyOpt(ServerMessage(res)) && JsString(ServerMessage(res).value) == "" ==> shown == current)
  {
  }

  /** A failure whose message is an empty array reaches the mutation's error
      but not the form. */
  lemma EmptyArrayMessageNotShown(status: int, current: Option<Json>)
    ensures var res := Response(false, status, Some(JObj(map["message" := JArr([])])));
            LoginRootError(Some(ThrownApiError(Classify(res).error)), current) == current
  {
    EmptyArrayMessageIsEmpty(status);
  }

  datatype LoginFormView =
    | LoggedInNote(text: string)
    | LoginFormShown(rootError: Option<Json>, submitDisabled: bool, submitCaption: string)

  function LoginFormRender(user: Option<User>, isLoggingIn: bool, rootError: Option<Json>): (r: LoginFormView)
    ensures r.LoggedInNote? <==> user.Some?
    ensures r.LoggedInNote? ==> r.text == "Logged in as " + user.value.email
    ensures r.LoginFormShown? ==> r.rootError == rootError && r.submitDisabled == isLoggingIn
    ensures r.LoginFormShown? ==> (r.submitCaption == "Logging in..." <==> isLoggingIn)
    ensures r.LoginFormShown? && !isLoggingIn ==> r.submitCaption == "Login"
  {
    if user.Some? then LoggedInNote("Logged in as " + user.value.email)
    else LoginFormShown(rootError, isLoggingIn, if isLoggingIn then "Logging in..." else "Login")
  }

  // ---------------------------------------------------------------------------
  // Signup form (react-hook-form field rules)

  /** The form's values; `restaurantId` is `None` while unset. */
  datatype SignupValues = SignupValues(
    firstname: string, lastname: string, email: string,
    password: string, confirmPassword: string, restaurantId: Option<string>)

  datatype SignupErrors = SignupErrors(
    firstname: Option<string>, lastname: Option<string>, email: Option<string>,
    password: Option<string>, confirmPassword: Option<string>)

  predicate NoSignupErrors(e: SignupErrors)
  {
    e.firstname.None? && e.lastname.None? && e.email.None? && e.password.None? && e.confirmPassword.None?
  }

  /** Each rule is `required` first; the password has the strength pattern
      and the confirmation must equal the password. The email is only required. */
  function SignupFieldErrors(v: SignupValues): (r: SignupErrors)
    ensures r.firstname.None? <==> v.firstname != ""
    ensures r.lastname.None? <==> v.lastname != ""
    ensures r.email.None? <==> v.email != ""
    ensures r.password.None? <==> StrongPassword(v.password)
    ensures r.confirmPassword.None? <==> v.confirmPassword != "" && v.confirmPassword == v.password
    ensures r.confirmPassword == Some("Passwords do not match") <==> v.confirmPassword != "" && v.confirmPassword != v.password
    ensures NoSignupErrors(r) <==>
              v.firstname != "" && v.lastname != "" && v.email != ""
              && StrongPassword(v.password) && v.confirmPassword == v.password
  {
    SignupErrors(
      if v.firstname == "" then Some("First name is required") else None,
      if v.lastname == "" then Some("Last name is required") else None,
      if v.email == "" then Some("Email is required") else None,
      if v.password == "" then Some("Password is required")
      else if !StrongPassword(v.password) then Some(PasswordRuleMessage)
      else None,
      if v.confirmPassword == "" then Some("Confirm your password")
      else if v.confirmPassword != v.password then Some("Passwords do not match")
      else None)
  }

  /** The body handed to `signup`; `restaurantId: None` is `null`. No role is sent. */
  datatype SignupRequest = SignupRequest(
    firstname: string, lastname: string, email: string, password: string, restaurantId: Option<string>)

  function SignupPayload(v: SignupValues, isOwner: bool): (r: SignupRequest)
    ensures r.firstname == v.firstname && r.lastname == v.lastname
    ensures r.email == v.email && r.password == v.password
    ensures r.restaurantId.Some? <==> isOwner && v.restaurantId.Some? && v.restaurantId.value != ""
    ensures r.restaurantId.Some? ==> r.restaurantId == v.restaurantId
  {
    SignupRequest(v.firstname, v.lastname, v.email, v.password,
      if isOwner && v.restaurantId.Some? && v.restaurantId.value != "" then v.restaurantId else None)
  }

  /** The effect on the owner checkbox: unchecking resets `restaurantId` to
      its (absent) default; nothing else changes. */
  function OwnerToggled(v: SignupValues, isOwner: bool): (r: SignupValues)
    ensures !isOwner ==> r.restaurantId.None?
    ensures isOwner ==> r == v
    ensures r.(restaurantId := v.restaurantId) == v
  {
    if isOwner then v else v.(restaurantId := None)
  }

  /** Once the box has been unchecked, the request carries `null` until a
      restaurant is picked again, whether or not the box is re-checked. */
  lemma UncheckedOwnerSendsNull(v: SignupValues, recheck: bool)
    ensures SignupPayload(OwnerToggled(v, false), recheck).restaurantId.None?
  {
  }

  /** `setError(field, {message})` for one entry of `details`. */
  datatype FieldIssue = FieldIssue(field: Option<Json>, message: Option<Json>)

  /** What the signup `catch` clause does with a thrown value. A handler
      that throws keeps the field issues it set before the throw. */
  datatype CatchOutcome =
    | FieldIssues(issues: seq<FieldIssue>)
    | RootIssue(message: Option<Json>)
    | CatchThrows(issuesSet: seq<FieldIssue>)   // the handler itself raises a TypeError

  /** `err.details?.length` is truthy. */
  predicate HasDetailsLength(d: Option<Json>)
  {
    match d
    case Some(JArr(items)) => |items| > 0
    case Some(JStr(s)) => |s| > 0
    case Some(JObj(f)) => TruthyOpt(Get(d, "length"))
    case _ => false
  }

  function IssueOf(item: Json): FieldIssue
  {
    FieldIssue(Get(Some(item), "field"), Get(Some(item), "message"))
  }

  /** `details.forEach(({field, message}) => setError(...))`: the issues set,
      in order, and whether a `null` entry stopped the loop by throwing when
      it was destructured. */
  function ForEachDetail(items: seq<Json>): (r: (seq<FieldIssue>, bool))
    ensures r.1 <==> exists i | 0 <= i < |items| :: items[i] == JNull
    ensures |r.0| <= |items|
    ensures forall i | 0 <= i < |r.0| :: items[i] != JNull && r.0[i] == IssueOf(items[i])
    ensures r.1 ==> |r.0| < |items| && items[|r.0|] == JNull
    ensures !r.1 ==> |r.0| == |items|
    decreases |items|
  {
    if |items| == 0 then ([], false)
    else if items[0] == JNull then ([], true)
    else
      var rest := ForEachDetail(items[1..]);
      assert forall i | 1 <= i < |items| :: items[i] == items[1..][i - 1];
      ([IssueOf(items[0])] + rest.0, rest.1)
  }

  /** The `catch` clause of the signup submit handler as written. Reading
      `details` of `undefined` or `null`, calling `forEach` on a non-array and
      destructuring a `null` entry all throw. */
  function SignupCatch(err: Thrown): (r: CatchOutcome)
    ensures Nullish(err) ==> r == CatchThrows([])
    ensures r.RootIssue? <==> !Nullish(err) && !HasDetailsLength(DetailsOf(err))
    ensures r.RootIssue? ==> r.message == MessageOf(err)
    ensures r.FieldIssues? <==>
              !Nullish(err) && HasDetailsLength(DetailsOf(err)) && DetailsOf(err).Some? && DetailsOf(err).value.JArr?
              && forall i | 0 <= i < |DetailsOf(err).value.items| :: DetailsOf(err).value.items[i] != JNull
    ensures r.FieldIssues? ==>
              DetailsOf(err).Some? && DetailsOf(err).value.JArr?
              && |DetailsOf(err).value.items| > 0
              && |r.issues| == |DetailsOf(err).value.items|
              && forall i | 0 <= i < |r.issues| :: r.issues[i] == IssueOf(DetailsOf(err).value.items[i])
    ensures r.CatchThrows? && DetailsOf(err).Some? && DetailsOf(err).value.JArr? ==>
              var items := DetailsOf(err).value.items;
              |r.issuesSet| < |items| && items[|r.issuesSet|] == JNull
              && forall i | 0 <= i < |r.issuesSet| :: items[i] != JNull && r.issuesSet[i] == IssueOf(items[i])
    ensures r.CatchThrows? && !(DetailsOf(err).Some? && DetailsOf(err).value.JArr?) ==> r.issuesSet == []
  {
    if Nullish(err) then CatchThrows([])
    else
      var d := DetailsOf(err);
      if !HasDetailsLength(d) then RootIssue(MessageOf(err))
      else match d.value
        case JArr(items) =>
          var walk := ForEachDetail(items);
          if walk.1 then CatchThrows(walk.0) else FieldIssues(walk.0)
        case _ => CatchThrows([])
  }

  /** `details: [{field: "email", message: "x"}, null]`: the email issue is
      set, then the `null` entry throws, and the issue stays set. */
  lemma NullEntryKeepsEarlierIssues()
    ensures var entry := JObj(map["field" := JStr("email"), "message" := JStr("x")]);
            SignupCatch(ThrownValue(Some(JObj(map["details" := JArr([entry, JNull])]))))
            == CatchThrows([FieldIssue(Some(JStr("email")), Some(JStr("x")))])
  {
    var entry := JObj(map["field" := JStr("email"), "message" := JStr("x")]);
    var walk := ForEachDetail([entry, JNull]);
    assert [entry, JNull][1..] == [JNull];
    assert ForEachDetail([JNull]) == ([], true);
    assert walk == ([IssueOf(entry)] + [], true);
  }

  /** An `ApiError` from `apiFetch` keeps the server's `details` inside
      `data`, so the catch clause only ever sets a root error for it. */
  lemma SignupApiErrorIsRootLevel(res: Response)
    requires !res.ok
    ensures Classify(res).Err?
    ensures SignupCatch(ThrownApiError(Classify(res).error)) == RootIssue(Some(JStr(Classify(res).error.message)))
  {
  }

  /** The submit handler awaits `signup`, which is the mutation's
      fire-and-forget `mutate`: it returns `undefined` at once and a failure
      lands in the mutation's error state, so the `catch` never runs. */
  datatype SignupSubmitOutcome = SignupSubmitOutcome(formErrors: Option<CatchOutcome>, mutationError: Option<Thrown>)

  function SignupSubmit(request: Result<Json, Thrown>): (r: SignupSubmitOutcome)
    ensures r.formErrors.None?
    ensures r.mutationError.Some? <==> request.Err?
    ensures request.Err? ==> r.mutationError == Some(request.error)
  {
    SignupSubmitOutcome(None, if request.Err? then Some(request.error) else None)
  }

  // ---------------------------------------------------------------------------
  // Restaurant choice at signup

  datatype SelectOption = SelectOption(value: string, text: string)

  /** One option per restaurant, valued by its id as a decimal string. */
  function RestaurantOptions(list: seq<Restaurant>): (r: seq<SelectOption>)
    ensures |r| == |list|
    ensures forall i | 0 <= i < |list| :: r[i].text == list[i].name && AllDigits(r[i].value)
  {
    seq(|list|, i requires 0 <= i < |list| => SelectOption(NatToString(list[i].id), list[i].name))
  }

  /** The chosen option's value reads back as the restaurant's id, so two
      options share a value only when their restaurants share an id. */
  lemma OptionValueIdentifiesRestaurant(list: seq<Restaurant>, i: int, j: int)
    requires 0 <= i < |list| && 0 <= j < |list|
    ensures ParseNat(RestaurantOptions(list)[i].value) == list[i].id
    ensures RestaurantOptions(list)[i].value == RestaurantOptions(list)[j].value <==> list[i].id == list[j].id
  {
    ParseNatToString(list[i].id);
    if RestaurantOptions(list)[i].value == RestaurantOptions(list)[j].value {
      NatToStringInjective(list[i].id, list[j].id);
    }
  }

  /** The owner section of the signup form: notes for loading and failure,
      and the select only when neither applies. */
  datatype RestaurantSection = RestaurantSection(loadingNote: bool, errorNote: bool, select: Option<seq<SelectOption>>)

  function SignupRestaurantSection(isOwner: bool, isLoading: bool, hasError: bool, restaurants: Option<seq<Restaurant>>)
    : (r: Option<RestaurantSection>)
    ensures r.Some? <==> isOwner
    ensures r.Some? ==> r.value.loadingNote == isLoading && r.value.errorNote == hasError
    ensures r.Some? ==> (r.value.select.Some? <==> !isLoading && !hasError)
    ensures r.Some? && r.value.select.Some? ==>
              r.value.select.value == [SelectOption("", "Select a restaurant…")] + RestaurantOptions(restaurants.GetOr([]))
  {
    if !isOwner then None
    else Some(RestaurantSection(isLoading, hasError,
      if !isLoading && !hasError then Some([SelectOption("", "Select a restaurant…")] + RestaurantOptions(restaurants.GetOr([])))
      else None))
  }

  predicate HasNoRestaurants(isLoading: bool, hasError: bool, restaurants: Option<seq<Restaurant>>)
  {
    !isLoading && !hasError && |restaurants.GetOr([])| < 1
  }

  datatype PickerBody = PickerLoading | PickerFailed | PickerAllOwned | PickerSelect(items: seq<SelectOption>)

  datatype Picker = Picker(labelDimmed: bool, body: PickerBody)

  /** The owner picker of the component-library signup form. */
  function RestaurantPicker(isOwner: bool, isLoading: bool, hasError: bool, restaurants: Option<seq<Restaurant>>)
    : (r: Option<Picker>)
    ensures r.Some? <==> isOwner
    ensures r.Some? ==> r.value.labelDimmed == HasNoRestaurants(isLoading, hasError, restaurants)
    ensures r.Some? ==> (r.value.body.PickerLoading? <==> isLoading)
    ensures r.Some? ==> (r.value.body.PickerFailed? <==> !isLoading && hasError)
    ensures r.Some? ==> (r.value.body.PickerAllOwned? <==> HasNoRestaurants(isLoading, hasError, restaurants))
    ensures r.Some? && r.value.body.PickerSelect? ==>
              |r.value.body.items| > 0 && r.value.body.items == RestaurantOptions(restaurants.value)
  {
    if !isOwner then None
    else
      var noneLeft := HasNoRestaurants(isLoading, hasError, restaurants);
      Some(Picker(noneLeft,
        if isLoading then PickerLoading
        else if hasError then PickerFailed
        else if noneLeft then PickerAllOwned
        else PickerSelect(RestaurantOptions(restaurants.value))))
  }

  /** The two signup forms offer the same restaurants; only the plain one
      adds its empty placeholder option, and it shows an empty select where
      the other says all restaurants are owned. */
  lemma SignupPickersAgree(isLoading: bool, hasError: bool, restaurants: Option<seq<Restaurant>>)
    requires !isLoading && !hasError
    ensures SignupRestaurantSection(true, isLoading, hasError, restaurants).value.select.Some?
    ensures HasNoRestaurants(isLoading, hasError, restaurants) ==>
              RestaurantPicker(true, isLoading, hasError, restaurants).value.body == PickerAllOwned
              && |SignupRestaurantSection(true, isLoading, hasError, restaurants).value.select.value| == 1
    ensures !HasNoRestaurants(isLoading, hasError, restaurants) ==>
              RestaurantPicker(true, isLoading, hasError, restaurants).value.body.items
              == SignupRestaurantSection(true, isLoading, hasError, restaurants).value.select.value[1..]
  {
  }

  // ---------------------------------------------------------------------------
  // zod schemas

  /** A validation issue: the field it is reported on and its message. */
  datatype Issue = Issue(path: string, message: string)

  /** `loginSchema`; `isEmail` stands for zod's email check. */
  function LoginSchemaIssues(email: string, password: string, isEmail: string -> bool): (r: seq<Issue>)
    ensures |r| == 0 <==> isEmail(email) && password != ""
    ensures Issue("email", "Invalid email address") in r <==> !isEmail(email)
    ensures Issue("password", "Password is required") in r <==> password == ""
  {
    (if isEmail(email) then [] else [Issue("email", "Invalid email address")])
    + (if password == "" then [Issue("password", "Password is required")] else [])
  }

  /** The login schema only asks for a password; the login form's rule is
      the strength pattern, which implies it. */
  lemma LoginFormPasswordImpliesSchema(email: string, password: string, isEmail: string -> bool)
    requires LoginFieldErrors(email, password).password.None?
    ensures Issue("password", "Password is required") !in LoginSchemaIssues(email, password, isEmail)
  {
  }

  datatype SignupInput = SignupInput(
    firstname: string, lastname: string, email: string, password: string,
    confirmPassword: string, isOwner: Option<bool>, restaurantId: Option<string>)

  datatype SignupData = SignupData(
    firstname: string, lastname: string, email: string, password: string,
    confirmPassword: string, isOwner: bool, restaurantId: Option<string>)

  const SignupPasswordMessage := "Password must have 8+ chars, 1 uppercase, 1 lowercase, 1 number, and 1 special char"

  /** Every field check reports its own issue; the refinement still runs when
      they fail, since none of them aborts parsing. */
  function SignupSchemaIssues(input: SignupInput, isEmail: string -> bool): (r: seq<Issue>)
    ensures |r| == 0 <==>
              Utf16Length(input.firstname) >= 2 && Utf16Length(input.lastname) >= 2
              && isEmail(input.email) && StrongPassword(input.password)
              && input.password == input.confirmPassword
    ensures Issue("confirmPassword", "Passwords do not match") in r <==> input.password != input.confirmPassword
    ensures Issue("password", SignupPasswordMessage) in r <==> !StrongPassword(input.password)
  {
    (if Utf16Length(input.firstname) >= 2 then [] else [Issue("firstname", "First name must be at least 2 characters")])
    + (if Utf16Length(input.lastname) >= 2 then [] else [Issue("lastname", "Last name must be at least 2 characters")])
    + (if isEmail(input.email) then [] else [Issue("email", "Invalid email address")])
    + (if StrongPassword(input.password) then [] else [Issue("password", SignupPasswordMessage)])
    + (if input.password == input.confirmPassword then [] else [Issue("confirmPassword", "Passwords do not match")])
  }

  /** `signupSchema.safeParse`: the parsed data fills in `isOwner: false`. */
  function ParseSignup(input: SignupInput, isEmail: string -> bool): (r: Result<SignupData, seq<Issue>>)
    ensures r.Ok? <==> |SignupSchemaIssues(input, isEmail)| == 0
    ensures r.Err? ==> r.error == SignupSchemaIssues(input, isEmail)
    ensures r.Ok? ==> r.value.isOwner == input.isOwner.GetOr(false) && r.value.restaurantId == input.restaurantId
    ensures r.Ok? ==> r.value.firstname == input.firstname && r.value.lastname == input.lastname
                      && r.value.email == input.email && r.value.password == input.password
                      && r.value.confirmPassword == input.confirmPassword
  {
    var issues := SignupSchemaIssues(input, isEmail);
    if |issues| > 0 then Err(issues)
    else Ok(SignupData(input.firstname, input.lastname, input.email, input.password,
                       input.confirmPassword, input.isOwner.GetOr(false), input.restaurantId))
  }

  /** Values the schema accepts also pass the plain signup form's rules,
      given that zod's email check rejects the empty string. */
  lemma SchemaAcceptedPassesFormRules(input: SignupInput, isEmail: string -> bool)
    requires !isEmail("")
    requires ParseSignup(input, isEmail).Ok?
    ensures NoSignupErrors(SignupFieldErrors(SignupValues(
              input.firstname, input.lastname, input.email, input.password,
              input.confirmPassword, input.restaurantId)))
  {
  }
}

=== FILE: domain.dfy ===
/** The records the client receives from the server. Roles and statuses are
    plain strings, as in the source, which compares them with `===`. */
module Domain {
  import opened Wrappers

  datatype User = User(id: nat, firstname: string, lastname: string, email: string, role: string)

  predicate IsOwner(u: User) { u.role == "owner" }

  datatype Restaurant = Restaurant(id: nat, name: string)

  /** The nested customer of an owner-side reservation; every part may be missing. */
  datatype Customer = Customer(firstname: Option<string>, lastname: Option<string>, email: Option<string>)

  /** `at` is the instant denoted by the string `${date}T${time}`; parsing it
      is outside the model, so it arrives with the record. */
  datatype Reservation = Reservation(
    id: nat,
    restaurantId: nat,
    status: string,
    date: string,
    time: string,
    at: int,
    persons: int,
    customer: Option<Customer>)

  predicate IsActive(r: Reservation) { r.status == "active" }
}

=== FILE: endpoints.dfy ===
/** The backend operations as request descriptors (the path and options each
    API function hands to `apiFetch`), their decoding, the mutation variables
    that are split into an id and a body, and the reservation list queries
    with the invalidation each reservation mutation performs. */
module Endpoints {
  import opened Wrappers
  import opened Text
  import opened Json
  import opened ApiFetch
  import opened QueryCache
  import Session

  /** Every backend operation the client calls; ids are reservation or
      restaurant ids as the server sends them. */
  datatype Endpoint =
    | Login(credentials: Json)
    | Me
    | Logout
    | Signup(payload: Json)
    | MyReservations
    | CancelReservation(id: nat)
    | UpdateReservation(id: nat, changes: Json)
    | CreateReservation(restaurantId: nat, booking: Json)
    | OwnerReservations
    | ResolveReservation(id: nat, status: Json)
    | LegacyOwnerReservations          // the owner list path of the older hooks module
    | CompleteReservation(id: nat)     // the completion call of the older hooks module

  /** The arguments of one `apiFetch` call. */
  datatype Call = Call(path: string, opts: FetchOptions)

  /** An absolute path from its segments. */
  function PathOf(segs: seq<string>): string
  {
    Join([""] + segs, '/')
  }

  /** `/a/b` and `/a/b/c`. */
  function Path2(a: string, b: string): string { "/" + a + "/" + b }

  function Path3(a: string, b: string, c: string): string { "/" + a + "/" + b + "/" + c }

  lemma PathOf2(a: string, b: string)
    ensures PathOf([a, b]) == Path2(a, b)
  {
    var all := [""] + [a, b];
    assert all[1..] == [a, b] && all[1..][1..] == [b];
    assert Join([b], '/') == b;
    assert Join([a, b], '/') == a + "/" + b;
  }

  lemma PathOf3(a: string, b: string, c: string)
    ensures PathOf([a, b, c]) == Path3(a, b, c)
  {
    var all := [""] + [a, b, c];
    assert all[1..] == [a, b, c] && [a, b, c][1..] == [b, c] && [b, c][1..] == [c];
    assert Join([c], '/') == c;
    assert Join([b, c], '/') == b + "/" + c;
    assert Join([a, b, c], '/') == a + "/" + (b + "/" + c);
  }

  function Send(verb: string, body: Option<Json>): FetchOptions
  {
    FetchOptions(Some(verb), body, None, None)
  }

  predicate IsRead(e: Endpoint)
  {
    e.Me? || e.MyReservations? || e.OwnerReservations? || e.LegacyOwnerReservations?
  }

  predicate HasBody(e: Endpoint)
  {
    e.Login? || e.Signup? || e.UpdateReservation? || e.CreateReservation? || e.ResolveReservation?
  }

  function Describe(e: Endpoint): (c: Call)
    ensures c.opts.headers.None? && c.opts.auth.None?
    ensures c.opts.verb.None? <==> IsRead(e)
    ensures c.opts.body.Some? <==> HasBody(e)
    ensures e.CancelReservation? ==> c.opts.verb == Some("DELETE")
    ensures e.UpdateReservation? ==> c.opts.verb == Some("PUT") && c.opts.body == Some(e.changes)
    ensures e.ResolveReservation? ==> c.opts.body == Some(JObj(map["status" := e.status]))
  {
    match e
    case Login(b) => Call(Path2("auth", "login"), Send("POST", Some(b)))
    case Me => Call(Path2("auth", "me"), NoOptions)
    case Logout => Call(Path2("auth", "logout"), Send("POST", None))
    case Signup(b) => Call(Path2("auth", "signup"), Send("POST", Some(b)))
    case MyReservations => Call(Path2("reservations", "my-reservations"), NoOptions)
    case CancelReservation(id) => Call(Path2("reservations", NatToString(id)), Send("DELETE", None))
    case UpdateReservation(id, b) => Call(Path2("reservations", NatToString(id)), Send("PUT", Some(b)))
    case CreateReservation(rid, b) => Call(Path3("reservations", "restaurants", NatToString(rid)), Send("POST", Some(b)))
    case OwnerReservations => Call(Path2("reservations", "owner-reservations"), NoOptions)
    case ResolveReservation(id, st) =>
      Call(Path3("reservations", NatToString(id), "resolve"), Send("POST", Some(JObj(map["status" := st]))))
    case LegacyOwnerReservations => Call(Path3("reservations", "owner", "reservations"), NoOptions)
    case CompleteReservation(id) => Call(Path3("reservations", NatToString(id), "complete"), Send("POST", None))
  }

  /** A path segment naming an id: a numeral as `NatToString` prints it. */
  function ParseId(seg: string): (r: Option<nat>)
    ensures r.Some? ==> NatToString(r.value) == seg
  {
    if |seg| > 0 && AllDigits(seg) && NatToString(ParseNat(seg)) == seg then Some(ParseNat(seg)) else None
  }

  /** Which operation a call performs; `None` for a call no API function makes. */
  function Decode(c: Call): (r: Option<Endpoint>)
  {
    var segs := Split(c.path, '/');
    if c.opts.headers.Some? || c.opts.auth.Some? || |segs| < 3 || segs[0] != "" then None
    else if segs[1] == "auth" && |segs| == 3 then DecodeAuth(segs[2], c.opts.verb, c.opts.body)
    else if segs[1] == "reservations" && |segs| == 3 then DecodeReservation(segs[2], c.opts.verb, c.opts.body)
    else if segs[1] == "reservations" && |segs| == 4 then DecodeReservationAction(segs[2], segs[3], c.opts.verb, c.opts.body)
    else None
  }

  /** `/auth/<name>`. */
  function DecodeAuth(name: string, verb: Option<string>, body: Option<Json>): Option<Endpoint>
  {
    if name == "login" && verb == Some("POST") && body.Some? then Some(Login(body.value))
    else if name == "me" && verb.None? && body.None? then Some(Me)
    else if name == "logout" && verb == Some("POST") && body.None? then Some(Logout)
    else if name == "signup" && verb == Some("POST") && body.Some? then Some(Signup(body.value))
    else None
  }

  /** `/reservations/<seg>`. */
  function DecodeReservation(seg: string, verb: Option<string>, body: Option<Json>): Option<Endpoint>
  {
    if seg == "my-reservations" && verb.None? && body.None? then Some(MyReservations)
    else if seg == "owner-reservations" && verb.None? && body.None? then Some(OwnerReservations)
    else if ParseId(seg).Some? && verb == Some("DELETE") && body.None? then
      Some(CancelReservation(ParseId(seg).value))
    else if ParseId(seg).Some? && verb == Some("PUT") && body.Some? then
      Some(UpdateReservation(ParseId(seg).value, body.value))
    else None
  }

  /** `/reservations/<seg>/<action>`. */
  function DecodeReservationAction(seg: string, action: string, verb: Option<string>, body: Option<Json>): Option<Endpoint>
  {
    if seg == "restaurants" && ParseId(action).Some? && verb == Some("POST") && body.Some? then
      Some(CreateReservation(ParseId(action).value, body.value))
    else if seg == "owner" && action == "reservations" && verb.None? && body.None? then
      Some(LegacyOwnerReservations)
    else if ParseId(seg).Some? && action == "resolve" && verb == Some("POST")
            && body.Some? && body.value.JObj? && body.value.fields.Keys == {"status"} then
      Some(ResolveReservation(ParseId(seg).value, body.value.fields["status"]))
    else if ParseId(seg).Some? && action == "complete" && verb == Some("POST") && body.None? then
      Some(CompleteReservation(ParseId(seg).value))
    else None
  }

  lemma NumeralHasNoSlash(n: nat)
    ensures '/' !in NatToString(n)
  {
    var s := NatToString(n);
    forall i | 0 <= i < |s|
      ensures s[i] != '/'
    {
      assert IsDigit(s[i]);
    }
  }

  lemma IdRoundTrip(n: nat)
    ensures ParseId(NatToString(n)) == Some(n)
  {
    ParseNatToString(n);
  }

  lemma SplitPath(segs: seq<string>)
    requires forall i | 0 <= i < |segs| :: '/' !in segs[i]
    ensures Split(PathOf(segs), '/') == [""] + segs
  {
    var all := [""] + segs;
    forall i | 0 <= i < |all| ensures '/' !in all[i] {
      if i > 0 { assert all[i] == segs[i - 1]; }
    }
    SplitJoin(all, '/');
  }

  /** Decoding a two-segment path. */
  lemma DecodeTwo(a: string, b: string, opts: FetchOptions)
    requires '/' !in a && '/' !in b && opts.headers.None? && opts.auth.None?
    ensures Decode(Call(Path2(a, b), opts))
         == if a == "auth" then DecodeAuth(b, opts.verb, opts.body)
            else if a == "reservations" then DecodeReservation(b, opts.verb, opts.body)
            else None
  {
    PathOf2(a, b);
    SplitPath([a, b]);
    assert [""] + [a, b] == ["", a, b];
  }

  /** Decoding a three-segment path. */
  lemma DecodeThree(a: string, b: string, c: string, opts: FetchOptions)
    requires '/' !in a && '/' !in b && '/' !in c && opts.headers.None? && opts.auth.None?
    ensures Decode(Call(Path3(a, b, c), opts))
         == if a == "reservations" then DecodeReservationAction(b, c, opts.verb, opts.body) else None
  {
    PathOf3(a, b, c);
    SplitPath([a, b, c]);
    assert [""] + [a, b, c] == ["", a, b, c];
  }

  /** A numeral is a single path segment that reads back as its number. */
  lemma IdSegment(n: nat)
    ensures '/' !in NatToString(n) && ParseId(NatToString(n)) == Some(n)
    ensures NatToString(n) != "restaurants" && NatToString(n) != "owner"
    ensures NatToString(n) != "my-reservations" && NatToString(n) != "owner-reservations"
  {
    NumeralHasNoSlash(n);
    IdRoundTrip(n);
    var s := NatToString(n);
    assert IsDigit(s[0]);
  }

  /** Every descriptor decodes back to its operation. */
  lemma DecodeDescribe(e: Endpoint)
    ensures Decode(Describe(e)) == Some(e)
  {
    if e.Login? || e.Me? || e.Logout? || e.Signup? {
      DecodeDescribeAuth(e);
    } else if e.CancelReservation? || e.UpdateReservation? || e.CreateReservation? {
      DecodeDescribeWrites(e);
    } else if e.ResolveReservation? || e.CompleteReservation? {
      DecodeDescribeOwnerWrites(e);
    } else {
      DecodeDescribeLists(e);
    }
  }

  lemma DecodeDescribeAuth(e: Endpoint)
    requires e.Login? || e.Me? || e.Logout? || e.Signup?
    ensures Decode(Describe(e)) == Some(e)
  {
    match e
    case Login(b) => DecodeLogin(b);
    case Me => DecodeMe();
    case Logout => DecodeLogout();
    case Signup(b) => DecodeSignup(b);
  }

  lemma DecodeLogin(b: Json)
    ensures Decode(Describe(Login(b))) == Some(Login(b))
  {
    var opts := Send("POST", Some(b));
    DecodeTwo("auth", "login", opts);
    assert DecodeAuth("login", opts.verb, opts.body) == Some(Login(b));
  }

  lemma DecodeMe()
    ensures Decode(Describe(Me)) == Some(Me)
  {
    DecodeTwo("auth", "me", NoOptions);
    assert DecodeAuth("me", None, None) == Some(Me);
  }

  lemma DecodeLogout()
    ensures Decode(Describe(Logout)) == Some(Logout)
  {
    var opts := Send("POST", None);
    DecodeTwo("auth", "logout", opts);
    assert DecodeAuth("logout", opts.verb, opts.body) == Some(Logout);
  }

  lemma DecodeSignup(b: Json)
    ensures Decode(Describe(Signup(b))) == Some(Signup(b))
  {
    var opts := Send("POST", Some(b));
    DecodeTwo("auth", "signup", opts);
    assert DecodeAuth("signup", opts.verb, opts.body) == Some(Signup(b));
  }

  lemma DecodeDescribeLists(e: Endpoint)
    requires e.MyReservations? || e.OwnerReservations? || e.LegacyOwnerReservations?
    ensures Decode(Describe(e)) == Some(e)
  {
    var c := Describe(e);
    match e
    case MyReservations => DecodeTwo("reservations", "my-reservations", c.opts);
    case OwnerReservations => DecodeTwo("reservations", "owner-reservations", c.opts);
    case LegacyOwnerReservations => DecodeThree("reservations", "owner", "reservations", c.opts);
  }

  lemma DecodeDescribeWrites(e: Endpoint)
    requires e.CancelReservation? || e.UpdateReservation? || e.CreateReservation?
    ensures Decode(Describe(e)) == Some(e)
  {
    var c := Describe(e);
    match e
    case CancelReservation(id) =>
      IdSegment(id);
      DecodeTwo("reservations", NatToString(id), c.opts);
    case UpdateReservation(id, _) =>
      IdSegment(id);
      DecodeTwo("reservations", NatToString(id), c.opts);
    case CreateReservation(id, _) =>
      IdSegment(id);
      DecodeThree("reservations", "restaurants", NatToString(id), c.opts);
  }

  lemma DecodeDescribeOwnerWrites(e: Endpoint)
    requires e.ResolveReservation? || e.CompleteReservation?
    ensures Decode(Describe(e)) == Some(e)
  {
    var c := Describe(e);
    match e
    case ResolveReservation(id, st) =>
      IdSegment(id);
      DecodeThree("reservations", NatToString(id), "resolve", c.opts);
      assert map["status" := st].Keys == {"status"};
    case CompleteReservation(id) =>
      IdSegment(id);
      DecodeThree("reservations", NatToString(id), "complete", c.opts);
  }

  lemma DecodeAuthSound(name: string, verb: Option<string>, body: Option<Json>)
    requires DecodeAuth(name, verb, body).Some?
    ensures Describe(DecodeAuth(name, verb, body).value) == Call(Path2("auth", name), FetchOptions(verb, body, None, None))
  {
  }

  lemma DecodeReservationSound(seg: string, verb: Option<string>, body: Option<Json>)
    requires DecodeReservation(seg, verb, body).Some?
    ensures Describe(DecodeReservation(seg, verb, body).value)
         == Call(Path2("reservations", seg), FetchOptions(verb, body, None, None))
  {
  }

  lemma DecodeReservationActionSound(seg: string, action: string, verb: Option<string>, body: Option<Json>)
    requires DecodeReservationAction(seg, action, verb, body).Some?
    ensures Describe(DecodeReservationAction(seg, action, verb, body).value)
         == Call(Path3("reservations", seg, action), FetchOptions(verb, body, None, None))
  {
    var e := DecodeReservationAction(seg, action, verb, body).value;
    if e.ResolveReservation? {
      var f := body.value.fields;
      assert map["status" := f["status"]] == f;
    }
  }

  /** Every call that decodes is exactly the descriptor of what it decodes to. */
  lemma DescribeDecode(c: Call)
    requires Decode(c).Some?
    ensures Describe(Decode(c).value) == c
  {
    var segs := Split(c.path, '/');
    JoinSplit(c.path, '/');
    assert [""] + segs[1..] == segs;
    assert c.opts == FetchOptions(c.opts.verb, c.opts.body, None, None);
    if |segs| == 3 {
      assert segs[1..] == [segs[1], segs[2]];
      PathOf2(segs[1], segs[2]);
      if segs[1] == "auth" {
        DecodeAuthSound(segs[2], c.opts.verb, c.opts.body);
      } else {
        DecodeReservationSound(segs[2], c.opts.verb, c.opts.body);
      }
    } else {
      assert segs[1..] == [segs[1], segs[2], segs[3]];
      PathOf3(segs[1], segs[2], segs[3]);
      DecodeReservationActionSound(segs[2], segs[3], c.opts.verb, c.opts.body);
    }
  }

  /** Distinct operations never share a call. */
  lemma DescribeInjective(a: Endpoint, b: Endpoint)
    requires Describe(a) == Describe(b)
    ensures a == b
  {
    DecodeDescribe(a);
    DecodeDescribe(b);
  }

  // ---------------------------------------------------------------------------
  // Mutation variables

  /** `{[key]: v, ...rest}`: properties spread later win. */
  function Spread(key: string, v: Json, rest: map<string, Json>): map<string, Json>
  {
    map[key := v] + rest
  }

  /** `const {[key]: picked, ...rest} = obj`. */
  function Destructure(obj: map<string, Json>, key: string): (r: (Option<Json>, map<string, Json>))
    ensures r.0.Some? <==> key in obj
    ensures r.0.Some? ==> r.0.value == obj[key]
    ensures r.1.Keys == obj.Keys - {key}
    ensures forall k | k in r.1 :: r.1[k] == obj[k]
  {
    (if key in obj then Some(obj[key]) else None, obj - {key})
  }

  /** Destructuring undoes spreading when the rest does not hold the key... */
  lemma DestructureSpread(key: string, v: Json, rest: map<string, Json>)
    requires key !in rest
    ensures Destructure(Spread(key, v, rest), key) == (Some(v), rest)
  {
    assert Spread(key, v, rest) - {key} == rest;
  }

  /** ...and a key inside the rest overrides the leading one. */
  lemma SpreadOverride(key: string, v: Json, rest: map<string, Json>)
    requires key in rest
    ensures Destructure(Spread(key, v, rest), key).0 == Some(rest[key])
  {
  }

  /** A value inside a template literal; `None` for the values the model
      does not print (fractional or negative numbers, arrays, objects). */
  function Interpolated(v: Option<Json>): (r: Option<string>)
    ensures v.Some? && v.value.JNum? && v.value.n >= 0.0 && v.value.n == v.value.n.Floor as real ==>
              r == Some(NatToString(v.value.n.Floor))
  {
    match v
    case None => Some("undefined")
    case Some(JNull) => Some("null")
    case Some(JBool(b)) => Some(if b then "true" else "false")
    case Some(JStr(s)) => Some(s)
    case Some(JNum(n)) => if n >= 0.0 && n == n.Floor as real then Some(NatToString(n.Floor)) else None
    case _ => None
  }

  /** The call made by the update mutation for `{id, ...data}`. */
  function UpdateCall(vars: map<string, Json>): (r: Option<Call>)
    ensures r.Some? ==> r.value.opts == Send("PUT", Some(JObj(vars - {"id"})))
  {
    var (id, data) := Destructure(vars, "id");
    var seg := Interpolated(id);
    if seg.None? then None else Some(Call(Path2("reservations", seg.value), Send("PUT", Some(JObj(data)))))
  }

  /** The call made by the create mutation for `{restaurantId, ...data}`. */
  function CreateCall(vars: map<string, Json>): (r: Option<Call>)
    ensures r.Some? ==> r.value.opts == Send("POST", Some(JObj(vars - {"restaurantId"})))
  {
    var (rid, data) := Destructure(vars, "restaurantId");
    var seg := Interpolated(rid);
    if seg.None? then None else Some(Call(Path3("reservations", "restaurants", seg.value), Send("POST", Some(JObj(data)))))
  }

  /** The variables the detail modal and the create modal pass, `{id,
      ...values}` and `{restaurantId, ...data}`, reach the backend as the
      update and create operations on exactly those values. */
  lemma MutationCallsMatchDescriptors(id: nat, values: map<string, Json>)
    requires "id" !in values && "restaurantId" !in values
    ensures UpdateCall(Spread("id", JNum(id as real), values)) == Some(Describe(UpdateReservation(id, JObj(values))))
    ensures CreateCall(Spread("restaurantId", JNum(id as real), values)) == Some(Describe(CreateReservation(id, JObj(values))))
  {
    DestructureSpread("id", JNum(id as real), values);
    DestructureSpread("restaurantId", JNum(id as real), values);
    assert (id as real).Floor == id;
  }

  /** Without an id the update goes to `/reservations/undefined`, which is
      no operation of the backend. */
  lemma MissingIdIsNoOperation(vars: map<string, Json>)
    requires "id" !in vars
    ensures UpdateCall(vars) == Some(Call(Path2("reservations", "undefined"), Send("PUT", Some(JObj(vars)))))
    ensures Decode(UpdateCall(vars).value).None?
  {
    assert vars - {"id"} == vars;
    assert !AllDigits("undefined") by { assert !IsDigit("undefined"[0]); }
    assert ParseId("undefined").None?;
    var opts := Send("PUT", Some(JObj(vars)));
    DecodeTwo("reservations", "undefined", opts);
    assert DecodeReservation("undefined", opts.verb, opts.body).None?;
  }

  // ---------------------------------------------------------------------------
  // Reservation list queries

  /** The hooks in the queries module and the older hooks module. */
  datatype HookSet = QueriesModule | OlderHooks

  datatype ListKind = Mine | Owned

  function ListKey(k: ListKind): (key: Key)
    ensures |key| == 1
  {
    match k
    case Mine => ["my-reservations"]
    case Owned => ["owner-reservations"]
  }

  function ListEndpoint(h: HookSet, k: ListKind): (e: Endpoint)
    ensures IsRead(e)
    ensures k == Mine ==> e == MyReservations
    ensures k == Owned ==> (e == OwnerReservations <==> h == QueriesModule)
  {
    match (h, k)
    case (_, Mine) => MyReservations
    case (QueriesModule, Owned) => OwnerReservations
    case (OlderHooks, Owned) => LegacyOwnerReservations
  }

  /** What the query keeps from a response body: `res.data` (or `const
      {data} = res`), which throws on a `null` body. */
  datatype Selected = SelectedData(data: Option<Json>) | SelectThrows

  function SelectData(body: Json): (r: Selected)
    ensures r.SelectThrows? <==> body == JNull
    ensures r.SelectedData? ==> r.data == Get(Some(body), "data")
  {
    if body == JNull then SelectThrows else SelectedData(Get(Some(body), "data"))
  }

  /** The list queries of both hook sets share keys and data selection; the
      two owner lists ask different paths. */
  lemma HookSetsDifferOnlyInOwnerPath(k: ListKind)
    ensures ListEndpoint(QueriesModule, k) == ListEndpoint(OlderHooks, k) <==> k == Mine
    ensures Describe(ListEndpoint(QueriesModule, k)).path != Describe(ListEndpoint(OlderHooks, k)).path <==> k == Owned
  {
    DecodeDescribe(OwnerReservations);
    DecodeDescribe(LegacyOwnerReservations);
  }

  /** The reservation mutations with an invalidation on success. */
  datatype ReservationMutation = CancelMutation | UpdateMutation | CreateMutation | CompleteMutation

  /** The list each mutation invalidates on success. */
  function InvalidatedList(m: ReservationMutation): (k: ListKind)
    ensures k == Owned <==> m == CompleteMutation
  {
    if m == CompleteMutation then Owned else Mine
  }

  function OnReservationMutationSuccess<V>(c: Cache<V>, m: ReservationMutation): Cache<V>
  {
    Invalidate(c, ListKey(InvalidatedList(m)))
  }

  /** On success a reservation mutation marks stale every query whose key
      starts with its own list's name, keeping the data for display until the
      refetch, and leaves every other query (the other list, the session's
      `me`, the restaurant queries) untouched. */
  lemma MutationTouchesOnlyItsList<V>(c: Cache<V>, m: ReservationMutation, key: Key)
    requires key in c
    ensures key in OnReservationMutationSuccess(c, m)
    ensures |key| >= 1 && key[0] == ListKey(InvalidatedList(m))[0] ==>
              OnReservationMutationSuccess(c, m)[key] == c[key].(stale := true)
    ensures !(|key| >= 1 && key[0] == ListKey(InvalidatedList(m))[0]) ==>
              OnReservationMutationSuccess(c, m)[key] == c[key]
    ensures |key| == 1 && key == ListKey(InvalidatedList(m)) ==>
              OnReservationMutationSuccess(c, m)[key] == c[key].(stale := true)
    ensures |key| == 1 && key != ListKey(InvalidatedList(m)) ==> OnReservationMutationSuccess(c, m)[key] == c[key]
  {
    SingleSegmentMatch(ListKey(InvalidatedList(m)), key);
  }

  /** In particular the session entry survives every reservation mutation. */
  lemma ReservationMutationsKeepSession(c: Cache<Session.Value>, m: ReservationMutation)
    requires Session.MeKey in c
    ensures OnReservationMutationSuccess(c, m)[Session.MeKey] == c[Session.MeKey]
  {
    MutationTouchesOnlyItsList(c, m, Session.MeKey);
  }
}

=== FILE: json.dfy ===
/** Parsed JSON values as JavaScript code sees them: truthiness, optional
    chaining and `Array.isArray`. */
module Json {
  import opened Wrappers
  import opened Text

  datatype Json =
    | JNull
    | JBool(b: bool)
    | JNum(n: real)
    | JStr(s: string)
    | JArr(items: seq<Json>)
    | JObj(fields: map<string, Json>)

  /** JavaScript truthiness of a JSON value (JSON has no NaN or undefined). */
  predicate Truthy(v: Json)
  {
    match v
    case JNull => false
    case JBool(b) => b
    case JNum(n) => n != 0.0
    case JStr(s) => |s| > 0
    case JArr(_) => true
    case JObj(_) => true
  }

  /** Truthiness of a possibly undefined value. */
  predicate TruthyOpt(v: Option<Json>)
  {
    v.Some? && Truthy(v.value)
  }

  /** `v?.[key]`: a property of an object; `undefined` for everything else. */
  function Get(v: Option<Json>, key: string): (r: Option<Json>)
    ensures r.Some? ==> v.Some? && v.value.JObj? && key in v.value.fields
  {
    match v
    case Some(JObj(f)) => if key in f then Some(f[key]) else None
    case _ => None
  }

  /** `v || fallback`. */
  function OrElse(v: Option<Json>, fallback: Json): (r: Json)
    ensures Truthy(fallback) ==> Truthy(r)
    ensures TruthyOpt(v) ==> r == v.value
  {
    if TruthyOpt(v) then v.value else fallback
  }

  /** `Array.isArray(v) ? v : undefined`. */
  function ArrayOrUndefined(v: Option<Json>): (r: Option<seq<Json>>)
    ensures r.Some? <==> v.Some? && v.value.JArr?
  {
    match v
    case Some(JArr(items)) => Some(items)
    case _ => None
  }

  // ---------------------------------------------------------------------------
  // String conversion

  /** `String(v)`: what `new Error(v)` keeps as its message and what a
      template literal shows. An array joins its items with commas, `null`
      items giving the empty text; an object is `[object Object]`. */
  function JsString(v: Json): (r: string)
    ensures v.JStr? ==> r == v.s
    ensures |r| == 0 ==> v.JStr? || v.JArr?
    ensures v.JArr? && |v.items| == 0 ==> r == ""
  {
    match v
    case JNull => "null"
    case JBool(b) => if b then "true" else "false"
    case JNum(n) => NumberText(n)
    case JStr(s) => s
    case JArr(items) =>
      Join(seq(|items|, i requires 0 <= i < |items| => if items[i].JNull? then "" else JsString(items[i])), ',')
    case JObj(_) => "[object Object]"
  }

  /** `Number.prototype.toString` in plain decimal notation: the sign, the
      whole part and, for a fraction, its digits up to the twentieth. */
  function NumberText(n: real): (r: string)
    ensures |r| > 0
    ensures n >= 0.0 && n == n.Floor as real ==> r == NatToString(n.Floor)
  {
    var a := if n < 0.0 then -n else n;
    var whole: nat := a.Floor;
    (if n < 0.0 then "-" else "") + NatToString(whole)
    + (if a == whole as real then "" else "." + FractionDigits(a - whole as real, 20))
  }

  /** The decimal digits of a fraction, stopping once it is exhausted or
      after `count` digits. */
  function FractionDigits(f: real, count: nat): (r: string)
    requires 0.0 <= f < 1.0
    ensures |r| <= count && AllDigits(r)
    decreases count
  {
    if count == 0 || f == 0.0 then ""
    else
      var t := f * 10.0;
      var d: nat := t.Floor;
      [DigitChar(d)] + FractionDigits(t - d as real, count - 1)
  }

  /** The message of the `TypeError` a property read on `null` throws, in
      the wording of the V8 engine. */
  function NullReadMessage(key: string): (r: string)
    ensures |r| > 0
  {
    "Cannot read properties of null (reading '" + key + "')"
  }
}

=== FILE: navigation.dfy ===
/** Navigation and visibility decisions: the route guard, the login page's
    redirect, the splash page's call to action, the "book a table" guard, the
    two navigation bars and the user menu. Each is a function from the
    session (user or none, loading flag) and the location to what is shown
    or where the router goes. */
module Navigation {
  import opened Wrappers
  import opened Text
  import opened Domain
  import Session
  import QueryCache
  import ApiFetch

  /** A router location; `state` is whatever the navigation that led here attached. */
  datatype Location = Location(pathname: string, search: string, hash: string, state: Option<RouteState>)

  /** `{ from }`: a whole location (from the guard) or a plain path string (from the book button). */
  datatype RouteState = RouteState(from: Option<From>)

  datatype From = FromLocation(loc: Location) | FromPath(path: string)

  /** A navigation request: target, attached state, and whether it replaces the history entry. */
  datatype Nav = Nav(to: string, state: Option<RouteState>, replace: bool)

  // ---------------------------------------------------------------------------
  // Route guard (ProtectedRoute)

  datatype GuardView = GuardNothing | GuardRedirect(nav: Nav) | GuardChildren

  function ProtectedRoute(user: Option<User>, isLoadingUser: bool, loc: Location): (g: GuardView)
    ensures isLoadingUser ==> g == GuardNothing
    ensures !isLoadingUser && user.None? ==>
              g == GuardRedirect(Nav("/login", Some(RouteState(Some(FromLocation(loc)))), true))
    ensures !isLoadingUser && user.Some? ==> g == GuardChildren
  {
    if isLoadingUser then GuardNothing
    else if user.None? then GuardRedirect(Nav("/login", Some(RouteState(Some(FromLocation(loc)))), true))
    else GuardChildren
  }

  // ---------------------------------------------------------------------------
  // Login page

  /** `location.state?.from?.pathname || "/home"`. */
  function LoginTarget(loc: Location): (to: string)
    ensures to == "/home" || (loc.state.Some? && loc.state.value.from.Some?
                              && loc.state.value.from.value.FromLocation?
                              && to == loc.state.value.from.value.loc.pathname && to != "")
    ensures (loc.state.None? || loc.state.value.from.None? || loc.state.value.from.value.FromPath?) ==> to == "/home"
  {
    match loc.state
    case Some(RouteState(Some(FromLocation(l)))) => if |l.pathname| > 0 then l.pathname else "/home"
    case _ => "/home"
  }

  /** The page's effect: once loaded with a user, replace the entry with the target. */
  function LoginPageEffect(user: Option<User>, isLoadingUser: bool, loc: Location): (nav: Option<Nav>)
    ensures nav.Some? <==> !isLoadingUser && user.Some?
    ensures nav.Some? ==> nav.value == Nav(LoginTarget(loc), None, true)
  {
    if !isLoadingUser && user.Some? then Some(Nav(LoginTarget(loc), None, true)) else None
  }

  datatype LoginPageView = LoginPageBlank | LoginPageForm

  function LoginPageRender(user: Option<User>, isLoadingUser: bool): (v: LoginPageView)
    ensures v == LoginPageForm <==> !isLoadingUser && user.None?
  {
    if isLoadingUser || user.Some? then LoginPageBlank else LoginPageForm
  }

  /** The redirect target never depends on who logged in: there is no
      role-based landing page. */
  lemma LoginTargetIgnoresRole(u1: User, u2: User, loc: Location)
    ensures LoginPageEffect(Some(u1), false, loc) == LoginPageEffect(Some(u2), false, loc)
  {
  }

  /** The location the guard's redirect leads to. */
  function ArrivalAt(nav: Nav): Location
  {
    Location(nav.to, "", "", nav.state)
  }

  /** Guard, login, back: a visitor turned away from a protected path lands
      on the login form, and once a user appears the login page replaces the
      entry with that same path. */
  lemma GuardLoginRoundTrip(loc: Location, u: User)
    requires loc.pathname != ""
    ensures ProtectedRoute(None, false, loc).GuardRedirect?
    ensures var login := ArrivalAt(ProtectedRoute(None, false, loc).nav);
            login.pathname == "/login"
            && LoginPageRender(None, false) == LoginPageForm
            && LoginPageEffect(Some(u), false, login) == Some(Nav(loc.pathname, None, true))
  {
  }

  /** The guard shows the protected view exactly when the login page would
      navigate away, and redirects exactly when the login page shows its form. */
  lemma GuardAndLoginPageAgree(user: Option<User>, isLoadingUser: bool, loc: Location, here: Location)
    ensures ProtectedRoute(user, isLoadingUser, loc) == GuardChildren
            <==> LoginPageEffect(user, isLoadingUser, here).Some?
    ensures ProtectedRoute(user, isLoadingUser, loc).GuardRedirect?
            <==> LoginPageRender(user, isLoadingUser) == LoginPageForm
  {
  }

  // ---------------------------------------------------------------------------
  // Splash page

  /** `handlePrimaryCTA`: visitors explore, owners manage, customers see
      their bookings. */
  function SplashTarget(user: Option<User>): (t: string)
    ensures t == "/restaurants" <==> user.None?
    ensures t == "/owner-dashboard" <==> user.Some? && IsOwner(user.value)
    ensures t == "/my-reservations" <==> user.Some? && !IsOwner(user.value)
  {
    if user.None? then "/restaurants"
    else if IsOwner(user.value) then "/owner-dashboard"
    else "/my-reservations"
  }

  /** The button's text. */
  function SplashLabel(user: Option<User>): (l: string)
    ensures l == RouteLabel(SplashTarget(user)) && |l| > 0
  {
    if user.None? then "Explore Restaurants"
    else if IsOwner(user.value) then "Dashboard"
    else "My Reservations"
  }

  /** The page renders nothing while the user is loading. */
  predicate SplashRenders(isLoadingUser: bool)
  {
    !isLoadingUser
  }

  /** The name of each landing route, independent of how it was chosen. */
  function RouteLabel(path: string): string
  {
    if path == "/owner-dashboard" then "Dashboard"
    else if path == "/my-reservations" then "My Reservations"
    else if path == "/restaurants" then "Explore Restaurants"
    else ""
  }

  /** The button's label names the route it goes to, for every session. */
  lemma SplashLabelMatchesTarget(user: Option<User>)
    ensures SplashLabel(user) == RouteLabel(SplashTarget(user))
    ensures user.None? ==> SplashTarget(user) == "/restaurants"
    ensures user.Some? && IsOwner(user.value) ==> SplashTarget(user) == "/owner-dashboard"
    ensures user.Some? && !IsOwner(user.value) ==> SplashTarget(user) == "/my-reservations"
  {
  }

  // ---------------------------------------------------------------------------
  // Restaurant details: the "book a table" guard and the view states

  datatype BookClickResult = BookClickResult(nav: Option<Nav>, bookingOpen: bool)

  /** `handleBookClick`; `bookingOpen` is the modal flag before the click. */
  function BookClick(user: Option<User>, id: string, bookingOpen: bool): (r: BookClickResult)
    ensures user.None? ==>
              r.nav == Some(Nav("/login", Some(RouteState(Some(FromPath("/restaurants/" + id)))), false))
              && r.bookingOpen == bookingOpen
    ensures user.Some? ==> r.nav.None? && r.bookingOpen
  {
    if user.None? then
      BookClickResult(Some(Nav("/login", Some(RouteState(Some(FromPath("/restaurants/" + id)))), false)), bookingOpen)
    else BookClickResult(None, true)
  }

  /** The path the book button records is a string, not a location, so after
      logging in the visitor lands on "/home", not on the restaurant. */
  lemma BookClickLoginLandsOnHome(id: string, u: User)
    ensures var nav := BookClick(None, id, false).nav.value;
            LoginPageEffect(Some(u), false, ArrivalAt(nav)) == Some(Nav("/home", None, true))
            && "/home" != "/restaurants/" + id
  {
    assert ("/restaurants/" + id)[1] == 'r';
  }

  datatype BookingModalProps = BookingModalProps(restaurantId: nat, restaurantName: string, open: bool)

  datatype DetailsView = DetailsLoading | DetailsError | DetailsPage(modal: BookingModalProps)

  function RestaurantDetailsView(isLoading: bool, hasError: bool, restaurant: Option<Restaurant>, bookingOpen: bool): (v: DetailsView)
    ensures isLoading ==> v == DetailsLoading
    ensures !isLoading && (hasError || restaurant.None?) ==> v == DetailsError
    ensures v.DetailsPage? ==> restaurant.Some? && v.modal == BookingModalProps(restaurant.value.id, restaurant.value.name, bookingOpen)
  {
    if isLoading then DetailsLoading
    else if hasError || restaurant.None? then DetailsError
    else DetailsPage(BookingModalProps(restaurant.value.id, restaurant.value.name, bookingOpen))
  }

  // ---------------------------------------------------------------------------
  // User menu (NavbarDropdownMenu)

  datatype MenuLink = MenuLink(to: string, caption: string)

  datatype DropdownMenu = DropdownMenu(
    avatarFallback: string,
    labelLines: seq<string>,
    link: MenuLink,
    logoutDisabled: bool,
    logoutSpinner: bool)

  /** `firstname?.[0]?.toUpperCase()`; nothing for an empty name. */
  function AvatarFallback(firstname: string): (r: string)
    ensures |firstname| == 0 ==> r == ""
    ensures |firstname| > 0 ==> r == [UpperChar(firstname[0])]
  {
    if |firstname| == 0 then "" else [UpperChar(firstname[0])]
  }

  function Dropdown(u: User, isLoggingOut: bool): (m: DropdownMenu)
    ensures m.link == (if IsOwner(u) then MenuLink("/owner-dashboard", "Dashboard")
                                     else MenuLink("/my-reservations", "My Reservations"))
    ensures m.logoutDisabled <==> isLoggingOut
    ensures m.logoutSpinner <==> isLoggingOut
    ensures m.labelLines == [u.firstname + " " + u.lastname, u.email, u.role]
  {
    DropdownMenu(
      AvatarFallback(u.firstname),
      [u.firstname + " " + u.lastname, u.email, u.role],
      if IsOwner(u) then MenuLink("/owner-dashboard", "Dashboard") else MenuLink("/my-reservations", "My Reservations"),
      isLoggingOut,
      isLoggingOut)
  }

  /** The menu's role link and the splash button send a user to the same place, under the same name. */
  lemma DropdownAgreesWithSplash(u: User, isLoggingOut: bool)
    ensures Dropdown(u, isLoggingOut).link == MenuLink(SplashTarget(Some(u)), SplashLabel(Some(u)))
  {
  }

  // ---------------------------------------------------------------------------
  // Navigation bar (layouts/navbar/Navbar.jsx)

  predicate IsLoginPage(pathname: string)
  {
    pathname == "/login"
  }

  datatype AuthSlot = DropdownSlot(menu: DropdownMenu) | LoginButtonSlot(to: string) | EmptySlot

  datatype NavbarView = NavbarView(logoLink: string, restaurantsLink: string, slot: AuthSlot)

  function Navbar(user: Option<User>, pathname: string, isLoggingOut: bool): (v: NavbarView)
    ensures v.restaurantsLink == "/restaurants"
    ensures user.Some? ==> v.slot == DropdownSlot(Dropdown(user.value, isLoggingOut))
    ensures user.None? && !IsLoginPage(pathname) ==> v.slot == LoginButtonSlot("/login")
    ensures user.None? && IsLoginPage(pathname) ==> v.slot == EmptySlot
  {
    NavbarView("/", "/restaurants",
      if user.Some? then DropdownSlot(Dropdown(user.value, isLoggingOut))
      else if !IsLoginPage(pathname) then LoginButtonSlot("/login")
      else EmptySlot)
  }

  datatype NavEffect = CallLogout | NavigateTo(path: string)

  /** `handleLogout`: start the logout, then go to "/". The logout function
      is `mutate`, which returns nothing to wait for, so the navigation does
      not depend on how the logout ends. */
  function HandleLogout(): (effects: seq<NavEffect>)
    ensures effects == [CallLogout, NavigateTo("/")]
  {
    [CallLogout, NavigateTo("/")]
  }

  /** The app around the navbar: the session and the current path. */
  datatype App = App(session: Session.State, path: string)

  /** The effects run in order, with no waiting in between: `CallLogout` is
      the provider's `mutate`, which only starts the request. */
  function RunEffects(a: App, effects: seq<NavEffect>): App
    decreases |effects|
  {
    if |effects| == 0 then a
    else
      var next := match effects[0]
        case CallLogout => a.(session := Session.Step(Session.Provider, a.session, Session.Mutate(Session.Logout)))
        case NavigateTo(p) => a.(path := p);
      RunEffects(next, effects[1..])
  }

  /** The navigation to "/" happens while the logout request is still in
      flight: the session then still holds the user it had, and a logout
      that fails afterwards leaves that user signed in on "/". */
  lemma LogoutNavigatesBeforeSessionEnds(s: Session.State, path: string, err: ApiFetch.Thrown)
    ensures var after := RunEffects(App(s, path), HandleLogout());
            after.path == "/"
            && after.session.logout.status == Session.Loading
            && Session.CurrentUser(after.session) == Session.CurrentUser(s)
            && Session.CurrentUser(Session.Step(Session.Provider, after.session, Session.MutationFailed(Session.Logout, err)))
               == Session.CurrentUser(s)
  {
    var effects := HandleLogout();
    assert effects[1..] == [NavigateTo("/")] && effects[1..][1..] == [];
  }

  // ---------------------------------------------------------------------------
  // Older navigation bar (layouts/Navbar.jsx)

  datatype LegacySlot =
    | LegacyLoginLink(to: string)
    | LegacyNothing
    | LegacyUserControls(firstname: string, logoutDisabled: bool, logoutLabel: string)

  datatype LegacyNavbarView = LegacyNavbarView(logoLink: string, slot: LegacySlot)

  function LegacyNavbar(user: Option<User>, pathname: string, isLoggingOut: bool): (v: LegacyNavbarView)
    ensures v.logoLink == "/dashboard"
    ensures user.None? && !IsLoginPage(pathname) ==> v.slot == LegacyLoginLink("/login")
    ensures user.None? && IsLoginPage(pathname) ==> v.slot == LegacyNothing
    ensures user.Some? ==> v.slot.LegacyUserControls? && v.slot.firstname == user.value.firstname
    ensures user.Some? ==> (v.slot.logoutDisabled <==> isLoggingOut)
    ensures user.Some? ==> v.slot.logoutLabel == (if isLoggingOut then "Logging out..." else "Logout")
  {
    LegacyNavbarView("/dashboard",
      if user.None? then (if !IsLoginPage(pathname) then LegacyLoginLink("/login") else LegacyNothing)
      else LegacyUserControls(user.value.firstname, isLoggingOut, if isLoggingOut then "Logging out..." else "Logout"))
  }

  /** Both bars offer the way to "/login" in exactly the same sessions and
      places, and both show user controls exactly when there is a user. */
  lemma NavbarsAgree(user: Option<User>, pathname: string, isLoggingOut: bool)
    ensures Navbar(user, pathname, isLoggingOut).slot == LoginButtonSlot("/login")
            <==> LegacyNavbar(user, pathname, isLoggingOut).slot == LegacyLoginLink("/login")
    ensures Navbar(user, pathname, isLoggingOut).slot.DropdownSlot?
            <==> LegacyNavbar(user, pathname, isLoggingOut).slot.LegacyUserControls?
    ensures Navbar(user, pathname, isLoggingOut).slot.DropdownSlot? ==>
              (Navbar(user, pathname, isLoggingOut).slot.menu.logoutDisabled
               <==> LegacyNavbar(user, pathname, isLoggingOut).slot.logoutDisabled)
  {
  }

  // ---------------------------------------------------------------------------
  // The session controller seen through the guard

  /** Logging out while on a protected page never shows the protected view
      from cache. With the provider, `['me']` goes back to loading, so the
      guard shows nothing; once the re-fetch fails, it redirects to
      "/login". With the older hook, the redirect is immediate. */
  lemma {:induction false} LogoutThenGuard(s: Session.State, loc: Location)
    requires Session.MeKey in s.cache
    ensures var s1 := Session.Step(Session.Provider, s, Session.MutationSucceeded(Session.Logout));
            var s2 := Session.Step(Session.Provider, s1, Session.MeFetchFailed);
            ProtectedRoute(Session.CurrentUser(s1), Session.IsLoadingUser(s1), loc) == GuardNothing
            && ProtectedRoute(Session.CurrentUser(s2), Session.IsLoadingUser(s2), loc).GuardRedirect?
            && ProtectedRoute(Session.CurrentUser(s2), Session.IsLoadingUser(s2), loc).nav.to == "/login"
    ensures var t := Session.Step(Session.LegacyHooks, s, Session.MutationSucceeded(Session.Logout));
            ProtectedRoute(Session.CurrentUser(t), Session.IsLoadingUser(t), loc).GuardRedirect?
  {
    Session.ProviderLogoutSuccess(s);
    Session.LegacyLogoutSuccess(s);
    var s1 := Session.Step(Session.Provider, s, Session.MutationSucceeded(Session.Logout));
    assert s1.cache[Session.MeKey] == QueryCache.InitialEntry<Session.Value>().(stale := true);
  }
}

=== FILE: query_cache.dfy ===
/** An abstract query cache: a map from query key to an entry holding the
    fetch status, the data (if any) and a stale flag. Timers, background
    refetching and request deduplication are outside the model. */
module QueryCache {
  import opened Wrappers

  type Key = seq<string>

  /** A query's status (`'loading' | 'success' | 'error'`). */
  datatype QueryStatus = QueryLoading | QuerySuccess | QueryError

  datatype Entry<V> = Entry(status: QueryStatus, data: Option<V>, stale: bool)

  type Cache<V> = map<Key, Entry<V>>

  /** A query that has never resolved: loading, no data, must be fetched. */
  function InitialEntry<V>(): Entry<V>
  {
    Entry(QueryLoading, None, true)
  }

  /** Query filters match by key prefix; the empty filter matches every query. */
  predicate Matches(filter: Key, key: Key)
  {
    filter <= key
  }

  /** A one-segment filter matches exactly the keys that start with its
      segment; for a one-segment key that is plain key equality. */
  lemma SingleSegmentMatch(filter: Key, key: Key)
    requires |filter| == 1
    ensures Matches(filter, key) <==> |key| >= 1 && key[0] == filter[0]
    ensures |key| == 1 ==> (Matches(filter, key) <==> filter == key)
  {
  }

  /** `invalidateQueries(filter)`: matching entries become stale; data and status are kept. */
  function Invalidate<V>(c: Cache<V>, filter: Key): (c': Cache<V>)
    ensures c'.Keys == c.Keys
    ensures forall k :: k in c ==> c'[k].data == c[k].data && c'[k].status == c[k].status
    ensures forall k :: k in c ==> (c'[k].stale <==> c[k].stale || Matches(filter, k))
  {
    map k | k in c :: if Matches(filter, k) then c[k].(stale := true) else c[k]
  }

  /** `invalidateQueries()` with no filter. */
  function InvalidateAll<V>(c: Cache<V>): (c': Cache<V>)
    ensures c'.Keys == c.Keys
    ensures forall k :: k in c ==> c'[k].stale && c'[k].data == c[k].data
  {
    Invalidate(c, [])
  }

  /** `resetQueries({queryKey: filter})`: matching entries return to their initial state. */
  function Reset<V>(c: Cache<V>, filter: Key): (c': Cache<V>)
    ensures c'.Keys == c.Keys
    ensures forall k :: k in c && Matches(filter, k) ==> c'[k] == InitialEntry()
    ensures forall k :: k in c && !Matches(filter, k) ==> c'[k] == c[k]
  {
    map k | k in c :: if Matches(filter, k) then InitialEntry() else c[k]
  }

  /** `setQueryData(key, v)`: fresh data, as if fetched just now. */
  function SetData<V>(c: Cache<V>, key: Key, v: V): (c': Cache<V>)
    ensures c'.Keys == c.Keys + {key}
    ensures c'[key] == Entry(QuerySuccess, Some(v), false)
    ensures forall k :: k in c && k != key ==> c'[k] == c[k]
  {
    c[key := Entry(QuerySuccess, Some(v), false)]
  }

  /** A query function that resolved with `v`. */
  function FetchSucceeded<V>(c: Cache<V>, key: Key, v: V): (c': Cache<V>)
    ensures key in c' && c'[key].data == Some(v) && c'[key].status == QuerySuccess && !c'[key].stale
    ensures forall k :: k in c && k != key ==> k in c' && c'[k] == c[k]
  {
    SetData(c, key, v)
  }

  /** A query function that threw (with no retry left): the previous data is kept. */
  function FetchFailed<V>(c: Cache<V>, key: Key): (c': Cache<V>)
    ensures c'.Keys == c.Keys + {key}
    ensures c'[key].status == QueryError
    ensures c'[key].data == (if key in c then c[key].data else None)
    ensures forall k :: k in c && k != key ==> c'[k] == c[k]
  {
    var e := if key in c then c[key] else InitialEntry();
    c[key := e.(status := QueryError)]
  }

  /** The data a query observer sees: `undefined` until the query has data. */
  function DataOf<V>(c: Cache<V>, key: Key): Option<V>
  {
    if key in c then c[key].data else None
  }

  /** The observer's `isLoading`: the query has not resolved yet (an
      unobserved key is created in this state). */
  predicate IsLoading<V>(c: Cache<V>, key: Key)
  {
    key !in c || c[key].status == QueryLoading
  }

  /** Applying an invalidation twice is the same as applying it once. */
  lemma InvalidateIdempotent<V>(c: Cache<V>, filter: Key)
    ensures Invalidate(Invalidate(c, filter), filter) == Invalidate(c, filter)
  {
  }
}

=== FILE: reservation_forms.dfy ===
/** The booking forms: the reservation schemas, the half-hour time slots, the
    create modal's submit outcome, the detail modal's edit/cancel state
    machine, the shared form fields and the status badge. Calendar days are
    integers (day numbers) and the parse of a date string is a parameter. */
module ReservationForms {
  import opened Wrappers
  import opened Text
  import opened Json
  import opened Domain
  import opened ApiFetch
  import opened Endpoints
  import opened ReservationLists
  import Session
  import Credentials

  type Issue = Credentials.Issue

  // ---------------------------------------------------------------------------
  // Form values

  /** `Number(x)` as `z.coerce.number()` computes it; an emptied number input
      coerces to 0. */
  datatype NumberValue = NaN | Finite(x: real)

  /** What a booking form holds: the `yyyy-MM-dd` date text, the time text
      and the coerced party size. */
  datatype BookingValues = BookingValues(date: string, time: string, persons: NumberValue)

  /** What the schema hands to `onSubmit` once it accepts the values. */
  datatype BookingData = BookingData(date: string, time: string, persons: real)

  const PersonsMin := 1
  const PersonsMax := 20

  /** zod's message for a number that coerced to `NaN`. */
  const NotANumberMessage := "Expected number, received nan"

  /** The two schemas word the upper bound differently. */
  datatype Schema = CreateSchema | DetailSchema

  function MaxMessage(s: Schema): string
  {
    if s == CreateSchema then "Max 20 people" else "Max 20 persons"
  }

  /** `z.coerce.number().min(1, …).max(20, …)`: a `NaN` stops at the type
      check; both bounds are inclusive and both are checked. */
  function PersonsIssues(p: NumberValue, s: Schema): (r: seq<Issue>)
    ensures |r| == 0 <==> p.Finite? && PersonsMin as real <= p.x <= PersonsMax as real
    ensures Credentials.Issue("persons", "At least 1 person") in r <==> p.Finite? && p.x < PersonsMin as real
    ensures Credentials.Issue("persons", MaxMessage(s)) in r <==> p.Finite? && p.x > PersonsMax as real
    ensures forall i :: 0 <= i < |r| ==> r[i].path == "persons"
  {
    match p
    case NaN => [Credentials.Issue("persons", NotANumberMessage)]
    case Finite(x) =>
      (if x >= PersonsMin as real then [] else [Credentials.Issue("persons", "At least 1 person")])
      + (if x <= PersonsMax as real then [] else [Credentials.Issue("persons", MaxMessage(s))])
  }

  // ---------------------------------------------------------------------------
  // The past-date rule

  /** Milliseconds in a day. */
  const DayMs: int := 86400000

  /** The check as the create schema writes it: `new Date(val)` reads a
      date-only string as midnight UTC of that day, and
      `new Date().setHours(0, 0, 0, 0)` is local midnight of today, which is
      `eastMs` milliseconds before midnight UTC of the same calendar day
      (`eastMs` is the local zone's offset east of UTC). A date naming no day
      is an invalid `Date`, and every comparison with it is false. */
  predicate DateNotPastAsWritten(day: Option<int>, today: int, eastMs: int)
  {
    day.Some? && day.value * 86400000 >= today * 86400000 - eastMs
  }

  /** The rule the message states: the day is today or later. */
  predicate DateNotPast(day: Option<int>, today: int)
  {
    day.Some? && day.value >= today
  }

  /** West of UTC the written check rejects today, the first day the date
      picker offers and the day the create form starts on. */
  lemma TodayRejectedWestOfUtc(today: int, eastMs: int)
    requires eastMs < 0
    ensures !DateNotPastAsWritten(Some(today), today, eastMs)
    ensures DateNotPast(Some(today), today)
  {
  }

  /** At UTC and east of it the written check is the intended one. */
  lemma DateCheckAgreesEastOfUtc(day: Option<int>, today: int, eastMs: int)
    requires 0 <= eastMs < DayMs
    ensures DateNotPastAsWritten(day, today, eastMs) <==> DateNotPast(day, today)
  {
    if day.Some? && day.value < today {
      assert day.value * 86400000 <= today * 86400000 - 86400000;
    }
  }

  // ---------------------------------------------------------------------------
  // The schemas

  /** The create schema with the date check as written; `dayOf` reads a
      `yyyy-MM-dd` text as a day number. */
  function BookingIssuesAsWritten(v: BookingValues, dayOf: string -> Option<int>, today: int, eastMs: int): (r: seq<Issue>)
    ensures Credentials.Issue("date", "Date cannot be in the past") in r <==> !DateNotPastAsWritten(dayOf(v.date), today, eastMs)
  {
    (if DateNotPastAsWritten(dayOf(v.date), today, eastMs) then [] else [Credentials.Issue("date", "Date cannot be in the past")])
    + (if v.time != "" then [] else [Credentials.Issue("time", "Please select a time")])
    + PersonsIssues(v.persons, CreateSchema)
  }

  /** The create schema (both copies of it), with the past-date rule read as
      calendar days. */
  function BookingIssues(v: BookingValues, dayOf: string -> Option<int>, today: int): (r: seq<Issue>)
    ensures |r| == 0 <==>
              DateNotPast(dayOf(v.date), today) && v.time != ""
              && v.persons.Finite? && PersonsMin as real <= v.persons.x <= PersonsMax as real
    ensures Credentials.Issue("date", "Date cannot be in the past") in r <==> !DateNotPast(dayOf(v.date), today)
    ensures Credentials.Issue("time", "Please select a time") in r <==> v.time == ""
    ensures Credentials.Issue("persons", "At least 1 person") in r <==> v.persons.Finite? && v.persons.x < PersonsMin as real
    ensures Credentials.Issue("persons", "Max 20 people") in r <==> v.persons.Finite? && v.persons.x > PersonsMax as real
  {
    var p := PersonsIssues(v.persons, CreateSchema);
    (if DateNotPast(dayOf(v.date), today) then [] else [Credentials.Issue("date", "Date cannot be in the past")])
    + (if v.time != "" then [] else [Credentials.Issue("time", "Please select a time")])
    + p
  }

  /** The two readings of the rule give the same issues at UTC and east of it. */
  lemma BookingIssuesAgreeEastOfUtc(v: BookingValues, dayOf: string -> Option<int>, today: int, eastMs: int)
    requires 0 <= eastMs < DayMs
    ensures BookingIssuesAsWritten(v, dayOf, today, eastMs) == BookingIssues(v, dayOf, today)
  {
    DateCheckAgreesEastOfUtc(dayOf(v.date), today, eastMs);
  }

  /** The detail modal's schema: date and time only have to be non-empty. */
  function DetailIssues(v: BookingValues): (r: seq<Issue>)
    ensures |r| == 0 <==>
              v.date != "" && v.time != ""
              && v.persons.Finite? && PersonsMin as real <= v.persons.x <= PersonsMax as real
    ensures Credentials.Issue("date", "Date is required") in r <==> v.date == ""
    ensures Credentials.Issue("time", "Time is required") in r <==> v.time == ""
    ensures Credentials.Issue("persons", "Max 20 persons") in r <==> v.persons.Finite? && v.persons.x > PersonsMax as real
  {
    var p := PersonsIssues(v.persons, DetailSchema);
    (if v.date != "" then [] else [Credentials.Issue("date", "Date is required")])
    + (if v.time != "" then [] else [Credentials.Issue("time", "Time is required")])
    + p
  }

  /** What the create schema accepts the edit schema accepts, since an empty
      text names no day... */
  lemma BookingAcceptedIsDetailAccepted(v: BookingValues, dayOf: string -> Option<int>, today: int)
    requires dayOf("").None?
    requires |BookingIssues(v, dayOf, today)| == 0
    ensures |DetailIssues(v)| == 0
  {
  }

  /** ...but the edit form does not re-check the past-date rule. */
  lemma DetailAcceptsPastDates(v: BookingValues, dayOf: string -> Option<int>, today: int)
    requires v.date != "" && dayOf(v.date) == Some(today - 1)
    requires |DetailIssues(v)| == 0
    ensures Credentials.Issue("date", "Date cannot be in the past") in BookingIssues(v, dayOf, today)
  {
  }

  /** The schema's output for values it accepted. */
  function Parsed(v: BookingValues): (d: BookingData)
    requires v.persons.Finite?
    ensures d.date == v.date && d.time == v.time && d.persons == v.persons.x
  {
    BookingData(v.date, v.time, v.persons.x)
  }

  /** The data as the JSON object the form hands on. */
  function BookingJson(d: BookingData): (m: map<string, Json>)
    ensures m.Keys == {"date", "time", "persons"}
    ensures m["date"] == JStr(d.date) && m["time"] == JStr(d.time) && m["persons"] == JNum(d.persons)
  {
    map["date" := JStr(d.date), "time" := JStr(d.time), "persons" := JNum(d.persons)]
  }

  // ---------------------------------------------------------------------------
  // Time slots

  /** `${hh}:${mm}`. */
  function TimeLabel(hh: string, mm: string): string
  {
    hh + ":" + mm
  }

  /** Reads `HH:MM` back to a minute of the day. */
  function ParseHHMM(s: string): (r: Option<nat>)
    ensures r.Some? ==> |s| == 5 && s[2] == ':'
  {
    if |s| == 5 && s[2] == ':' && AllDigits(s[..2]) && AllDigits(s[3..])
    then Some(ParseNat(s[..2]) * 60 + ParseNat(s[3..]))
    else None
  }

  lemma TwoDigits(n: nat)
    requires n < 100
    ensures |PadStart2(NatToString(n))| == 2
    ensures AllDigits(PadStart2(NatToString(n)))
    ensures ParseNat(PadStart2(NatToString(n))) == n
  {
    var s := NatToString(n);
    if n < 10 {
      assert s == [DigitChar(n)];
      var p := PadStart2(s);
      assert p == ['0', DigitChar(n)];
      assert p[..1] == ['0'] && p[..1][..0] == [] && p[..|p| - 1] == p[..1];
      assert ParseNat(p[..1]) == 0;
      DigitRoundTrip(n);
      assert ParseNat(p) == ParseNat(p[..1]) * 10 + DigitValue(DigitChar(n));
    } else {
      assert |NatToString(n / 10)| == 1;
      ParseNatToString(n);
    }
  }

  lemma ParseTimeLabel(hh: string, mm: string)
    requires |hh| == 2 && |mm| == 2 && AllDigits(hh) && AllDigits(mm)
    ensures |TimeLabel(hh, mm)| == 5
    ensures ParseHHMM(TimeLabel(hh, mm)) == Some(ParseNat(hh) * 60 + ParseNat(mm))
  {
    var s := hh + ":" + mm;
    assert s[..2] == hh && s[3..] == mm && s[2] == ':';
  }

  /** Two zero-padded numbers below 100 read back as hours and minutes. */
  lemma ParseLabel(h: nat, mm: nat)
    requires h < 100 && mm < 100
    ensures ParseHHMM(TimeLabel(PadStart2(NatToString(h)), PadStart2(NatToString(mm)))) == Some(h * 60 + mm)
  {
    TwoDigits(h);
    TwoDigits(mm);
    ParseTimeLabel(PadStart2(NatToString(h)), PadStart2(NatToString(mm)));
  }

  lemma MinuteLabels()
    ensures PadStart2(NatToString(0)) == "00"
    ensures PadStart2(NatToString(30)) == "30"
  {
    assert NatToString(0) == "0";
    assert NatToString(3) == "3";
    assert NatToString(30) == NatToString(3) + [DigitChar(0)];
  }

  /** `h.toString().padStart(2, '0')`. */
  function HourText(h: nat): string
  {
    PadStart2(NatToString(h))
  }

  /** Slot `i` of the pickers: the hour `12 + i / 2` at `:00` or `:30`. */
  function Slot(i: nat): string
  {
    TimeLabel(HourText(12 + i / 2), if i % 2 == 0 then "00" else "30")
  }

  /** Slot `i` is `30 * i` minutes after noon. */
  lemma SlotMinutes(i: nat)
    requires i < 24
    ensures ParseHHMM(Slot(i)) == Some(720 + 30 * i)
  {
    MinuteLabels();
    ParseLabel(12 + i / 2, if i % 2 == 0 then 0 else 30);
    assert Slot(i) == TimeLabel(PadStart2(NatToString(12 + i / 2)), PadStart2(NatToString(if i % 2 == 0 then 0 else 30)));
    assert i == 2 * (i / 2) + i % 2;
  }

  /** The first `|slots|` entries of the slot table. */
  predicate SlotPrefix(slots: seq<string>)
  {
    forall i :: 0 <= i < |slots| ==> slots[i] == Slot(i)
  }

  /** The whole slot table both time pickers show. */
  predicate IsSlotTable(slots: seq<string>)
  {
    |slots| == 24 && SlotPrefix(slots)
  }

  lemma HourSlots(k: nat)
    ensures Slot(2 * k) == TimeLabel(HourText(12 + k), "00")
    ensures Slot(2 * k + 1) == TimeLabel(HourText(12 + k), "30")
  {
    assert (2 * k) / 2 == k && (2 * k) % 2 == 0;
    assert (2 * k + 1) / 2 == k && (2 * k + 1) % 2 == 1;
  }

  lemma ExtendSlots(slots: seq<string>, h: nat)
    requires 12 <= h <= 23 && |slots| == 2 * (h - 12) && SlotPrefix(slots)
    ensures SlotPrefix(slots + [TimeLabel(HourText(h), "00")] + [TimeLabel(HourText(h), "30")])
  {
    var next := slots + [TimeLabel(HourText(h), "00")] + [TimeLabel(HourText(h), "30")];
    HourSlots(h - 12);
    forall i | 0 <= i < |next|
      ensures next[i] == Slot(i)
    {
      if i < |slots| {
        assert next[i] == slots[i];
      }
    }
  }

  /** The loop of `TimeFormField` and of the create modal: hours 12 to 23,
      each at `:00` and `:30`, zero-padded. */
  method GenerateTimeSlots() returns (slots: seq<string>)
    ensures IsSlotTable(slots)
    ensures forall i :: 0 <= i < |slots| ==> ParseHHMM(slots[i]) == Some(720 + 30 * i)
  {
    slots := [];
    var h := 12;
    while h <= 23
      invariant 12 <= h <= 24
      invariant |slots| == 2 * (h - 12)
      invariant SlotPrefix(slots)
    {
      var hh := HourText(h);
      ExtendSlots(slots, h);
      slots := slots + [TimeLabel(hh, "00")] + [TimeLabel(hh, "30")];
      h := h + 1;
    }
    SlotTableFacts(slots);
  }

  /** The slots run from 12:00 to 23:30 in strictly increasing half hours and
      include the create form's default time. */
  lemma SlotTableFacts(slots: seq<string>)
    requires IsSlotTable(slots)
    ensures forall i :: 0 <= i < |slots| ==> ParseHHMM(slots[i]) == Some(720 + 30 * i)
    ensures forall i, j :: 0 <= i < j < |slots| ==> ParseHHMM(slots[i]).value < ParseHHMM(slots[j]).value
    ensures ParseHHMM(slots[0]) == Some(12 * 60) && ParseHHMM(slots[23]) == Some(23 * 60 + 30)
    ensures "19:00" in slots
  {
    forall i | 0 <= i < |slots|
      ensures ParseHHMM(slots[i]) == Some(720 + 30 * i)
    {
      SlotMinutes(i);
    }
    DefaultTimeSlot();
    assert slots[14] == "19:00";
  }

  /** Slot 14 is the create form's default time. */
  lemma DefaultTimeSlot()
    ensures Slot(14) == "19:00"
  {
    assert NatToString(19) == NatToString(1) + [DigitChar(9)];
    assert HourText(19) == "19";
    assert Slot(14) == TimeLabel("19", "00");
  }

  /** The detail view's time: the first five characters, so a server time
      `HH:MM:SS` shows as the slot it was booked at. */
  function DisplayTime(time: string): (r: string)
    ensures time == "" ==> r == "Time not available"
    ensures time != "" ==> r <= time && |r| == if |time| < 5 then |time| else 5
  {
    if time != "" then Take(time, 5) else "Time not available"
  }

  lemma DisplayTimeShowsSlot(i: nat, seconds: string)
    requires i < 24
    ensures DisplayTime(Slot(i) + seconds) == Slot(i)
  {
    SlotMinutes(i);
    assert (Slot(i) + seconds)[..5] == Slot(i);
  }

  // ---------------------------------------------------------------------------
  // The create modal

  /** The form the create modal starts from: today, 19:00, two people. */
  function CreateDefaults(todayText: string): (v: BookingValues)
    ensures v.date == todayText && v.time == "19:00" && v.persons == Finite(2.0)
  {
    BookingValues(todayText, "19:00", Finite(2.0))
  }

  /** The defaults pass the schema whenever today's text names today. */
  lemma CreateDefaultsValid(todayText: string, dayOf: string -> Option<int>, today: int)
    requires dayOf(todayText) == Some(today)
    ensures BookingIssues(CreateDefaults(todayText), dayOf, today) == []
  {
  }

  /** The date the picker starts on is rejected as written west of UTC. */
  lemma CreateDefaultsRejectedWestOfUtc(todayText: string, dayOf: string -> Option<int>, today: int, eastMs: int)
    requires dayOf(todayText) == Some(today) && eastMs < 0
    ensures Credentials.Issue("date", "Date cannot be in the past")
              in BookingIssuesAsWritten(CreateDefaults(todayText), dayOf, today, eastMs)
  {
    TodayRejectedWestOfUtc(today, eastMs);
  }

  datatype CreateModal = CreateModal(open: bool, values: BookingValues, errors: seq<Issue>)

  /** What a submit does: the modal after it, the request sent (if any) and
      the notification shown (if any). */
  datatype CreateOutcome = CreateOutcome(modal: CreateModal, request: Option<Call>, toast: Option<Toast>)

  /** `res.success` holds: the response reports a booking. */
  predicate Booked(res: Json)
  {
    TruthyOpt(Get(Some(res), "success"))
  }

  /** The request `{restaurantId, ...data}` makes. */
  function CreateRequest(restaurantId: nat, v: BookingValues): (c: Call)
    requires v.persons.Finite?
    ensures c == Describe(CreateReservation(restaurantId, JObj(BookingJson(Parsed(v)))))
  {
    var data := BookingJson(Parsed(v));
    MutationCallsMatchDescriptors(restaurantId, data);
    CreateCall(Spread("restaurantId", JNum(restaurantId as real), data)).value
  }

  /** The mutation's callbacks: a booked response closes the modal and resets
      the form to `defaults`; anything else leaves the modal as it is. Reading
      `success` of a `null` response throws inside the success callback; the
      mutation catches that `TypeError` and hands it to the error callback.
      Reading `message` of a `null` or `undefined` rejection throws inside the
      error callback itself, so then no notification appears. */
  function SettleCreate(m: CreateModal, defaults: BookingValues, restaurantName: string,
                        response: Result<Json, Thrown>): (r: (CreateModal, Option<Toast>))
    ensures response.Ok? && Booked(response.value) ==>
              r.0 == CreateModal(false, defaults, []) && r.1.Some? && r.1.value.SuccessToast?
    ensures !(response.Ok? && Booked(response.value)) ==> r.0 == m && (r.1.Some? ==> r.1.value.ErrorToast?)
    ensures r.1.None? <==> response.Err? && Nullish(response.error)
    ensures r.1.Some? ==> Truthy(r.1.value.message)
    ensures response == Ok(JNull) ==> r.1 == Some(ErrorToast(JStr(NullReadMessage("success"))))
  {
    match response
    case Err(e) =>
      if Nullish(e) then (m, None)
      else (m, Some(ErrorToast(OrElse(MessageOf(e), JStr("Something went wrong. Please try again.")))))
    case Ok(res) =>
      if res.JNull? then (m, Some(ErrorToast(JStr(NullReadMessage("success")))))
      else if Booked(res) then
        (CreateModal(false, defaults, []),
         Some(SuccessToast(OrElse(Get(Some(res), "message"), JStr("Table booked at " + restaurantName + "!")))))
      else (m, Some(ErrorToast(OrElse(Get(Some(res), "message"), JStr("Failed to book table")))))
  }

  /** Submitting the create form for one restaurant; `response` is what the
      create mutation settles with, and `defaults` are the values the form
      was created with. Values the schema rejects send nothing and show the
      issues. */
  function CreateSubmit(m: CreateModal, defaults: BookingValues, dayOf: string -> Option<int>, today: int,
                        restaurantId: nat, restaurantName: string, response: Result<Json, Thrown>): (r: CreateOutcome)
    ensures r.request.Some? <==> |BookingIssues(m.values, dayOf, today)| == 0
    ensures r.request.Some? ==>
              r.request == Some(Describe(CreateReservation(restaurantId, JObj(BookingJson(Parsed(m.values))))))
    ensures r.request.None? ==> r.modal == m.(errors := BookingIssues(m.values, dayOf, today)) && r.toast.None?
    ensures r.request.Some? && response.Ok? && Booked(response.value) ==>
              r.modal == CreateModal(false, defaults, []) && r.toast.Some? && r.toast.value.SuccessToast?
    ensures !(r.request.Some? && response.Ok? && Booked(response.value)) ==>
              r.modal.open == m.open && r.modal.values == m.values
    ensures r.toast.Some? <==> r.request.Some? && !(response.Err? && Nullish(response.error))
    ensures r.toast.Some? ==> Truthy(r.toast.value.message)
  {
    var issues := BookingIssues(m.values, dayOf, today);
    if |issues| > 0 then CreateOutcome(m.(errors := issues), None, None)
    else
      var settled := SettleCreate(m.(errors := []), defaults, restaurantName, response);
      CreateOutcome(settled.0, Some(CreateRequest(restaurantId, m.values)), settled.1)
  }

  /** A booked submit leaves a closed modal holding the defaults, so the next
      opening starts from a form the schema accepts. */
  lemma BookedSubmitReopensValid(m: CreateModal, todayText: string, dayOf: string -> Option<int>, today: int,
                                 restaurantId: nat, restaurantName: string, res: Json)
    requires dayOf(todayText) == Some(today)
    requires |BookingIssues(m.values, dayOf, today)| == 0 && Booked(res)
    ensures var r := CreateSubmit(m, CreateDefaults(todayText), dayOf, today, restaurantId, restaurantName, Ok(res));
            !r.modal.open && BookingIssues(r.modal.values, dayOf, today) == []
  {
    CreateDefaultsValid(todayText, dayOf, today);
  }

  // ---------------------------------------------------------------------------
  // The detail modal

  datatype FooterButton =
    | CancelEditButton(disabled: bool)
    | SaveButton(disabled: bool)
    | EditButton
    | CancelReservationButton(disabled: bool)
    | CloseButton

  /** The footer: edit controls for an active reservation, Close otherwise. */
  function Footer(status: string, editing: bool, updatePending: bool, cancelPending: bool): (f: seq<FooterButton>)
    ensures CloseButton in f <==> status != "active"
    ensures EditButton in f <==> status == "active" && !editing
    ensures CancelReservationButton(false) in f <==> status == "active" && !editing && !cancelPending
    ensures SaveButton(false) in f <==> status == "active" && editing && !updatePending
    ensures CancelEditButton(false) in f <==> status == "active" && editing && !updatePending
    ensures status == "active" && editing ==> SaveButton(updatePending) in f && CancelEditButton(updatePending) in f
    ensures status == "active" && !editing ==> CancelReservationButton(cancelPending) in f
    ensures |f| == if status == "active" then 2 else 1
  {
    if status == "active" then
      if editing then [CancelEditButton(updatePending), SaveButton(updatePending)]
      else [EditButton, CancelReservationButton(cancelPending)]
    else [CloseButton]
  }

  datatype DetailModal = DetailModal(
    open: bool,
    editing: bool,
    values: BookingValues,
    errors: seq<Issue>,
    cancel: Session.MutationStatus,
    update: Session.MutationStatus)

  /** The footer the modal renders. Its `disabled` flags read `isPending`,
      which a TanStack Query v4 mutation result does not have, so both are
      `undefined` whatever the mutations are doing. */
  function DetailFooter(m: DetailModal, r: Reservation): seq<FooterButton>
  {
    Footer(r.status, m.editing, false, false)
  }

  /** An enabled button the open modal shows. */
  predicate Offered(m: DetailModal, r: Reservation, b: FooterButton)
  {
    m.open && b in DetailFooter(m, r)
  }

  datatype DetailEvent =
    | Opened                                   // the effect for `open && reservation`
    | Dismissed                                // the dialog's own close (overlay, Escape, ×)
    | Edited(values: BookingValues)            // typing into the edit form
    | StartEdit
    | CancelEdit
    | SaveChanges
    | UpdateSettled(res: Result<Json, Thrown>)
    | CancelClicked(confirmed: bool)           // the answer to `confirm(...)`
    | CancelSettled(res: Result<Json, Thrown>)
    | CloseClicked

  function ValuesOf(r: Reservation): (v: BookingValues)
    ensures v.date == r.date && v.time == r.time && v.persons == Finite(r.persons as real)
  {
    BookingValues(r.date, r.time, Finite(r.persons as real))
  }

  /** The request `{id: reservation.id, ...values}` makes. */
  function UpdateRequest(r: Reservation, v: BookingValues): (c: Call)
    requires v.persons.Finite?
    ensures c == Describe(UpdateReservation(r.id, JObj(BookingJson(Parsed(v)))))
  {
    var data := BookingJson(Parsed(v));
    MutationCallsMatchDescriptors(r.id, data);
    UpdateCall(Spread("id", JNum(r.id as real), data)).value
  }

  /** One transition of the detail modal for a present reservation `r`, with
      the request it sends. A button that is not offered does nothing. A
      `null` response settles the mutation successfully, but reading its
      `message` throws before the modal leaves edit mode or closes. */
  function DetailStep(m: DetailModal, r: Reservation, e: DetailEvent): (out: (DetailModal, Option<Call>))
    ensures out.1.Some? ==> m.open && IsActive(r) && (e.SaveChanges? || e == CancelClicked(true))
    ensures out.0.values != m.values ==> e.Opened? || (e.Edited? && m.editing && out.0.values == e.values)
    ensures out.0.editing && !m.editing ==> e.StartEdit? && m.open && IsActive(r)
    ensures out.0.open != m.open ==> e.Opened? || e.Dismissed? || e.CloseClicked? || e.CancelSettled?
  {
    match e
    case Opened => (DetailModal(true, false, ValuesOf(r), [], Session.Idle, Session.Idle), None)
    case Dismissed => (m.(open := false), None)
    case Edited(v) => (if m.editing then m.(values := v) else m, None)
    case StartEdit => (if Offered(m, r, EditButton) then m.(editing := true) else m, None)
    case CancelEdit => (if Offered(m, r, CancelEditButton(false)) then m.(editing := false) else m, None)
    case SaveChanges =>
      if !Offered(m, r, SaveButton(false)) then (m, None)
      else
        var issues := DetailIssues(m.values);
        if |issues| > 0 then (m.(errors := issues), None)
        else (m.(errors := [], update := Session.Loading), Some(UpdateRequest(r, m.values)))
    case UpdateSettled(res) =>
      if m.update != Session.Loading then (m, None)
      else if res == Ok(JNull) then (m.(update := Session.Success), None)
      else if res.Ok? then (m.(update := Session.Success, editing := false), None)
      else (m.(update := Session.Error), None)
    case CancelClicked(confirmed) =>
      if Offered(m, r, CancelReservationButton(false)) && confirmed
      then (m.(cancel := Session.Loading), Some(Describe(CancelReservation(r.id))))
      else (m, None)
    case CancelSettled(res) =>
      if m.cancel != Session.Loading then (m, None)
      else if res == Ok(JNull) then (m.(cancel := Session.Success), None)
      else if res.Ok? then (m.(cancel := Session.Success, open := false), None)
      else (m.(cancel := Session.Error), None)
    case CloseClicked => (if Offered(m, r, CloseButton) then m.(open := false) else m, None)
  }

  /** The modal as the history page mounts it, with the selection it holds.
      With no reservation the component returns `null` before anything
      else renders, and its effect needs a reservation too, so no event
      changes anything or sends a request. */
  function SelectedDetailStep(m: DetailModal, selected: Option<Reservation>, e: DetailEvent)
    : (out: (DetailModal, Option<Call>))
    ensures selected.None? ==> out == (m, None)
    ensures selected.Some? ==> out == DetailStep(m, selected.value, e)
  {
    if selected.None? then (m, None) else DetailStep(m, selected.value, e)
  }

  /** The buttons the modal shows: none without a reservation or while the
      dialog is closed; otherwise exactly the offered ones. */
  function ShownFooter(m: DetailModal, selected: Option<Reservation>): (f: Option<seq<FooterButton>>)
    ensures f.None? <==> selected.None? || !m.open
    ensures f.Some? ==> forall b :: b in f.value <==> Offered(m, selected.value, b)
  {
    if selected.None? || !m.open then None else Some(DetailFooter(m, selected.value))
  }

  /** The notification of an awaited request: the response's `message` or
      the success text; a `null` response throws on `res.message` and the
      `catch` shows that `TypeError`'s message; a rejection shows its
      `message` or the failure text, and nothing when the rejection is
      `null` or `undefined` (reading its `message` throws again). */
  function SettledToast(res: Result<Json, Thrown>, successText: string, failureText: string): (t: Option<Toast>)
    requires |successText| > 0 && |failureText| > 0
    ensures t.Some? ==> Truthy(t.value.message)
    ensures res.Ok? && res.value != JNull ==>
              t == Some(SuccessToast(OrElse(Get(Some(res.value), "message"), JStr(successText))))
    ensures res == Ok(JNull) ==> t == Some(ErrorToast(JStr(NullReadMessage("message"))))
    ensures res.Err? && t.Some? ==> t == Some(ErrorToast(OrElse(MessageOf(res.error), JStr(failureText))))
    ensures t.None? <==> res.Err? && Nullish(res.error)
  {
    match res
    case Ok(v) =>
      if v == JNull then Some(ErrorToast(JStr(NullReadMessage("message"))))
      else Some(SuccessToast(OrElse(Get(Some(v), "message"), JStr(successText))))
    case Err(e) =>
      if Nullish(e) then None
      else Some(ErrorToast(OrElse(MessageOf(e), JStr(failureText))))
  }

  /** The notification a transition of the detail modal shows. */
  function DetailToast(m: DetailModal, e: DetailEvent): (t: Option<Toast>)
    ensures t.Some? ==> (e.UpdateSettled? && m.update == Session.Loading) || (e.CancelSettled? && m.cancel == Session.Loading)
  {
    match e
    case UpdateSettled(res) =>
      if m.update == Session.Loading
      then SettledToast(res, "Reservation updated successfully", "Failed to update reservation")
      else None
    case CancelSettled(res) =>
      if m.cancel == Session.Loading
      then SettledToast(res, "Reservation canceled successfully", "Failed to cancel reservation")
      else None
    case _ => None
  }

  /** Opening with a reservation leaves edit mode, loads the reservation into
      the form and clears both mutations; the footer then offers Edit and
      Cancel for an active reservation and Close for any other. */
  lemma OpeningResets(m: DetailModal, r: Reservation)
    ensures var n := DetailStep(m, r, Opened).0;
            n.open && !n.editing && n.values == ValuesOf(r) && n.errors == []
            && n.cancel == Session.Idle && n.update == Session.Idle
            && (IsActive(r) <==> Offered(n, r, EditButton) && Offered(n, r, CancelReservationButton(false)))
            && (!IsActive(r) <==> Offered(n, r, CloseButton))
  {
  }

  /** Only a successful update with a response body leaves edit mode, with
      a success notification; a `null` body leaves the modal editing under
      an error notification although the mutation succeeded. */
  lemma UpdateSettles(m: DetailModal, r: Reservation, res: Result<Json, Thrown>)
    requires m.update == Session.Loading
    ensures var n := DetailStep(m, r, UpdateSettled(res)).0;
            var t := DetailToast(m, UpdateSettled(res));
            (res.Ok? && res.value != JNull ==>
               !n.editing && n.update == Session.Success
               && t == Some(SuccessToast(OrElse(Get(Some(res.value), "message"), JStr("Reservation updated successfully")))))
            && (res == Ok(JNull) ==>
                  n.editing == m.editing && n.update == Session.Success
                  && t == Some(ErrorToast(JStr(NullReadMessage("message")))))
            && (res.Err? ==>
                  n.editing == m.editing && n.update == Session.Error
                  && (t.Some? ==> t == Some(ErrorToast(OrElse(MessageOf(res.error), JStr("Failed to update reservation"))))))
            && n.open == m.open && n.values == m.values
  {
  }

  /** Only a successful cancellation with a response body closes the modal;
      a `null` body keeps it open under an error notification although the
      reservation was canceled. */
  lemma CancelSettles(m: DetailModal, r: Reservation, res: Result<Json, Thrown>)
    requires m.cancel == Session.Loading
    ensures var n := DetailStep(m, r, CancelSettled(res)).0;
            var t := DetailToast(m, CancelSettled(res));
            (res.Ok? && res.value != JNull ==>
               !n.open && n.cancel == Session.Success
               && t == Some(SuccessToast(OrElse(Get(Some(res.value), "message"), JStr("Reservation canceled successfully")))))
            && (res == Ok(JNull) ==>
                  n.open == m.open && n.cancel == Session.Success
                  && t == Some(ErrorToast(JStr(NullReadMessage("message")))))
            && (res.Err? ==>
                  n.open == m.open && n.cancel == Session.Error
                  && (t.Some? ==> t == Some(ErrorToast(OrElse(MessageOf(res.error), JStr("Failed to cancel reservation"))))))
            && n.editing == m.editing && n.values == m.values
  {
  }

  /** No button is ever disabled, so a second Save while the first update is
      in flight sends the update again, and a second confirmed Cancel sends
      the cancellation again. */
  lemma PendingMutationsDoNotBlock(m: DetailModal, r: Reservation)
    requires m.open && IsActive(r)
    ensures m.editing && m.update == Session.Loading && |DetailIssues(m.values)| == 0 ==>
              DetailStep(m, r, SaveChanges).1 == Some(UpdateRequest(r, m.values))
    ensures !m.editing && m.cancel == Session.Loading ==>
              DetailStep(m, r, CancelClicked(true)).1 == Some(Describe(CancelReservation(r.id)))
  {
  }

  /** Without confirmation nothing happens. */
  lemma CancelNeedsConfirmation(m: DetailModal, r: Reservation)
    ensures DetailStep(m, r, CancelClicked(false)) == (m, None)
  {
  }

  /** The modal closes itself only on Close (which only a reservation that is
      not active offers) or when a cancellation succeeds with a response
      body; the dialog's own close is the third way. */
  lemma ClosingEvents(m: DetailModal, r: Reservation, e: DetailEvent)
    requires m.open && !DetailStep(m, r, e).0.open
    ensures e.Dismissed?
            || (e.CloseClicked? && !IsActive(r))
            || (e.CancelSettled? && e.res.Ok? && e.res.value != JNull && m.cancel == Session.Loading)
  {
  }

  /** Every request is the update or the cancellation of this reservation;
      an update carries values the edit schema accepted. */
  lemma RequestsConcernTheReservation(m: DetailModal, r: Reservation, e: DetailEvent)
    requires DetailStep(m, r, e).1.Some?
    ensures var c := DetailStep(m, r, e).1.value;
            (e.SaveChanges? && IsActive(r) && m.editing && |DetailIssues(m.values)| == 0
             && c == Describe(UpdateReservation(r.id, JObj(BookingJson(Parsed(m.values))))))
            || (e == CancelClicked(true) && IsActive(r) && !m.editing && c == Describe(CancelReservation(r.id)))
  {
  }

  /** The modal over a sequence of events: the final state and every request. */
  function DetailRun(m: DetailModal, r: Reservation, events: seq<DetailEvent>): (DetailModal, seq<Call>)
    decreases |events|
  {
    if |events| == 0 then (m, [])
    else
      var (n, req) := DetailStep(m, r, events[0]);
      var (last, rest) := DetailRun(n, r, events[1..]);
      (last, (if req.Some? then [req.value] else []) + rest)
  }

  /** A reservation that is not active is never changed from the modal, and
      it is never in edit mode once edit mode was off. */
  lemma {:induction false} InactiveIsReadOnly(m: DetailModal, r: Reservation, events: seq<DetailEvent>)
    requires !IsActive(r) && !m.editing
    ensures DetailRun(m, r, events).1 == []
    ensures !DetailRun(m, r, events).0.editing
    decreases |events|
  {
    if |events| > 0 {
      var n := DetailStep(m, r, events[0]);
      InactiveIsReadOnly(n.0, r, events[1..]);
    }
  }

  /** Opening an active reservation, entering edit mode and saving without
      touching the form sends the reservation's own date, time and party
      size back, whenever the edit schema accepts them. */
  lemma UnchangedSaveResendsReservation(m: DetailModal, r: Reservation)
    requires IsActive(r) && r.date != "" && r.time != "" && PersonsMin <= r.persons <= PersonsMax
    ensures DetailRun(m, r, [Opened, StartEdit, SaveChanges]).1
         == [Describe(UpdateReservation(r.id, JObj(map["date" := JStr(r.date), "time" := JStr(r.time),
                                                       "persons" := JNum(r.persons as real)])))]
  {
    var shown := DetailStep(m, r, Opened).0;
    var editing := DetailStep(shown, r, StartEdit).0;
    OpenThenEdit(m, r);
    var saved := DetailStep(editing, r, SaveChanges);
    SaveUntouched(editing, r);
    RunStep(editing, r, [SaveChanges]);
    assert [SaveChanges][1..] == [];
    assert DetailRun(editing, r, [SaveChanges]).1 == [saved.1.value];
    RunStep(shown, r, [StartEdit, SaveChanges]);
    assert [StartEdit, SaveChanges][1..] == [SaveChanges];
    assert DetailRun(shown, r, [StartEdit, SaveChanges]).1 == [saved.1.value];
    RunStep(m, r, [Opened, StartEdit, SaveChanges]);
    assert [Opened, StartEdit, SaveChanges][1..] == [StartEdit, SaveChanges];
    UnchangedValuesJson(r);
  }

  lemma OpenThenEdit(m: DetailModal, r: Reservation)
    requires IsActive(r)
    ensures var editing := DetailStep(DetailStep(m, r, Opened).0, r, StartEdit).0;
            editing.open && editing.editing && editing.values == ValuesOf(r)
            && DetailStep(m, r, Opened).1.None? && DetailStep(DetailStep(m, r, Opened).0, r, StartEdit).1.None?
  {
    var shown := DetailStep(m, r, Opened).0;
    assert Offered(shown, r, EditButton);
  }

  lemma SaveUntouched(editing: DetailModal, r: Reservation)
    requires IsActive(r) && editing.open && editing.editing && editing.values == ValuesOf(r)
    requires r.date != "" && r.time != "" && PersonsMin <= r.persons <= PersonsMax
    ensures DetailStep(editing, r, SaveChanges).1 == Some(UpdateRequest(r, ValuesOf(r)))
  {
    assert Offered(editing, r, SaveButton(false));
    assert |DetailIssues(ValuesOf(r))| == 0;
  }

  /** A run sends the request of its first step, then those of the rest. */
  lemma RunStep(m: DetailModal, r: Reservation, events: seq<DetailEvent>)
    requires |events| > 0
    ensures var step := DetailStep(m, r, events[0]);
            DetailRun(m, r, events).1
            == (if step.1.Some? then [step.1.value] else []) + DetailRun(step.0, r, events[1..]).1
  {
  }

  /** The body the untouched form of a reservation produces. */
  lemma UnchangedValuesJson(r: Reservation)
    ensures BookingJson(Parsed(ValuesOf(r)))
         == map["date" := JStr(r.date), "time" := JStr(r.time), "persons" := JNum(r.persons as real)]
  {
  }

  /** The history page drives the modal: a card click opens it on that card's
      reservation, which the modal loads into its form. */
  lemma CardOpensItsReservation(m: DetailModal, r: Reservation)
    ensures var s := CardClicked(r);
            s.modalOpen && s.selected.Some?
            && DetailStep(m, s.selected.value, Opened).0.values == ValuesOf(r)
            && DetailStep(m, s.selected.value, Opened).0.open
  {
  }

  /** The modal's close goes through `setIsModalOpen(false)`, which keeps the
      selection, so opening again shows the same reservation. */
  lemma ReopeningShowsSameReservation(r: Reservation)
    ensures var closed := ModalOpenChanged(CardClicked(r), false);
            !closed.modalOpen && closed.selected == Some(r)
            && ModalOpenChanged(closed, true) == CardClicked(r)
  {
  }

  /** The badge variant of the detail modal: `statusColors[status]`, which
      has no entry for `'no-show'`. */
  function DetailBadgeVariant(status: string): (r: Option<string>)
    ensures r.Some? <==> status in {"active", "completed", "canceled"}
  {
    if status == "active" then Some("default")
    else if status == "completed" then Some("secondary")
    else if status == "canceled" then Some("destructive")
    else None
  }

  // ---------------------------------------------------------------------------
  // Form fields and the status badge

  datatype NameField = NameField(labelText: string, placeholder: string)

  /** `NameFormField`: first-name wording exactly for the `firstname` field. */
  function NameFormField(name: string): (f: NameField)
    ensures f.labelText == "First Name" <==> name == "firstname"
    ensures f.labelText != "First Name" ==> f.labelText == "Last Name"
    ensures f.placeholder == "John" <==> name == "firstname"
    ensures f.placeholder != "John" ==> f.placeholder == "Doe"
  {
    if name == "firstname" then NameField("First Name", "John") else NameField("Last Name", "Doe")
  }

  /** A number input's `min` and `max` attributes; `None` where absent. */
  datatype NumberInput = NumberInput(min: Option<int>, max: Option<int>)

  /** The whole numbers the input's range constraint admits. */
  predicate InRange(input: NumberInput, n: int)
  {
    (input.min.None? || input.min.value <= n) && (input.max.None? || n <= input.max.value)
  }

  /** The persons input of `FormFields` and of the create modal: `min={1} max={20}`. */
  const BoundedPersonsInput: NumberInput := NumberInput(Some(1), Some(20))

  /** The detail modal's persons input: `min="1"` and no maximum. */
  const DetailPersonsInput: NumberInput := NumberInput(Some(1), None)

  /** The create form's input admits exactly the whole numbers its schema accepts. */
  lemma PersonsInputMatchesSchema(n: int)
    ensures InRange(BoundedPersonsInput, n) <==> PersonsIssues(Finite(n as real), CreateSchema) == []
  {
  }

  /** The detail modal's input declares no maximum: up to 20 it agrees with
      the edit schema, above 20 it admits what the schema rejects, so the
      schema's "Max 20 persons" is the only guard. */
  lemma DetailPersonsInputLacksMax(n: int)
    ensures n <= 20 ==> (InRange(DetailPersonsInput, n) <==> PersonsIssues(Finite(n as real), DetailSchema) == [])
    ensures n > 20 ==> InRange(DetailPersonsInput, n)
                       && PersonsIssues(Finite(n as real), DetailSchema) == [Credentials.Issue("persons", "Max 20 persons")]
  {
  }

  datatype Colour = Green | Blue | Red | Gray

  datatype Badge = Badge(text: string, colour: Colour)

  /** `ReservationStatusBadge`: the status with its first character
      uppercased, coloured by status with gray for everything else. */
  function StatusBadge(status: string): (b: Badge)
    ensures |b.text| == |status|
    ensures |status| > 0 ==> b.text[0] == UpperChar(status[0]) && b.text[1..] == status[1..]
    ensures b.colour == Green <==> status == "active"
    ensures b.colour == Blue <==> status == "completed"
    ensures b.colour == Red <==> status == "no-show"
    ensures b.colour == Gray <==> status !in {"active", "completed", "no-show"}
  {
    Badge(Capitalize(status),
          if status == "active" then Green
          else if status == "completed" then Blue
          else if status == "no-show" then Red
          else Gray)
  }

  /** The label differs from the status only in letter case. */
  lemma {:induction false} BadgeLabelOnlyChangesCase(status: string)
    ensures Lower(StatusBadge(status).text) == Lower(status)
  {
    var l := StatusBadge(status).text;
    if |status| > 0 {
      assert l == [UpperChar(status[0])] + status[1..];
      assert LowerChar(UpperChar(status[0])) == LowerChar(status[0]);
      assert Lower(l)[0] == Lower(status)[0];
      assert Lower(l)[1..] == Lower(status)[1..];
    }
  }

  /** The two status displays disagree: the badge colours `'no-show'` red and
      `'canceled'` gray, the detail modal gives `'no-show'` no variant. */
  lemma StatusDisplaysDisagree()
    ensures StatusBadge("no-show").colour == Red && DetailBadgeVariant("no-show").None?
    ensures StatusBadge("canceled").colour == Gray && DetailBadgeVariant("canceled") == Some("destructive")
  {
  }
}

=== FILE: reservation_lists.dfy ===
/** The reservation lists of the owner dashboard and of the customer's
    history page: the customer search, the split into active and past
    reservations, their ordering, the owner's table and card views with the
    resolve actions, and the notifications of a resolve request. */
module ReservationLists {
  import opened Wrappers
  import opened Text
  import opened Json
  import opened Domain
  import opened ApiFetch

  // ---------------------------------------------------------------------------
  // Filtering

  /** `s.filter(p)`. */
  function Filter(s: seq<Reservation>, p: Reservation -> bool): (r: seq<Reservation>)
    ensures |r| <= |s|
    ensures forall i | 0 <= i < |r| :: p(r[i])
    ensures forall x :: x in r <==> x in s && p(x)
    ensures multiset(r) <= multiset(s)
  {
    if |s| == 0 then []
    else
      var rest := Filter(s[1..], p);
      assert s == [s[0]] + s[1..];
      if p(s[0]) then [s[0]] + rest else rest
  }

  /** Splitting by a predicate and its negation loses and duplicates nothing. */
  lemma FilterSplits(s: seq<Reservation>, p: Reservation -> bool, q: Reservation -> bool)
    requires forall x :: q(x) <==> !p(x)
    ensures multiset(Filter(s, p)) + multiset(Filter(s, q)) == multiset(s)
    ensures |Filter(s, p)| + |Filter(s, q)| == |s|
  {
    FilterPartition(s, p, q);
    assert |multiset(Filter(s, p)) + multiset(Filter(s, q))| == |multiset(s)|;
  }

  /** The multiset half of `FilterSplits`, by induction on the list. */
  lemma {:induction false} FilterPartition(s: seq<Reservation>, p: Reservation -> bool, q: Reservation -> bool)
    requires forall x :: q(x) <==> !p(x)
    ensures multiset(Filter(s, p)) + multiset(Filter(s, q)) == multiset(s)
  {
    if |s| > 0 {
      FilterPartition(s[1..], p, q);
      FilterCons(s, p);
      FilterCons(s, q);
      PartitionStep(s, Filter(s[1..], p), Filter(s[1..], q), p(s[0]));
    }
  }

  /** The head of a list joins exactly one side of a partition of its tail. */
  lemma PartitionStep<T>(s: seq<T>, a: seq<T>, b: seq<T>, left: bool)
    requires |s| > 0 && multiset(a) + multiset(b) == multiset(s[1..])
    ensures multiset((if left then [s[0]] else []) + a) + multiset((if !left then [s[0]] else []) + b)
         == multiset(s)
  {
    assert s == [s[0]] + s[1..];
  }

  /** One step of `Filter`. */
  lemma FilterCons(s: seq<Reservation>, p: Reservation -> bool)
    requires |s| > 0
    ensures Filter(s, p) == (if p(s[0]) then [s[0]] else []) + Filter(s[1..], p)
  {
    if !p(s[0]) {
      assert [] + Filter(s[1..], p) == Filter(s[1..], p);
    }
  }

  /** Filtering with a predicate every element satisfies keeps the list. */
  lemma {:induction false} FilterAll(s: seq<Reservation>, p: Reservation -> bool)
    requires forall i | 0 <= i < |s| :: p(s[i])
    ensures Filter(s, p) == s
  {
    if |s| > 0 {
      FilterAll(s[1..], p);
      assert s == [s[0]] + s[1..];
    }
  }

  /** `res.customer?.firstname || ''` and its siblings. */
  function PartOr(v: Option<string>): string
  {
    if v.Some? then v.value else ""
  }

  /** The lower-cased "first last" the search looks in. */
  function SearchName(r: Reservation): string
  {
    var c := r.customer;
    Lower(PartOr(if c.Some? then c.value.firstname else None) + " " + PartOr(if c.Some? then c.value.lastname else None))
  }

  /** The lower-cased email the search looks in; empty when missing. */
  function SearchEmail(r: Reservation): string
  {
    if r.customer.Some? && r.customer.value.email.Some? then Lower(r.customer.value.email.value) else ""
  }

  /** The search's test for one reservation: the lower-cased term occurs in
      the lower-cased name or email. */
  function MatchesSearch(term: string, r: Reservation): (b: bool)
    ensures |term| == 0 ==> b
    ensures b ==> |term| <= |SearchName(r)| || |term| <= |SearchEmail(r)|
  {
    EmptyIsSubstring(SearchName(r));
    IsSubstring(Lower(term), SearchName(r)) || IsSubstring(Lower(term), SearchEmail(r))
  }

  /** The dashboard's search: `undefined` data gives the empty list. */
  function SearchReservations(data: Option<seq<Reservation>>, term: string): (r: seq<Reservation>)
    ensures data.None? ==> r == []
    ensures data.Some? ==> forall x :: x in r <==> x in data.value && MatchesSearch(term, x)
    ensures data.Some? ==> multiset(r) <= multiset(data.value)
  {
    if data.None? then [] else Filter(data.value, x => MatchesSearch(term, x))
  }

  /** An empty search term keeps every reservation, in order. */
  lemma EmptySearchKeepsAll(data: seq<Reservation>)
    ensures SearchReservations(Some(data), "") == data
  {
    forall i | 0 <= i < |data| ensures MatchesSearch("", data[i]) {
      EmptyIsSubstring(SearchName(data[i]));
    }
    FilterAll(data, x => MatchesSearch("", x));
  }

  /** The search ignores ASCII case. */
  lemma SearchIgnoresCase(term: string, r: Reservation)
    ensures MatchesSearch(term, r) <==> MatchesSearch(Lower(term), r)
  {
    assert Lower(Lower(term)) == Lower(term);
  }

  // ---------------------------------------------------------------------------
  // Ordering

  /** Active reservations ascend by instant (soonest first); past ones
      descend (most recent first). */
  function Key(ascending: bool, r: Reservation): int
  {
    if ascending then r.at else -r.at
  }

  predicate Sorted(s: seq<Reservation>, ascending: bool)
  {
    forall i, j | 0 <= i < j < |s| :: Key(ascending, s[i]) <= Key(ascending, s[j])
  }

  /** Inserts `x` after every element whose key does not exceed its own. */
  function Insert(x: Reservation, s: seq<Reservation>, ascending: bool): (r: seq<Reservation>)
    requires Sorted(s, ascending)
    ensures Sorted(r, ascending)
    ensures multiset(r) == multiset(s) + multiset{x}
    ensures |r| == |s| + 1
  {
    if |s| == 0 then [x]
    else if Key(ascending, x) < Key(ascending, s[0]) then [x] + s
    else
      var rest := Insert(x, s[1..], ascending);
      assert s == [s[0]] + s[1..];
      HeadBelowInsert(x, s, rest, ascending);
      [s[0]] + rest
  }

  /** The head of a sorted list stays below everything the insertion into
      its tail produces. */
  lemma HeadBelowInsert(x: Reservation, s: seq<Reservation>, rest: seq<Reservation>, ascending: bool)
    requires |s| > 0 && Sorted(s, ascending) && Sorted(rest, ascending)
    requires Key(ascending, s[0]) <= Key(ascending, x)
    requires multiset(rest) == multiset(s[1..]) + multiset{x}
    ensures Sorted([s[0]] + rest, ascending)
  {
    forall j | 0 <= j < |rest|
      ensures Key(ascending, s[0]) <= Key(ascending, rest[j])
    {
      assert rest[j] in multiset(rest);
      if rest[j] != x {
        assert rest[j] in multiset(s[1..]);
        var k :| 0 <= k < |s[1..]| && s[1..][k] == rest[j];
        assert s[k + 1] == rest[j];
      }
    }
    var r := [s[0]] + rest;
    forall i, j | 0 <= i < j < |r|
      ensures Key(ascending, r[i]) <= Key(ascending, r[j])
    {
      if i > 0 { assert r[i] == rest[i - 1] && r[j] == rest[j - 1]; }
      else { assert r[j] == rest[j - 1]; }
    }
  }

  /** The stable sort of the comparator `(a, b) => at(a) - at(b)` (or its
      reverse): each element goes after the earlier ones with an equal key. */
  function SortBy(s: seq<Reservation>, ascending: bool): (r: seq<Reservation>)
    ensures Sorted(r, ascending)
    ensures multiset(r) == multiset(s)
    ensures |r| == |s|
  {
    if |s| == 0 then []
    else
      assert s == s[..|s| - 1] + [s[|s| - 1]];
      Insert(s[|s| - 1], SortBy(s[..|s| - 1], ascending), ascending)
  }

  /** A list already in order is left as it is. */
  lemma {:induction false} SortBySorted(s: seq<Reservation>, ascending: bool)
    requires Sorted(s, ascending)
    ensures SortBy(s, ascending) == s
  {
    if |s| > 0 {
      var init := s[..|s| - 1];
      assert Sorted(init, ascending);
      SortBySorted(init, ascending);
      InsertAtEnd(s[|s| - 1], init, ascending);
      assert init + [s[|s| - 1]] == s;
    }
  }

  lemma {:induction false} InsertAtEnd(x: Reservation, s: seq<Reservation>, ascending: bool)
    requires Sorted(s, ascending)
    requires forall i | 0 <= i < |s| :: Key(ascending, s[i]) <= Key(ascending, x)
    ensures Insert(x, s, ascending) == s + [x]
  {
    if |s| > 0 {
      InsertAtEnd(x, s[1..], ascending);
      assert s == [s[0]] + s[1..];
      assert [s[0]] + (s[1..] + [x]) == s + [x];
    }
  }

  // ---------------------------------------------------------------------------
  // The two tabs

  /** Active reservations soonest first and the rest most recent first. */
  datatype Tabs = Tabs(active: seq<Reservation>, past: seq<Reservation>)

  predicate IsPast(r: Reservation) { !IsActive(r) }

  /** Sorting keeps the members. */
  lemma SortByMembers(s: seq<Reservation>, ascending: bool, x: Reservation)
    ensures x in SortBy(s, ascending) <==> x in s
  {
    assert x in SortBy(s, ascending) <==> x in multiset(SortBy(s, ascending));
    assert x in s <==> x in multiset(s);
  }

  function SplitTabs(list: seq<Reservation>): (t: Tabs)
    ensures forall x :: x in t.active <==> x in list && IsActive(x)
    ensures forall x :: x in t.past <==> x in list && !IsActive(x)
    ensures Sorted(t.active, true) && Sorted(t.past, false)
  {
    var active := SortBy(Filter(list, IsActive), true);
    var past := SortBy(Filter(list, IsPast), false);
    forall x ensures x in active <==> x in list && IsActive(x) {
      SortByMembers(Filter(list, IsActive), true, x);
    }
    forall x ensures x in past <==> x in list && !IsActive(x) {
      SortByMembers(Filter(list, IsPast), false, x);
    }
    Tabs(active, past)
  }

  /** Every reservation lands in exactly one tab, so the tab counts add up. */
  lemma SplitTabsPartitions(list: seq<Reservation>)
    ensures multiset(SplitTabs(list).active) + multiset(SplitTabs(list).past) == multiset(list)
    ensures |SplitTabs(list).active| + |SplitTabs(list).past| == |list|
  {
    FilterSplits(list, IsActive, IsPast);
  }

  /** The owner dashboard: loading and error screens come first. */
  datatype Dashboard =
    | DashboardLoading
    | DashboardFailed(message: Option<Json>)
    | DashboardTabs(tabs: Tabs)

  function OwnerDashboard(isLoading: bool, error: Option<Thrown>, data: Option<seq<Reservation>>, term: string)
    : (d: Dashboard)
    ensures d.DashboardLoading? <==> isLoading
    ensures d.DashboardFailed? <==> !isLoading && Raised(error)
    ensures d.DashboardFailed? ==> d.message == MessageOf(error.value)
    ensures d.DashboardTabs? ==>
              multiset(d.tabs.active) + multiset(d.tabs.past) == multiset(SearchReservations(data, term))
  {
    if isLoading then DashboardLoading
    else if Raised(error) then DashboardFailed(MessageOf(error.value))
    else
      var found := SearchReservations(data, term);
      SplitTabsPartitions(found);
      DashboardTabs(SplitTabs(found))
  }

  /** The customer's history page. */
  datatype HistoryPage =
    | HistoryLoading
    | HistoryFailed(message: Option<Json>)
    | HistoryTabs(tabs: Tabs, upcomingEmptyState: bool, pastEmptyNote: bool)

  function ReservationHistory(isLoading: bool, error: Option<Thrown>, data: Option<seq<Reservation>>)
    : (h: HistoryPage)
    ensures h.HistoryLoading? <==> isLoading
    ensures h.HistoryFailed? <==> !isLoading && Raised(error)
    ensures h.HistoryFailed? ==> h.message == MessageOf(error.value)
    ensures h.HistoryTabs? ==> (h.upcomingEmptyState <==> |h.tabs.active| == 0)
    ensures h.HistoryTabs? ==> (h.pastEmptyNote <==> |h.tabs.past| == 0)
  {
    if isLoading then HistoryLoading
    else if Raised(error) then HistoryFailed(MessageOf(error.value))
    else
      var tabs := SplitTabs(data.GetOr([]));
      HistoryTabs(tabs, |tabs.active| == 0, |tabs.past| == 0)
  }

  /**
   * The history page fails exactly when the dashboard does, and otherwise shows
   * what the dashboard shows with an empty search.
   */
  lemma HistoryIsUnsearchedDashboard(error: Option<Thrown>, data: Option<seq<Reservation>>)
    ensures ReservationHistory(false, error, data).HistoryTabs? <==> OwnerDashboard(false, error, data, "").DashboardTabs?
    ensures ReservationHistory(false, error, data).HistoryTabs? ==>
              ReservationHistory(false, error, data).tabs == OwnerDashboard(false, error, data, "").tabs
  {
    if data.Some? {
      EmptySearchKeepsAll(data.value);
    }
  }

  /** The state of the history page around the detail modal. */
  datatype Selection = Selection(selected: Option<Reservation>, modalOpen: bool)

  /** Clicking a card selects its reservation and opens the modal. */
  function CardClicked(r: Reservation): (s: Selection)
    ensures s.selected == Some(r) && s.modalOpen
  {
    Selection(Some(r), true)
  }

  /** Closing the modal keeps the selection. */
  function ModalOpenChanged(s: Selection, open: bool): (s': Selection)
    ensures s'.modalOpen == open && s'.selected == s.selected
  {
    s.(modalOpen := open)
  }

  // ---------------------------------------------------------------------------
  // The owner's views of one tab

  /** `canUpdate`: the reservation's instant is not after the clock's reading
      at render time. */
  function CanUpdate(r: Reservation, now: int): (b: bool)
    ensures b <==> !(now < r.at)
  {
    r.at <= now
  }

  /** In the active tab, sorted soonest first, the reservations whose time has
      come precede those still to come: the rows with resolve buttons form a
      prefix of the tab. */
  lemma UpdatableComeFirst(list: seq<Reservation>, now: int, i: int, j: int)
    requires 0 <= i < j < |SplitTabs(list).active|
    requires CanUpdate(SplitTabs(list).active[j], now)
    ensures CanUpdate(SplitTabs(list).active[i], now)
  {
    var active := SplitTabs(list).active;
    assert Key(true, active[i]) <= Key(true, active[j]);
  }

  /** The action cell of a desktop row. */
  datatype ActionCell = NoAction | ResolveButtons(disabled: bool) | ArrivingSoon

  datatype Row = Row(id: nat, action: ActionCell)

  datatype TableBody = NoReservationsRow(colSpan: nat) | Rows(rows: seq<Row>)

  datatype Table = Table(actionsHeader: bool, body: TableBody)

  /** The action cell of one row: both resolve buttons, disabled by the
      resolve request's flag, once the reservation's time has come. */
  function RowAction(r: Reservation, now: int, showActions: bool, pending: bool): (a: ActionCell)
    ensures a.NoAction? <==> !showActions
    ensures a.ResolveButtons? <==> showActions && CanUpdate(r, now)
    ensures a.ResolveButtons? ==> a.disabled == pending
  {
    if !showActions then NoAction else if CanUpdate(r, now) then ResolveButtons(pending) else ArrivingSoon
  }

  /** The table on wide screens; `pending` is the resolve mutation's flag. */
  function DesktopTable(list: seq<Reservation>, now: int, showActions: bool, pending: bool): (t: Table)
    ensures t.actionsHeader == showActions
    ensures |list| == 0 <==> t.body.NoReservationsRow?
    ensures t.body.NoReservationsRow? ==> t.body.colSpan == if showActions then 5 else 4
    ensures t.body.Rows? ==> |t.body.rows| == |list|
    ensures t.body.Rows? ==> forall i | 0 <= i < |list| :: t.body.rows[i].id == list[i].id
    ensures t.body.Rows? ==> forall i | 0 <= i < |list| ::
              (t.body.rows[i].action.ResolveButtons? <==> showActions && CanUpdate(list[i], now))
              && (t.body.rows[i].action.ArrivingSoon? <==> showActions && !CanUpdate(list[i], now))
              && (t.body.rows[i].action.NoAction? <==> !showActions)
    ensures t.body.Rows? ==> forall i | 0 <= i < |list| ::
              t.body.rows[i].action.ResolveButtons? ==> t.body.rows[i].action.disabled == pending
  {
    Table(showActions,
      if |list| == 0 then NoReservationsRow(if showActions then 5 else 4)
      else Rows(seq(|list|, i requires 0 <= i < |list| => Row(list[i].id, RowAction(list[i], now, showActions, pending)))))
  }

  /** A card on narrow screens: the buttons (with their disabled flag) and
      the "Arriving soon" note. */
  datatype CardView = CardView(id: nat, buttons: Option<bool>, arrivingSoon: bool)

  datatype MobileList = NoReservationsNote | CardList(cards: seq<CardView>)

  function MobileCards(list: seq<Reservation>, now: int, showActions: bool, pending: bool): (m: MobileList)
    ensures |list| == 0 <==> m.NoReservationsNote?
    ensures m.CardList? ==> |m.cards| == |list|
    ensures m.CardList? ==> forall i | 0 <= i < |list| ::
              m.cards[i].id == list[i].id
              && (m.cards[i].buttons.Some? <==> showActions && CanUpdate(list[i], now))
              && (m.cards[i].buttons.Some? ==> m.cards[i].buttons.value == pending)
              && (m.cards[i].arrivingSoon <==> !CanUpdate(list[i], now))
  {
    if |list| == 0 then NoReservationsNote
    else CardList(seq(|list|, i requires 0 <= i < |list| =>
      CardView(list[i].id,
               if showActions && CanUpdate(list[i], now) then Some(pending) else None,
               !CanUpdate(list[i], now))))
  }

  /** With actions both views offer the same buttons and notes; without them
      the table shows an empty cell while a card still says "Arriving soon"
      for a reservation whose time has not come. */
  lemma ViewsAgreeOnActions(list: seq<Reservation>, now: int, showActions: bool, pending: bool, i: int)
    requires 0 <= i < |list|
    ensures DesktopTable(list, now, showActions, pending).body.Rows?
    ensures MobileCards(list, now, showActions, pending).CardList?
    ensures showActions ==>
              (DesktopTable(list, now, showActions, pending).body.rows[i].action == ResolveButtons(pending)
               <==> MobileCards(list, now, showActions, pending).cards[i].buttons == Some(pending))
    ensures showActions ==>
              (DesktopTable(list, now, showActions, pending).body.rows[i].action == ArrivingSoon
               <==> MobileCards(list, now, showActions, pending).cards[i].arrivingSoon)
    ensures !showActions ==>
              DesktopTable(list, now, showActions, pending).body.rows[i].action == NoAction
              && (MobileCards(list, now, showActions, pending).cards[i].arrivingSoon <==> !CanUpdate(list[i], now))
  {
  }

  /** The two buttons of a row or card ask to resolve that reservation. */
  datatype ResolveChoice = Complete | NoShow

  /** `handleResolve(id, status)`'s arguments for each button. */
  function ResolveArguments(r: Reservation, choice: ResolveChoice): (a: (nat, string))
    ensures a.0 == r.id
    ensures a.1 == "completed" <==> choice == Complete
    ensures a.1 == "no-show" <==> choice == NoShow
  {
    (r.id, if choice == Complete then "completed" else "no-show")
  }

  // ---------------------------------------------------------------------------
  // Resolve notifications

  const ResolvePending := "Processing..."

  /** A sonner notification. */
  datatype Toast = SuccessToast(message: Json) | ErrorToast(message: Json)

  /** How a resolve request settled. */
  datatype ResolveOutcome = Resolved(data: Json) | ResolveFailed(err: Thrown)

  /** The notification once the request settles. A `null` response makes the
      success callback throw, and the promise chain hands that `TypeError`
      to the error callback; `None` where the error callback itself throws
      (reading `message` of `null` or `undefined`). */
  function ResolveToast(outcome: ResolveOutcome): (t: Option<Toast>)
    ensures t.Some? ==> Truthy(t.value.message)
    ensures outcome.Resolved? && outcome.data != JNull ==>
              t == Some(SuccessToast(OrElse(Get(Some(outcome.data), "message"), JStr("Guest reservation status updated successfully!"))))
    ensures outcome == Resolved(JNull) ==> t == Some(ErrorToast(JStr(NullReadMessage("message"))))
    ensures outcome.ResolveFailed? && !Nullish(outcome.err) ==>
              t == Some(ErrorToast(OrElse(MessageOf(outcome.err), JStr("Failed to update guest reservation status"))))
    ensures t.None? <==> outcome.ResolveFailed? && Nullish(outcome.err)
  {
    match outcome
    case Resolved(data) =>
      if data == JNull then Some(ErrorToast(JStr(NullReadMessage("message"))))
      else Some(SuccessToast(OrElse(Get(Some(data), "message"), JStr("Guest reservation status updated successfully!"))))
    case ResolveFailed(err) =>
      if Nullish(err) then None
      else Some(ErrorToast(OrElse(MessageOf(err), JStr("Failed to update guest reservation status"))))
  }

  /** A rejected request shows the server's message when it is a non-empty
      string, "Request failed" when there is none, the message's text
      otherwise, and the generic failure text only when that text is empty. */
  lemma ResolveFailureShowsServerMessage(res: Response)
    requires !res.ok
    ensures var t := ResolveToast(ResolveFailed(ThrownApiError(Classify(res).error)));
            t.Some? && t.value.ErrorToast?
            && (HasTextMessage(res) ==> t.value.message == ServerMessage(res).value)
            && (!TruthyOpt(ServerMessage(res)) ==> t.value.message == JStr("Request failed"))
            && (TruthyOpt(ServerMessage(res)) && JsString(ServerMessage(res).value) != "" ==>
                  t.value.message == JStr(JsString(ServerMessage(res).value)))
            && (TruthyOpt(ServerMessage(res)) && JsString(ServerMessage(res).value) == "" ==>
                  t.value.message == JStr("Failed to update guest reservation status"))
  {
  }
}

=== FILE: session.dfy ===
/** The session controller: the current-user query `['me']` and the login,
    signup and logout mutations, with the cache operations each mutation runs
    when it succeeds. Two controllers exist in the source: the context
    provider (`AuthProvider`) and an older hook (`useAuth` in hooks.js).
    Both read the same query cache; they differ in their success callbacks
    and in what they expose. */
module Session {
  import opened Wrappers
  import opened Json
  import opened Domain
  import opened QueryCache
  import opened ApiFetch

  /** What the cache holds: `null`, a user, or some other server resource. */
  datatype Value = Null | UserValue(user: User) | Resource(json: Json)

  const MeKey: Key := ["me"]

  // ---------------------------------------------------------------------------
  // Query and mutation configuration

  /** `retry: false` is zero retries. */
  datatype QueryConfig = QueryConfig(key: Key, fetcher: string, staleTimeMs: nat, retries: nat)

  /** The application-wide query defaults: one retry, one minute fresh. */
  const ClientDefaults: QueryConfig := QueryConfig([], "", 1000 * 60, 1)

  /** The current-user query: key `['me']`, fetched with `me()`. */
  function CurrentUserQuery(): (q: QueryConfig)
    ensures q.key == MeKey && q.fetcher == "me"
    ensures q.staleTimeMs == 300000 && q.staleTimeMs == 5 * ClientDefaults.staleTimeMs
    ensures q.retries == 0 && q.retries < ClientDefaults.retries
  {
    QueryConfig(MeKey, "me", 1000 * 60 * 5, 0)
  }

  /** A value in a mutation's options object. */
  datatype OptionValue = FnRef(name: string) | Callback(effects: seq<CacheOp>)

  /** `useMutation({ mutationFn: fn, ...options })`: the caller's keys are
      spread last, so they override the default function. */
  function MutationOptions(fn: string, options: map<string, OptionValue>): (r: map<string, OptionValue>)
    ensures r.Keys == options.Keys + {"mutationFn"}
    ensures forall k :: k in options ==> r[k] == options[k]
    ensures "mutationFn" !in options ==> r["mutationFn"] == FnRef(fn)
  {
    map["mutationFn" := FnRef(fn)] + options
  }

  // ---------------------------------------------------------------------------
  // Cache operations run by success callbacks

  datatype CacheOp =
    | InvalidateOp(filter: Key)
    | ResetOp(filter: Key)
    | SetDataOp(key: Key, v: Value)
    | InvalidateAllOp

  function ApplyOp(c: Cache<Value>, op: CacheOp): Cache<Value>
  {
    match op
    case InvalidateOp(f) => Invalidate(c, f)
    case ResetOp(f) => Reset(c, f)
    case SetDataOp(k, v) => SetData(c, k, v)
    case InvalidateAllOp => InvalidateAll(c)
  }

  /** The operations applied in order, first to last. */
  function ApplyOps(c: Cache<Value>, ops: seq<CacheOp>): Cache<Value>
    decreases |ops|
  {
    if |ops| == 0 then c else ApplyOps(ApplyOp(c, ops[0]), ops[1..])
  }

  datatype Variant = Provider | LegacyHooks

  datatype Op = Login | Signup | Logout

  /** The older hook has no signup. */
  predicate Offers(v: Variant, op: Op)
  {
    v == Provider || op != Signup
  }

  /** The `onSuccess` callback of each mutation, as a list of cache operations. */
  function OnSuccess(v: Variant, op: Op): (ops: seq<CacheOp>)
    requires Offers(v, op)
    ensures |ops| > 0
    ensures op != Logout <==> ops == [InvalidateOp(MeKey)]
    ensures op == Logout ==> ops[0] == ResetOp(MeKey) || ops[0] == SetDataOp(MeKey, Null)
    ensures InvalidateAllOp in ops <==> v == Provider && op == Logout
  {
    match (v, op)
    case (Provider, Logout) => [ResetOp(MeKey), InvalidateAllOp]
    case (LegacyHooks, Logout) => [SetDataOp(MeKey, Null)]
    case _ => [InvalidateOp(MeKey)]
  }

  // ---------------------------------------------------------------------------
  // Mutation state

  datatype MutationStatus = Idle | Loading | Success | Error

  datatype MutationState = MutationState(status: MutationStatus, error: Option<Thrown>)

  const IdleMutation: MutationState := MutationState(Idle, None)

  datatype State = State(cache: Cache<Value>, login: MutationState, signup: MutationState, logout: MutationState)

  function OpState(s: State, op: Op): MutationState
  {
    match op
    case Login => s.login
    case Signup => s.signup
    case Logout => s.logout
  }

  function WithOpState(s: State, op: Op, m: MutationState): (s': State)
    ensures OpState(s', op) == m && s'.cache == s.cache
    ensures forall o :: o != op ==> OpState(s', o) == OpState(s, o)
  {
    match op
    case Login => s.(login := m)
    case Signup => s.(signup := m)
    case Logout => s.(logout := m)
  }

  datatype Event =
    | Mutate(op: Op)                      // `mutate(...)` was called
    | MutationSucceeded(op: Op)           // the request resolved
    | MutationFailed(op: Op, err: Thrown) // the request threw
    | ResetMutation(op: Op)               // `reset()` was called
    | MeFetchSucceeded(user: Option<User>) // `GET /auth/me` returned a user or `null`
    | MeFetchFailed                       // `GET /auth/me` threw; not retried

  predicate Allowed(v: Variant, e: Event)
  {
    (e.MeFetchSucceeded? || e.MeFetchFailed?) || Offers(v, e.op)
  }

  /** One transition of the controller. A success runs the callback's cache
      operations before the mutation reports `success`. */
  function Step(v: Variant, s: State, e: Event): (s': State)
    requires Allowed(v, e)
    ensures e.Mutate? ==> OpState(s', e.op) == MutationState(Loading, None)
    ensures e.MutationSucceeded? ==> OpState(s', e.op) == MutationState(Success, None)
    ensures e.MutationFailed? ==> OpState(s', e.op) == MutationState(Error, Some(e.err))
    ensures e.ResetMutation? ==> OpState(s', e.op) == IdleMutation
    ensures e.Mutate? || e.MutationFailed? || e.ResetMutation? ==> s'.cache == s.cache
    ensures e.MeFetchSucceeded? || e.MeFetchFailed? ==>
              s'.login == s.login && s'.signup == s.signup && s'.logout == s.logout && !IsLoadingUser(s')
    ensures e.MeFetchSucceeded? ==> CurrentUser(s') == e.user
    ensures e.MeFetchFailed? ==> CurrentUser(s') == CurrentUser(s)
  {
    match e
    case Mutate(op) => WithOpState(s, op, MutationState(Loading, None))
    case MutationSucceeded(op) =>
      WithOpState(s.(cache := ApplyOps(s.cache, OnSuccess(v, op))), op, MutationState(Success, None))
    case MutationFailed(op, err) => WithOpState(s, op, MutationState(Error, Some(err)))
    case ResetMutation(op) => WithOpState(s, op, IdleMutation)
    case MeFetchSucceeded(u) =>
      s.(cache := FetchSucceeded(s.cache, MeKey, if u.Some? then UserValue(u.value) else Null))
    case MeFetchFailed => s.(cache := FetchFailed(s.cache, MeKey))
  }

  // ---------------------------------------------------------------------------
  // The exposed session value

  /** The user when `['me']` holds one; `undefined` and `null` are no user. */
  function CurrentUser(s: State): (u: Option<User>)
    ensures u.Some? ==> DataOf(s.cache, MeKey) == Some(UserValue(u.value))
    ensures u.None? <==> DataOf(s.cache, MeKey).None? || !DataOf(s.cache, MeKey).value.UserValue?
  {
    var d: Option<Value> := DataOf(s.cache, MeKey);
    match d
    case Some(UserValue(u)) => Some(u)
    case _ => None
  }

  /** The query's `isLoading`, as the context exposes it. */
  function IsLoadingUser(s: State): (b: bool)
    ensures MeKey !in s.cache ==> b
    ensures forall v :: b == Expose(v, s).isLoadingUser
  {
    IsLoading(s.cache, MeKey)
  }

  /** A mutation as the context exposes it: `isLoading`, `error`, `status`. */
  datatype OpView = OpView(isLoading: bool, error: Option<Thrown>, status: MutationStatus)

  function View(m: MutationState): (o: OpView)
    ensures o.isLoading <==> m.status == Loading
    ensures o.error == m.error && o.status == m.status
  {
    OpView(m.status == Loading, m.error, m.status)
  }

  datatype AuthValue = AuthValue(
    currentUser: Option<Value>,
    isLoadingUser: bool,
    hasUserError: bool,
    login: OpView,
    signup: Option<OpView>,
    logout: OpView)

  /** The value the provider puts in context, or the hook returns. */
  function Expose(v: Variant, s: State): (a: AuthValue)
    ensures a.currentUser == DataOf(s.cache, MeKey)
    ensures a.isLoadingUser <==> IsLoading(s.cache, MeKey)
    ensures a.signup.Some? <==> v == Provider
    ensures a.login.isLoading <==> s.login.status == Loading
    ensures a.logout.isLoading <==> s.logout.status == Loading
    ensures a.signup.Some? ==> (a.signup.value.isLoading <==> s.signup.status == Loading)
    ensures a.login.error == s.login.error && a.logout.error == s.logout.error
  {
    AuthValue(
      DataOf(s.cache, MeKey),
      IsLoading(s.cache, MeKey),
      MeKey in s.cache && s.cache[MeKey].status == QueryError,
      View(s.login),
      if v == Provider then Some(View(s.signup)) else None,
      View(s.logout))
  }

  // ---------------------------------------------------------------------------
  // Properties of the protocol

  /** `['me']` only ever holds a user or `null`. */
  predicate MeWellFormed(s: State)
  {
    MeKey in s.cache && s.cache[MeKey].data.Some? ==> !s.cache[MeKey].data.value.Resource?
  }

  lemma {:induction false} StepPreservesMeWellFormed(v: Variant, s: State, e: Event)
    requires Allowed(v, e) && MeWellFormed(s)
    ensures MeWellFormed(Step(v, s, e))
  {
    if e.MutationSucceeded? {
      var ops := OnSuccess(v, e.op);
      if v == Provider && e.op == Logout {
        assert ops == [ResetOp(MeKey), InvalidateAllOp];
        assert ops[1..] == [InvalidateAllOp];
        assert ApplyOps(s.cache, ops) == ApplyOps(Reset(s.cache, MeKey), [InvalidateAllOp]);
        assert ApplyOps(s.cache, ops) == ApplyOps(InvalidateAll(Reset(s.cache, MeKey)), []);
      } else {
        assert ApplyOps(s.cache, ops) == ApplyOps(ApplyOp(s.cache, ops[0]), []);
      }
    }
  }

  /** A successful login (either controller) or signup invalidates `['me']`
      and does nothing else to the cache: no data changes, so the login
      response never becomes the current user. */
  lemma {:induction false} LoginOrSignupSuccessInvalidatesMe(v: Variant, s: State, op: Op)
    requires op == Login || (op == Signup && v == Provider)
    ensures Step(v, s, MutationSucceeded(op)).cache == Invalidate(s.cache, MeKey)
    ensures forall k :: k in s.cache && !Matches(MeKey, k) ==> Step(v, s, MutationSucceeded(op)).cache[k] == s.cache[k]
    ensures CurrentUser(Step(v, s, MutationSucceeded(op))) == CurrentUser(s)
    ensures OpState(Step(v, s, MutationSucceeded(op)), op) == MutationState(Success, None)
  {
    assert OnSuccess(v, op) == [InvalidateOp(MeKey)];
    assert ApplyOps(s.cache, OnSuccess(v, op)) == ApplyOps(Invalidate(s.cache, MeKey), []);
  }

  /** The provider's logout resets `['me']` and then invalidates everything:
      no user, `['me']` back to loading, every query stale. Other queries keep
      their data (they are only marked stale). */
  lemma {:induction false} ProviderLogoutSuccess(s: State)
    ensures Step(Provider, s, MutationSucceeded(Logout)).cache == InvalidateAll(Reset(s.cache, MeKey))
    ensures CurrentUser(Step(Provider, s, MutationSucceeded(Logout))) == None
    ensures MeKey in s.cache ==> IsLoadingUser(Step(Provider, s, MutationSucceeded(Logout)))
    ensures forall k :: k in s.cache ==> Step(Provider, s, MutationSucceeded(Logout)).cache[k].stale
    ensures forall k :: k in s.cache && !Matches(MeKey, k) ==>
              Step(Provider, s, MutationSucceeded(Logout)).cache[k].data == s.cache[k].data
  {
    var ops := OnSuccess(Provider, Logout);
    assert ops[1..] == [InvalidateAllOp];
    assert ApplyOps(s.cache, ops) == ApplyOps(InvalidateAll(Reset(s.cache, MeKey)), []);
  }

  /** The older hook's logout writes `null` into `['me']`: no user, not
      loading, and every other query untouched. */
  lemma {:induction false} LegacyLogoutSuccess(s: State)
    ensures Step(LegacyHooks, s, MutationSucceeded(Logout)).cache == SetData(s.cache, MeKey, Null)
    ensures CurrentUser(Step(LegacyHooks, s, MutationSucceeded(Logout))) == None
    ensures !IsLoadingUser(Step(LegacyHooks, s, MutationSucceeded(Logout)))
    ensures forall k :: k in s.cache && k != MeKey ==> Step(LegacyHooks, s, MutationSucceeded(Logout)).cache[k] == s.cache[k]
  {
    assert ApplyOps(s.cache, OnSuccess(LegacyHooks, Logout)) == ApplyOps(SetData(s.cache, MeKey, Null), []);
  }

  /** Callbacks run only on success: starting, failing or resetting a
      mutation leaves the cache alone and touches only that mutation's state. */
  lemma MutationBookkeepingLeavesCache(v: Variant, s: State, e: Event)
    requires e.Mutate? || e.MutationFailed? || e.ResetMutation?
    requires Offers(v, e.op)
    ensures Step(v, s, e).cache == s.cache
    ensures forall o :: o != e.op ==> OpState(Step(v, s, e), o) == OpState(s, o)
    ensures e.MutationFailed? ==> OpState(Step(v, s, e), e.op) == MutationState(Error, Some(e.err))
  {
  }

  /** Each operation's state is its own: no event about one operation changes another's. */
  lemma OperationsIndependent(v: Variant, s: State, e: Event, other: Op)
    requires Allowed(v, e)
    requires !(e.MeFetchSucceeded? || e.MeFetchFailed?) ==> other != e.op
    ensures OpState(Step(v, s, e), other) == OpState(s, other)
  {
  }

  /** Only the `['me']` fetch and a successful logout change the current user. */
  lemma {:induction false} CurrentUserWriters(v: Variant, s: State, e: Event)
    requires Allowed(v, e)
    requires CurrentUser(Step(v, s, e)) != CurrentUser(s)
    ensures e.MeFetchSucceeded? || e == MutationSucceeded(Logout)
  {
    if e.MutationSucceeded? && e.op != Logout {
      LoginOrSignupSuccessInvalidatesMe(v, s, e.op);
    }
  }

  /** Logout, login, then the re-fetch: the user is the one `/auth/me`
      returned, not anything carried by the login response. */
  lemma {:induction false} ReloginUsesRefetchedUser(v: Variant, s: State, u: User)
    ensures var s1 := Step(v, s, MutationSucceeded(Logout));
            var s2 := Step(v, s1, MutationSucceeded(Login));
            var s3 := Step(v, s2, MeFetchSucceeded(Some(u)));
            CurrentUser(s1) == None && CurrentUser(s2) == None && CurrentUser(s3) == Some(u)
  {
    var s1 := Step(v, s, MutationSucceeded(Logout));
    if v == Provider { ProviderLogoutSuccess(s); } else { LegacyLogoutSuccess(s); }
    LoginOrSignupSuccessInvalidatesMe(v, s1, Login);
  }

  /** Logging out when already logged out still ends with no user. */
  lemma {:induction false} LogoutIdempotent(v: Variant, s: State)
    ensures CurrentUser(Step(v, Step(v, s, MutationSucceeded(Logout)), MutationSucceeded(Logout))) == None
  {
    var s1 := Step(v, s, MutationSucceeded(Logout));
    if v == Provider { ProviderLogoutSuccess(s1); } else { LegacyLogoutSuccess(s1); }
  }
}

=== FILE: text.dfy ===
/** String helpers shared by the validators, the list filter and the request
    paths. Case mapping is ASCII only; JavaScript's full Unicode case mapping
    is outside the model. */
module Text {

  predicate IsAsciiUpper(c: char) { 'A' <= c <= 'Z' }

  predicate IsAsciiLower(c: char) { 'a' <= c <= 'z' }

  /** `\d` in a JavaScript regular expression: the ASCII digits only. */
  predicate IsDigit(c: char) { '0' <= c <= '9' }

  function LowerChar(c: char): char
  {
    if IsAsciiUpper(c) then (c as int + 32) as char else c
  }

  function UpperChar(c: char): char
  {
    if IsAsciiLower(c) then (c as int - 32) as char else c
  }

  /** `s.toLowerCase()`, ASCII letters only. */
  function Lower(s: string): (r: string)
    ensures |r| == |s|
    ensures forall i :: 0 <= i < |s| ==> r[i] == LowerChar(s[i])
  {
    seq(|s|, i requires 0 <= i < |s| => LowerChar(s[i]))
  }

  /** `hay.includes(needle)`: `needle` occurs somewhere in `hay`. */
  predicate IsSubstring(needle: string, hay: string)
  {
    exists i | 0 <= i <= |hay| :: needle <= hay[i..]
  }

  lemma EmptyIsSubstring(hay: string)
    ensures IsSubstring("", hay)
  {
    assert "" <= hay[0..];
  }

  /** `s.charAt(0).toUpperCase() + s.slice(1)`. */
  function Capitalize(s: string): (r: string)
    ensures |r| == |s|
    ensures |s| > 0 ==> r[0] == UpperChar(s[0]) && r[1..] == s[1..]
  {
    if |s| == 0 then "" else [UpperChar(s[0])] + s[1..]
  }

  /** `s.slice(0, n)`: at most the first `n` characters. */
  function Take(s: string, n: nat): (r: string)
    ensures r <= s
    ensures |r| == if |s| < n then |s| else n
  {
    if |s| <= n then s else s[..n]
  }

  /** JavaScript's `length`: UTF-16 code units, two for a character outside
      the Basic Multilingual Plane. */
  function Utf16Length(s: string): (n: nat)
    ensures n >= |s|
    decreases |s|
  {
    if |s| == 0 then 0 else Utf16Length(s[..|s| - 1]) + (if s[|s| - 1] as int > 0xFFFF then 2 else 1)
  }

  // ---------------------------------------------------------------------------
  // Decimal numerals (Number.prototype.toString on non-negative integers)

  function DigitChar(d: nat): (c: char)
    requires d < 10
    ensures IsDigit(c)
  {
    "0123456789"[d]
  }

  function DigitValue(c: char): (d: nat)
    requires IsDigit(c)
    ensures d < 10
  {
    c as int - '0' as int
  }

  lemma DigitRoundTrip(d: nat)
    requires d < 10
    ensures DigitValue(DigitChar(d)) == d
  {
  }

  predicate AllDigits(s: string)
  {
    forall i :: 0 <= i < |s| ==> IsDigit(s[i])
  }

  /** `n.toString()` for a non-negative integer. */
  function NatToString(n: nat): (r: string)
    ensures |r| >= 1
    ensures AllDigits(r)
    decreases n
  {
    if n < 10 then [DigitChar(n)] else NatToString(n / 10) + [DigitChar(n % 10)]
  }

  /** Reads a numeral back; the partner of `NatToString`. */
  function ParseNat(s: string): nat
    requires AllDigits(s)
    decreases |s|
  {
    if |s| == 0 then 0 else ParseNat(s[..|s| - 1]) * 10 + DigitValue(s[|s| - 1])
  }

  lemma {:induction false} ParseNatToString(n: nat)
    ensures ParseNat(NatToString(n)) == n
    decreases n
  {
    var r := NatToString(n);
    if n < 10 {
      DigitRoundTrip(n);
    } else {
      ParseNatToString(n / 10);
      assert r[..|r| - 1] == NatToString(n / 10);
      DigitRoundTrip(n % 10);
    }
  }

  /** Distinct numbers print as distinct numerals. */
  lemma NatToStringInjective(a: nat, b: nat)
    requires NatToString(a) == NatToString(b)
    ensures a == b
  {
    ParseNatToString(a);
    ParseNatToString(b);
  }

  /** `s.padStart(2, '0')`. */
  function PadStart2(s: string): (r: string)
    ensures |s| < 2 ==> |r| == 2
    ensures |s| >= 2 ==> r == s
  {
    if |s| == 0 then "00" else if |s| == 1 then "0" + s else s
  }

  // ---------------------------------------------------------------------------
  // Splitting and joining on a separator (paths are '/'-separated segments)

  function Join(segs: seq<string>, sep: char): string
  {
    if |segs| == 0 then ""
    else if |segs| == 1 then segs[0]
    else segs[0] + [sep] + Join(segs[1..], sep)
  }

  /** `s.split(sep)` for a one-character separator: never empty. */
  function Split(s: string, sep: char): (r: seq<string>)
    ensures |r| >= 1
    decreases |s|
  {
    if |s| == 0 then [""]
    else
      var rest := Split(s[1..], sep);
      if s[0] == sep then [""] + rest else [[s[0]] + rest[0]] + rest[1..]
  }

  lemma {:induction false} SplitPrefix(a: string, t: string, sep: char)
    requires sep !in a
    ensures Split(a + t, sep) == [a + Split(t, sep)[0]] + Split(t, sep)[1..]
    decreases |a|
  {
    if |a| > 0 {
      assert (a + t)[1..] == a[1..] + t;
      assert sep != a[0];
      SplitPrefix(a[1..], t, sep);
      assert [a[0]] + (a[1..] + Split(t, sep)[0]) == a + Split(t, sep)[0];
    } else {
      var r := Split(t, sep);
      assert a + t == t && a + r[0] == r[0];
      assert [r[0]] + r[1..] == r;
    }
  }

  /** Splitting undoes joining when no segment contains the separator. */
  lemma {:induction false} SplitJoin(segs: seq<string>, sep: char)
    requires |segs| >= 1
    requires forall i :: 0 <= i < |segs| ==> sep !in segs[i]
    ensures Split(Join(segs, sep), sep) == segs
    decreases |segs|
  {
    if |segs| == 1 {
      SplitPrefix(segs[0], "", sep);
      assert segs[0] + "" == segs[0];
    } else {
      var rest := Join(segs[1..], sep);
      SplitJoin(segs[1..], sep);
      assert Join(segs, sep) == segs[0] + ([sep] + rest);
      SplitPrefix(segs[0], [sep] + rest, sep);
      assert ([sep] + rest)[1..] == rest;
      assert Split([sep] + rest, sep) == [""] + segs[1..];
      assert segs[0] + "" == segs[0];
    }
  }

  /** Joining undoes splitting. */
  lemma {:induction false} JoinSplit(s: string, sep: char)
    ensures Join(Split(s, sep), sep) == s
    decreases |s|
  {
    if |s| > 0 {
      var rest := Split(s[1..], sep);
      JoinSplit(s[1..], sep);
      if s[0] == sep {
        assert Join([""] + rest, sep) == "" + [sep] + Join(rest, sep);
        assert s == [s[0]] + s[1..];
      } else {
        var r := [[s[0]] + rest[0]] + rest[1..];
        if |rest| == 1 {
          assert Join(r, sep) == [s[0]] + rest[0];
          assert s == [s[0]] + s[1..];
        } else {
          assert r[1..] == rest[1..];
          assert Join(r, sep) == [s[0]] + rest[0] + [sep] + Join(rest[1..], sep);
          assert Join(rest, sep) == rest[0] + [sep] + Join(rest[1..], sep);
          assert s == [s[0]] + s[1..];
        }
      }
    }
  }
}

=== FILE: wrappers.dfy ===
/** Optional values: `None` stands for JavaScript's `undefined` (an absent
    property, a query without data, a missing location state). */
module Wrappers {

  datatype Option<+T> = None | Some(value: T) {

    /** The value, or `default` when absent (JavaScript's `x ?? default`). */
    function GetOr(default: T): T
    {
      match this
      case Some(v) => v
      case None => default
    }
  }

  /** The outcome of a call that either returns a value or throws. */
  datatype Result<+T, +E> = Ok(value: T) | Err(error: E)
}
